=== FILE: README.md ===
# Workflow-app core, modelled in Dafny

Workflow-app is a task, project and team tracker. An Express/MongoDB back end
serves per-user collections of tasks, projects, teams, notifications, users and
connections, which are requests to join someone's team. A React front end shows
them. This project models the logic in between:

- **Statistics** (`Stats`): the counts, the completion rate and the seven-day
  completion series of `getStats`. The series is built by a `while` loop,
  proved against the function `Week`.
- **Guarded stores**. Each controller's collection is a class holding a
  `seq<Doc<T>>` in insertion order, where a document is an identifier, a
  creation time and a body. Every operation returns its HTTP status code, and
  its `ensures` gives the whole new collection in terms of the old one:
  - `Connections.ConnectionStore`: the request state machine;
  - `Teams.TeamStore`: membership lists;
  - `Notifications.NotificationStore`: read flags;
  - `Tasks.TaskStore` and `Projects.ProjectStore`: creator-guarded records;
  - `Users.UserStore`: profile update and soft delete;
  - `Auth`: register and login.

  Each class keeps the invariant `Valid()` (identifiers unique, plus each
  store's own well-formedness). New identifiers and clock readings come in as
  parameters.
- **Gatekeeping**:
  - `Gate`: bearer-token extraction, `protect` and `authorize`;
  - `ErrorHandler`: the ordered error-to-status rules;
  - `Ownership`: how the controllers compare a record's owner with the caller.
- **Page logic**. One module per page of the front end: `RegisterPage`,
  `DashboardPage`, `TeamPage`, `NotificationsPage`, `ProfilePage`,
  `CreateTaskPage`, `TasksPage` and `ProjectsPage`. Shared list and form helpers
  live in `Client`.
- **Shared modules**:
  - `Common`, `Domain`: identifiers, status codes, the enums and defaults of the
    schemas;
  - `Store`: filtering, lookup by identifier, removal, sorting;
  - `Text`: the JavaScript string operations used (`trim`, ASCII case mapping,
    `split`, decimal rendering).

Where the code and the intended behaviour disagree, the model follows the code:

- The task schema spells `required` as `require` on `project`
  (`backend/models/Task.js:26-30`), so a task's project is optional.
- `deleteUser` performs no authorization check of its own.
- `register` accepts a `role` from the request body.
- `login` and `protect` do not look at `isActive`.
- The edit picker of the task list has no fallback for a nameless user
  (`TasksPage.StrictSearch`).

The model deliberately departs from the code in two places, both listed under
"## Findings": the owner comparison of the controllers, and the team page's
reading of the session user's identifier.

## Model

| member | source | states |
|---|---|---|
| Domain.StatusName | backend/models/Task.js:16-20 | a status is written as one of the three enum texts |
| Domain.PriorityName | backend/models/Task.js:21-25 | a priority is written as one of the three enum texts |
| Domain.ParseStatus | backend/models/Project.js:15-19 | an accepted text is exactly the name of the status it yields |
| Domain.StatusRoundTrip | backend/models/Task.js:16-20 | parsing the name of any status gives that status back |
| Domain.ParsePriority | backend/models/Task.js:21-25 | an accepted text is exactly the name of the priority it yields |
| Domain.PriorityRoundTrip | backend/models/Task.js:21-25 | parsing the name of any priority gives it back |
| Domain.KindName | backend/models/Notification.js:13-17 | a notification type is written as one of the five enum texts |
| Domain.ParseKind | backend/models/Notification.js:13-17 | an accepted text is exactly the name of the type it yields |
| Domain.KindRoundTrip | backend/models/Notification.js:13-17 | parsing the name of any notification type gives it back |
| Text.TrimStart | frontend/src/pages/Dashboard.jsx:93 | the result is a suffix of the input, starts with a non-blank and only blanks were removed |
| Text.TrimEnd | frontend/src/pages/Dashboard.jsx:93 | the result is a prefix of the input, ends with a non-blank and only blanks were removed |
| Text.Trim | frontend/src/pages/Dashboard.jsx:93 | the result is the part of the input left between a blank prefix and a blank suffix, and it begins and ends with a non-blank |
| Text.TrimInfix | frontend/src/pages/Dashboard.jsx:93 | trimming the end after the start leaves an infix with only blanks around it |
| Text.TrimEmptyIffBlank | frontend/src/pages/Dashboard.jsx:93 | trimming gives "" exactly for an all-blank text |
| Text.LowerChar | frontend/src/pages/CreateTask.jsx:217 | upper-case ASCII letters map to their lower case, everything else to itself |
| Text.UpperChar | backend/controllers/authController.js:32 | lower-case ASCII letters map to their upper case, everything else to itself |
| Text.ToLower | frontend/src/pages/CreateTask.jsx:217 | same length, each character lower-cased |
| Text.ToUpper | backend/controllers/authController.js:32 | same length, each character upper-cased |
| Text.Prefix | backend/controllers/authController.js:32 | `substring(0, n)`: the first `min(n, length)` characters |
| Text.Split | backend/middleware/auth.js:9 | at least one field, and no field contains the separator |
| Text.SplitJoin | backend/middleware/auth.js:9 | joining the fields with the separator gives back the text |
| Text.SplitNoSeparator | backend/middleware/auth.js:9 | a text without the separator is a single field |
| Text.SplitAtFirst | backend/middleware/auth.js:9 | the first field is the text before the first separator, then the rest is split |
| Text.SplitFirstField | frontend/src/pages/Projects.jsx:61 | the first field is a prefix of the text, followed by the separator when shorter |
| Text.DigitChar | frontend/src/pages/Notifications.jsx:79 | a digit value maps to a digit character |
| Text.Decimal | frontend/src/pages/Notifications.jsx:79 | a number's text is digits denoting that number, without a leading zero, one digit exactly when the number is below 10 |
| Text.IntText | backend/models/Project.js:20-25 | an integer's text starts with `-` exactly when it is negative, and its digits denote the integer's magnitude |
| Text.LexTotal | backend/controllers/userController.js:7 | the name order is total, so any two users can be sorted |
| Store.Where | backend/controllers/statsController.js:23 | `filter`: keeps exactly the elements satisfying the test, never more than the input |
| Store.IndexOf | backend/controllers/taskController.js:81-88 | `findById`: the first document with that identifier, None exactly when there is none |
| Store.IndexOfUnique | backend/controllers/taskController.js:81-88 | with unique identifiers, the lookup of a document's identifier finds that document |
| Store.Without | backend/controllers/taskController.js:138 | deletion removes one document, keeps identifiers unique and leaves every other document |
| Store.Insert | backend/controllers/taskController.js:9 | inserting into a sorted list keeps it sorted and adds exactly that element |
| Store.SortBy | backend/controllers/taskController.js:9 | the sort returns an ordered permutation of its input |
| Store.NewestFirst | backend/controllers/taskController.js:9 | `sort({ createdAt: -1 })`: non-increasing creation times, a permutation of the input |
| Ownership.RequestUserId | backend/middleware/auth.js:32 | `req.userId` is an ObjectId whose text is the user's identifier |
| Ownership.OwnerRefusedAsWritten | backend/controllers/taskController.js:91 | the strict comparison as written refuses every caller, the owner included |
| Ownership.OwnerCheckExactlyOwner | backend/controllers/projectController.js:101 | comparing both sides as text admits exactly the owner |
| Stats.TasksOf | backend/controllers/statsController.js:14-19 | the caller's tasks are exactly those they created or are assigned |
| Stats.ProjectsOf | backend/controllers/statsController.js:9-11 | the caller's projects are exactly those they created or are a member of |
| Stats.StatusCountsPartition | backend/controllers/statsController.js:27-30 | pending + in progress + completed = total tasks |
| Stats.PriorityCountsPartition | backend/controllers/statsController.js:32-34 | high + medium + low = total tasks |
| Stats.ProjectCountsBounded | backend/controllers/statsController.js:22-24 | completed + active projects never exceed the total |
| Stats.CompletionRate | backend/controllers/statsController.js:36 | 0 without tasks, else 100·completed/total rounded half up |
| Stats.CompletionRateRange | backend/controllers/statsController.js:36 | the rate is at most 100, is 100 when all are completed and 0 when none is |
| Stats.InWindowIff | backend/controllers/statsController.js:46-53 | a time lies in a day's inclusive window exactly when it falls on that day; consecutive windows touch and do not overlap |
| Stats.WeekdayLabel | backend/controllers/statsController.js:56 | a day's label is a three-letter weekday name |
| Stats.DayName | backend/controllers/statsController.js:56 | each weekday has a three-letter name |
| Stats.DayNamesDiffer | backend/controllers/statsController.js:56 | the seven weekday names are different |
| Stats.WeekdayLabelsDiffer | backend/controllers/statsController.js:41-56 | seven consecutive days carry seven different labels |
| Stats.Days | backend/controllers/statsController.js:41-58 | `n` entries, the k-th counting completions on day `first + k` |
| Stats.Week | backend/controllers/statsController.js:39-59 | seven entries from six days ago to today, in that order |
| Stats.WeeklyProgress | backend/controllers/statsController.js:39-59 | the loop builds exactly the seven entries of `Week`, oldest first |
| Stats.SingleTaskCount | backend/controllers/statsController.js:50-53 | one task counts on a day exactly when it is completed and its update time falls on that day |
| Stats.DaysBound | backend/controllers/statsController.js:46-53 | over any run of days, the counts add up to at most the completed tasks |
| Stats.WeekTotalBound | backend/controllers/statsController.js:46-53 | the seven daily counts sum to at most the number of completed tasks |
| Stats.SummaryConsistent | backend/controllers/statsController.js:61-85 | the response's counts partition the totals, the rate is at most 100, `tasksByStatus` repeats the task counts, and the week has seven entries bounded by completions |
| Stats.GetStats | backend/controllers/statsController.js:4-92 | the response is the summary of the caller's own tasks and projects |
| Stats.ZeroState | backend/controllers/statsController.js:27-36 | with no tasks and no projects every number is 0 and the week is seven zero entries |
| Connections.FindBetween | backend/controllers/connectionController.js:14-23 | the first connection between the two users in either direction, None when there is none |
| Connections.AcceptAt | backend/controllers/connectionController.js:70-73 | that connection becomes accepted with its parties kept; all others unchanged |
| Connections.AcceptIdempotent | backend/controllers/connectionController.js:70-73 | accepting twice is the same as accepting once |
| Connections.ConnectionStore.constructor | backend/models/Connection.js:15-19 | an empty collection satisfies the store invariant |
| Connections.ConnectionStore.SendRequest | backend/controllers/connectionController.js:5-35 | 400 for a request to oneself or when any connection links the two users, else exactly one pending connection caller→recipient is appended; never writes `rejected` |
| Connections.ConnectionStore.GetRequests | backend/controllers/connectionController.js:42-44 | exactly the connections in which the caller is requester or recipient |
| Connections.ConnectionStore.AcceptRequest | backend/controllers/connectionController.js:55-77 | 404 for an unknown id, 403 for anyone but the recipient, both changing nothing; else only that connection becomes accepted |
| Connections.ConnectionStore.RejectRequest | backend/controllers/connectionController.js:80-105 | 404, then 403 unless the caller is a party, else exactly that connection is deleted |
| Teams.RemoveAll | backend/controllers/teamController.js:180-181 | every occurrence of the id leaves the list, all other members stay |
| Teams.RemoveKeepsOrder | backend/controllers/teamController.js:180-181 | removal distributes over concatenation, so the remaining members keep their order |
| Teams.RemoveAbsent | backend/controllers/teamController.js:180-181 | removing an absent id leaves the list unchanged |
| Teams.AddThenRemove | backend/controllers/teamController.js:142-143 | removing a freshly added member gives back the list before the addition |
| Teams.AppendKeepsNoDuplicates | backend/controllers/teamController.js:135-143 | appending an id not present keeps the list duplicate-free |
| Teams.ApplyPatch | backend/controllers/teamController.js:94-97 | each given field replaces the stored one (the name trimmed), absent fields are kept |
| Teams.EmptyPatchKeeps | backend/controllers/teamController.js:94-97 | an empty update changes nothing |
| Teams.TeamStore.constructor | backend/models/Team.js:5-10 | an empty collection satisfies the store invariant |
| Teams.TeamStore.GetAllTeams | backend/controllers/teamController.js:6-9 | exactly the caller's teams, newest first |
| Teams.TeamStore.CreateTeam | backend/controllers/teamController.js:49-73 | an invalid name gives 500 and changes nothing; else one team is appended, created by the caller, with members `[]` when none are given |
| Teams.TeamStore.UpdateTeam | backend/controllers/teamController.js:75-112 | 404 before 403 for a non-creator, then 500 for an invalid name, each changing nothing; else only that team is patched |
| Teams.TeamStore.AddMember | backend/controllers/teamController.js:114-158 | 404, 403, then 400 for an existing member, each changing nothing; else the id is appended and a duplicate-free list stays so |
| Teams.TeamStore.RemoveMember | backend/controllers/teamController.js:160-196 | 404, 403, else every occurrence of the id leaves that team's list, an absent id included |
| Teams.TeamStore.DeleteTeam | backend/controllers/teamController.js:198-229 | 404, 403, else only that team is removed |
| Notifications.ReadAt | backend/controllers/notificationController.js:64-65 | that notification alone becomes read |
| Notifications.ReadAtIdempotent | backend/controllers/notificationController.js:64-65 | marking the same notification read twice equals marking it once |
| Notifications.MarkAllRead | backend/controllers/notificationController.js:82-85 | the caller's unread notifications become read, all others unchanged |
| Notifications.NoUnreadAfterMarkAll | backend/controllers/notificationController.js:82-85 | afterwards the caller has no unread notification |
| Notifications.MarkAllReadIdempotent | backend/controllers/notificationController.js:82-85 | marking all read twice equals doing it once |
| Notifications.BuildNotification | backend/controllers/notificationController.js:136-143 | created exactly when title, message and user are given and any type is in the enum; it starts unread with type `system` unless one is given |
| Notifications.NotificationStore.constructor | backend/models/Notification.js:23-26 | an empty collection satisfies the store invariant |
| Notifications.NotificationStore.GetAllNotifications | backend/controllers/notificationController.js:5-9 | exactly the caller's notifications, newest first |
| Notifications.NotificationStore.GetUnreadNotifications | backend/controllers/notificationController.js:26-30 | exactly the caller's unread notifications, newest first |
| Notifications.NotificationStore.MarkAsRead | backend/controllers/notificationController.js:45-78 | 404, then 403 for anyone but the addressee, both changing nothing; else only that one becomes read |
| Notifications.NotificationStore.MarkAllAsRead | backend/controllers/notificationController.js:80-97 | 200, and afterwards the caller's unread set is empty; other users' notifications unchanged |
| Notifications.NotificationStore.DeleteNotification | backend/controllers/notificationController.js:99-130 | 404, 403, else exactly that notification is removed |
| Notifications.NotificationStore.CreateNotification | backend/controllers/notificationController.js:132-159 | 500 and no change when validation fails, else exactly the built notification is appended |
| Tasks.BuildTask | backend/controllers/taskController.js:51-62 | a task is created exactly when the schema's required fields are valid; it is always created by the caller, with the status and priority defaults of the schema |
| Tasks.ApplyPatch | backend/controllers/taskController.js:98-101 | given fields replace stored ones, absent fields are kept, the update time is refreshed |
| Tasks.EmptyPatchTouches | backend/controllers/taskController.js:98-101 | an empty update changes only the update time |
| Tasks.TaskStore.constructor | backend/models/Task.js:5-25 | an empty collection satisfies the store invariant |
| Tasks.TaskStore.GetAllTasks | backend/controllers/taskController.js:5-9 | exactly the tasks the caller created, newest first |
| Tasks.TaskStore.CreateTask | backend/controllers/taskController.js:49-77 | 500 and no change when validation fails, else one task created by the caller is appended |
| Tasks.TaskStore.UpdateTask | backend/controllers/taskController.js:79-117 | 404 before 403, then 500 for an invalid patch, each changing nothing; else only that task is patched |
| Tasks.TaskStore.DeleteTask | backend/controllers/taskController.js:119-150 | 404, 403, else only that task is removed |
| Tasks.TaskStore.GetTasksByStatus | backend/controllers/taskController.js:152-173 | exactly the caller's tasks with that status, newest first; none for a text outside the enum |
| Projects.Message | backend/models/Project.js:5-28 | every validation failure has a non-empty message |
| Projects.TitleErrors | backend/models/Project.js:5-10 | no error exactly when a title is given whose trimmed length is at least 3 |
| Projects.StatusErrors | backend/models/Project.js:15-19 | no error exactly when the status is absent or in the enum |
| Projects.ProgressErrors | backend/models/Project.js:20-25 | no error exactly when progress is absent or within 0..100 |
| Projects.Errors | backend/controllers/projectController.js:76-82 | at most one message per field; a missing title or due date is reported; no error exactly when the title, status, progress and due date all pass the schema |
| Projects.Messages | backend/controllers/projectController.js:77 | the messages of the errors, one per error, in their order |
| Projects.BuildProject | backend/controllers/projectController.js:52-63 | created by the caller, title trimmed, schema defaults for absent fields, members `[]` when none are given |
| Projects.ApplyPatch | backend/controllers/projectController.js:108-111 | given fields replace stored ones, absent fields are kept |
| Projects.AppendKeepsBounds | backend/models/Project.js:20-25 | a new project with progress in 0..100 keeps every stored progress in 0..100 |
| Projects.PatchKeepsProgress | backend/controllers/projectController.js:108-111 | a valid update keeps progress within 0..100 |
| Projects.ProjectStore.constructor | backend/models/Project.js:5-45 | an empty collection satisfies the store invariant |
| Projects.ProjectStore.GetAllProjects | backend/controllers/projectController.js:5-9 | exactly the projects the caller created, newest first |
| Projects.ProjectStore.CreateProject | backend/controllers/projectController.js:50-88 | on validation failure, one message per failing field and no change; else one project created by the caller is appended |
| Projects.ProjectStore.UpdateProject | backend/controllers/projectController.js:90-127 | 404 before 403, then 500 for an invalid patch, each changing nothing; else only that project is patched |
| Projects.ProjectStore.DeleteProject | backend/controllers/projectController.js:129-159 | 404, 403, else only that project is removed |
| Projects.ProjectStore.GetProjectsByTeam | backend/controllers/projectController.js:161-183 | exactly the caller's projects of that team, newest first |
| Users.ProfileOf | backend/controllers/userController.js:5-7 | a listed profile carries id, name, email, avatar and role, and no password |
| Users.ByNameTotal | backend/controllers/userController.js:7 | the order by name is total |
| Users.IndexOfEmail | backend/controllers/userController.js:61-70 | the first account holding the email, None exactly when none does |
| Users.ApplyProfile | backend/controllers/userController.js:73-78 | name, email and avatar change only for a non-empty value; role only for a non-empty value other than `user`; password and activity kept |
| Users.RoleNeverResetToUser | backend/controllers/userController.js:75-78 | the profile update can never set a role back to `user` |
| Users.ActiveByName | backend/controllers/userController.js:5-7 | exactly the active accounts, sorted by name |
| Users.Profiles | backend/controllers/userController.js:5-13 | one profile per account, in order |
| Users.ProfilesMembers | backend/controllers/userController.js:5-13 | every account listed yields its profile, and every profile comes from a listed account |
| Users.UserStore.constructor | backend/controllers/userController.js:3-20 | an empty collection satisfies the store invariant |
| Users.UserStore.GetAllUsers | backend/controllers/userController.js:3-20 | the profiles of exactly the active accounts, sorted by name |
| Users.UserStore.UpdateProfile | backend/controllers/userController.js:46-96 | 404 for a missing account; 400 and no change when the new email belongs to another account; else only the caller's record is updated |
| Users.UserStore.DeleteUser | backend/controllers/userController.js:115-140 | 404, else the account is kept but deactivated, and it no longer appears among the listed users |
| Auth.PublicOf | backend/utils/tokenHelper.js:15-21 | the reply carries only id, name, email, role and avatar |
| Auth.Avatar | backend/controllers/authController.js:32 | the first two characters of the name, upper-cased |
| Auth.NewUser | backend/controllers/authController.js:27-33 | the new account has the given fields, role `user` unless one is given, the derived avatar, and is active |
| Auth.NewUserDefaults | backend/controllers/authController.js:27-33 | without a role the account is a `user`, and a named account has a one- or two-letter avatar |
| Auth.Register | backend/controllers/authController.js:4-42 | 400 for a missing field, then 400 for a taken email, both creating nothing; else exactly one account is appended and 201 is returned with its public fields |
| Auth.Login | backend/controllers/authController.js:44-83 | 400 for a missing field; an unknown email and a wrong password both give 401 with the same message; success is 200 for an account with that email whose password matches |
| Auth.LoginGrantedIff | backend/controllers/authController.js:44-83 | with unique emails, login succeeds exactly when some account has that email and a matching password |
| Auth.RegisterThenLogin | backend/controllers/authController.js:4-83 | after registering, logging in with the same email and password succeeds for that account |
| Gate.BearerToken | backend/middleware/auth.js:8-10 | a token is found only in a header starting with `Bearer`; it is non-empty and holds no space |
| Gate.BearerRoundTrip | backend/middleware/auth.js:8-10 | `Bearer <t>` yields `t` |
| Gate.BearerLoose | backend/middleware/auth.js:8-10 | the prefix check is loose: the second space-separated field is taken even when text is glued to `Bearer` |
| Gate.Authenticate | backend/middleware/auth.js:12-41 | admitted exactly when a token is present, verifies, and names an existing account; every failure is the same 401; the identity, account and role all come from that account |
| Gate.AdmitsNamedAccount | backend/middleware/auth.js:19-35 | a valid token for an account admits exactly that account |
| Gate.Request.constructor | backend/middleware/auth.js:5-8 | a fresh request carries its header and no identity |
| Gate.Protect | backend/middleware/auth.js:5-42 | on failure a 401 halts the request and nothing is set; on success the request carries the located user's id, record and role and proceeds |
| Gate.Authorize | backend/middleware/auth.js:44-55 | passes exactly when the role is in the list, else 403 |
| Gate.AuthorizeAdmitted | backend/middleware/auth.js:44-55 | an admitted user passes a list holding their role and fails an empty list |
| ErrorHandler.TemplateText | backend/middleware/errorHandler.js:7 | an absent path interpolates as `undefined` |
| ErrorHandler.ErrorObject.constructor | backend/middleware/errorHandler.js:1 | a new error object holds the given fields |
| ErrorHandler.DuplicateMessage | backend/middleware/errorHandler.js:13-18 | `<first key field> already exists` |
| ErrorHandler.Outcome | backend/middleware/errorHandler.js:2-31 | every matching rule gives 400, the later rule's message winning; otherwise the given status or 500 and the given message or the default |
| ErrorHandler.OutcomeStatusSet | backend/middleware/errorHandler.js:2-3 | the final status is never 0 and the message never empty |
| ErrorHandler.HandleError | backend/middleware/errorHandler.js:1-38 | the error's status and message are overwritten with the outcome; the response has success false and error details only in development |
| RegisterPage.Criteria | frontend/src/pages/Register.jsx:8-13 | at most five criteria hold |
| RegisterPage.Strength | frontend/src/pages/Register.jsx:6-15 | the score is 0 for "", at most 4, and at least 2 for 12 characters or more |
| RegisterPage.ShortPlainScoresZero | frontend/src/pages/Register.jsx:8-14 | a short all-lower-case password scores 0 |
| RegisterPage.PasswordStrength | frontend/src/pages/Register.jsx:6-15 | the successive `+=` updates compute exactly `Strength`, within 0..4 |
| RegisterPage.StrengthLabel | frontend/src/pages/Register.jsx:128 | the label is always one of the five, `Weak` for an empty password |
| RegisterPage.RegisterPrecheck | frontend/src/pages/Register.jsx:44-46 | registration proceeds exactly when the terms are accepted and the passwords agree; the terms are reported first |
| DashboardPage.ActiveTasks | frontend/src/pages/Dashboard.jsx:136 | exactly the tasks not completed |
| DashboardPage.SliceIndex | frontend/src/pages/Dashboard.jsx:137-140 | `slice` clamps an index into the list |
| DashboardPage.Slice | frontend/src/pages/Dashboard.jsx:137-140 | `slice(start, end)` yields the elements from `start`, at most `end - start` of them |
| DashboardPage.PageItems | frontend/src/pages/Dashboard.jsx:137-140 | page p shows at most five tasks, those from position (p-1)·5 on |
| DashboardPage.TotalPages | frontend/src/pages/Dashboard.jsx:141 | the ceiling of n/5: enough pages for all, no empty last page, 0 only for none |
| DashboardPage.EveryTaskOnItsPage | frontend/src/pages/Dashboard.jsx:137-141 | every active task appears on page k/5+1 at position k mod 5 |
| DashboardPage.CountedPagesNonEmpty | frontend/src/pages/Dashboard.jsx:137-141 | every page up to the total shows at least one task |
| DashboardPage.ShowPaginationIff | frontend/src/pages/Dashboard.jsx:224 | pagination shows exactly when there are more than five active tasks |
| DashboardPage.Previous | frontend/src/pages/Dashboard.jsx:227 | never below page 1 |
| DashboardPage.Next | frontend/src/pages/Dashboard.jsx:238 | never above the total |
| DashboardPage.NavigationStaysInRange | frontend/src/pages/Dashboard.jsx:227-238 | from a page in range, both buttons stay in range |
| DashboardPage.Validate | frontend/src/pages/Dashboard.jsx:91-98 | valid exactly when title and description are non-blank and a due date is given; each failing field gets its message |
| DashboardPage.PriorityColor | frontend/src/pages/Dashboard.jsx:143-150 | a class for each enum priority, "" for anything else |
| DashboardPage.StatusColor | frontend/src/pages/Dashboard.jsx:152-159 | a class for each enum status, "" for anything else |
| DashboardPage.EditPrefill | frontend/src/pages/Dashboard.jsx:59-69 | the form is filled from the task with no project field, the assignee's id whether populated or bare (unset when absent), and the date part of the due date; a task without a due date makes the prefill throw |
| DashboardPage.EditPrefillsCompared | frontend/src/pages/Dashboard.jsx:59-69 | every field the dashboard sets is one the task list's form has, with the same value except a bare assignee, which the dashboard keeps and the task list empties |
| Client.IdOrRaw | frontend/src/pages/Projects.jsx:145 | a reference read as `_id` or as itself; None only when absent |
| Client.PopulatedIdOr | frontend/src/pages/Tasks.jsx:61-75 | `ref?._id \|\| ""`: the id of a populated reference, else "" |
| Client.RefReadingsAgree | frontend/src/pages/Tasks.jsx:61-75 | the two readings agree exactly on populated references |
| Client.ReplaceById | frontend/src/pages/Dashboard.jsx:115-119 | same length; the documents with the id are replaced, all others kept |
| Client.ReplaceByIdUnique | frontend/src/pages/Tasks.jsx:114-119 | with unique ids, the replacement touches exactly one position |
| Client.ReplaceByIdAbsent | frontend/src/pages/Tasks.jsx:114-119 | an unknown id changes nothing |
| Client.RemoveById | frontend/src/pages/Tasks.jsx:83-92 | exactly the documents with another id remain |
| Client.RemoveByIdIsWithout | frontend/src/pages/Tasks.jsx:83-92 | with unique ids, the local removal equals the server's deletion of that one document |
| Client.SetField | frontend/src/pages/Dashboard.jsx:85-87 | the named field takes the value, all other fields kept |
| Client.ClearError | frontend/src/pages/Dashboard.jsx:88 | only the named field's error is cleared, the others kept |
| Client.ClearErrorIdempotent | frontend/src/pages/Dashboard.jsx:88 | clearing twice equals clearing once |
| Client.EmptyQueryMatches | frontend/src/pages/CreateTask.jsx:217 | an empty search matches every name |
| Client.NameMatchesIgnoresCase | frontend/src/pages/CreateTask.jsx:217 | the match ignores the case of both name and query |
| Client.SearchUsers | frontend/src/pages/CreateTask.jsx:217 | exactly the users whose name, or "" when missing, contains the query ignoring case |
| Client.NamelessNeverListed | frontend/src/pages/CreateTask.jsx:217 | with a non-empty query, every listed user has a name |
| TeamPage.AcceptedOnes | frontend/src/pages/Team.jsx:23 | exactly the accepted connections |
| TeamPage.PendingRequests | frontend/src/pages/Team.jsx:24 | exactly the pending connections addressed to me |
| TeamPage.OtherParty | frontend/src/pages/Team.jsx:27 | the party of a connection that is not me |
| TeamPage.TeamMembers | frontend/src/pages/Team.jsx:26-28 | the other party of each accepted connection, same count and order |
| TeamPage.MeNotAMember | frontend/src/pages/Team.jsx:26-28 | as no connection links a user with themselves, I am never among my members |
| TeamPage.SentRequestsExcluded | frontend/src/pages/Team.jsx:24 | a request I sent is never among my pending requests |
| TeamPage.RemoveTarget | frontend/src/pages/Team.jsx:63-71 | the first connection between the two users in either direction, whatever its status; None (nothing deleted) when there is none |
| TeamPage.PendingAsWritten | frontend/src/pages/Team.jsx:24 | exactly the pending connections whose recipient equals the session user's `_id`, none when that is missing |
| TeamPage.MembersAsWritten | frontend/src/pages/Team.jsx:26-28 | for each accepted connection, the recipient when its requester equals the session user's `_id`, else the requester |
| TeamPage.RemoveTargetAsWritten | frontend/src/pages/Team.jsx:63-71 | the connection `RemoveTarget` finds for a present `_id`, and none when it is missing |
| TeamPage.AsWrittenWithIdentity | frontend/src/pages/Team.jsx:24-28 | given the caller's identifier, the page as written lists what `PendingRequests` and `TeamMembers` list |
| TeamPage.PageWithoutIdentity | frontend/src/contexts/AuthContext.jsx:36-58 | with the session user from the login or registration reply, which has `id` and no `_id`: no pending request, every member shown is the requester, and nothing can be removed |
| TeamPage.CallerListedAsWritten | frontend/src/pages/Team.jsx:26-28 | as written, a caller whose sent request was accepted is listed on their own team |
| NotificationsPage.UnreadCount | frontend/src/pages/Notifications.jsx:57 | at most the list's length, and 0 exactly when all are read |
| NotificationsPage.UnreadCountAppend | frontend/src/pages/Notifications.jsx:57 | one more notification adds one to the count exactly when it is unread, so the count is the number of unread notifications |
| NotificationsPage.MarkOne | frontend/src/pages/Notifications.jsx:34-36 | same length; only the notification with that id becomes read |
| NotificationsPage.MarkAll | frontend/src/pages/Notifications.jsx:50 | same length; every notification becomes read |
| NotificationsPage.AfterMarkAsRead | frontend/src/pages/Notifications.jsx:27-41 | the list changes only after the server reports success |
| NotificationsPage.AfterMarkAllAsRead | frontend/src/pages/Notifications.jsx:43-55 | unchanged on failure; on success the unread count is 0 |
| NotificationsPage.MarkOneUnread | frontend/src/pages/Notifications.jsx:34-36 | marking one read never raises the unread count |
| NotificationsPage.Subtitle | frontend/src/pages/Notifications.jsx:79 | `All caught up!` exactly for 0; otherwise starts with the count and ends in `s` exactly from 2 on |
| NotificationsPage.MarkAllHidesButton | frontend/src/pages/Notifications.jsx:82 | after a successful mark-all the button is hidden and the header reads `All caught up!` |
| ProfilePage.Tab | frontend/src/pages/Profile.jsx:8 | the tab from the address, `profile` when missing or empty |
| ProfilePage.PasswordErrors | frontend/src/pages/Profile.jsx:58-64 | an error on `current` exactly when it is empty, on `new` exactly when shorter than 8 (the `required` message never survives), on `confirm` exactly when they differ |
| ProfilePage.AfterReply | frontend/src/pages/Profile.jsx:79-84 | acceptance clears the three fields; a refusal puts the server's message, or a default, on `current` |
| ProfilePage.Submit | frontend/src/pages/Profile.jsx:56-89 | the request is sent exactly when all checks pass; otherwise the data is kept and some error shown |
| ProfilePage.ChangeField | frontend/src/pages/Profile.jsx:48-54 | the named field takes the value and only its error is cleared |
| CreateTaskPage.InitialFormDefaults | frontend/src/pages/CreateTask.jsx:18-26 | every field present, status and priority at the schema's defaults, the rest empty |
| CreateTaskPage.ChangeKeepsShape | frontend/src/pages/CreateTask.jsx:69-72 | editing a field keeps every field of the form |
| CreateTaskPage.SubmitCheck | frontend/src/pages/CreateTask.jsx:81-99 | no alert exactly when all four checks pass; otherwise the first failing check, in the order title, assignee, project, due date |
| CreateTaskPage.InitialFormRefused | frontend/src/pages/CreateTask.jsx:81-99 | the untouched form is refused for its empty title |
| CreateTaskPage.UsersFrom | frontend/src/pages/CreateTask.jsx:51-59 | the `data` list, else a bare list, else the `users` list, else none |
| CreateTaskPage.ProjectsFrom | frontend/src/pages/CreateTask.jsx:36-41 | the `data` list, else none |
| CreateTaskPage.ProjectsStricterThanUsers | frontend/src/pages/CreateTask.jsx:36-59 | projects are found only where users are found too; a bare list gives users but no projects |
| CreateTaskPage.Dropdown | frontend/src/pages/CreateTask.jsx:210-217 | empty unless open with text typed; then exactly the matching users |
| CreateTaskPage.TypeSearch | frontend/src/pages/CreateTask.jsx:203-207 | the text is taken, the list opens, the assignee is cleared and every other field kept |
| CreateTaskPage.Focus | frontend/src/pages/CreateTask.jsx:208 | focusing opens the list and changes nothing else |
| CreateTaskPage.SelectUser | frontend/src/pages/CreateTask.jsx:74-79 | the chosen listed user becomes the assignee, the search shows their name, the list closes, all other fields kept |
| CreateTaskPage.TypingUnassigns | frontend/src/pages/CreateTask.jsx:74-99 | after typing in the search box, a titled form is refused for its missing assignee |
| TasksPage.ListFrom | frontend/src/pages/Tasks.jsx:42-46 | the reply's list on success, else empty |
| TasksPage.AfterDelete | frontend/src/pages/Tasks.jsx:83-92 | only after confirmation and server success, exactly the tasks with another id remain |
| TasksPage.DeleteMatchesServer | frontend/src/pages/Tasks.jsx:83-92 | with unique ids, the local deletion equals the server's and keeps ids unique |
| TasksPage.AfterSave | frontend/src/pages/Tasks.jsx:114-119 | same length; on success the edited task is replaced, all others kept |
| TasksPage.SaveReplacesOne | frontend/src/pages/Tasks.jsx:114-119 | with unique ids, a save replaces exactly one position and keeps ids unique |
| TasksPage.PriorityLabel | frontend/src/pages/Tasks.jsx:169 | first character upper-cased, the rest unchanged; equal to the input ignoring case |
| TasksPage.PriorityLabels | frontend/src/pages/Tasks.jsx:169 | the three priorities read `High`, `Medium`, `Low` |
| TasksPage.FirstIndexOf | frontend/src/pages/Tasks.jsx:196 | the position of the first occurrence, None exactly when absent |
| TasksPage.StatusLabel | frontend/src/pages/Tasks.jsx:196 | `replace("-", " ")`: only the first hyphen becomes a space |
| TasksPage.StatusLabelSplit | frontend/src/pages/Tasks.jsx:196 | `a-b` with no hyphen in `a` reads `a b` |
| TasksPage.StatusLabels | frontend/src/pages/Tasks.jsx:196 | the three statuses read `todo`, `in progress`, `completed` |
| TasksPage.ProjectLabel | frontend/src/pages/Tasks.jsx:190 | the project's title, or `Unassigned` |
| TasksPage.AvatarInitial | frontend/src/pages/Tasks.jsx:213 | one character: the first of the assignee's name, or `U` |
| TasksPage.DatePart | frontend/src/pages/Tasks.jsx:61-75 | the text of the date before its first `T` |
| TasksPage.EditPrefill | frontend/src/pages/Tasks.jsx:61-75 | every form field from the task, assignee and project as populated ids or "", the search box holding the assignee's name |
| TasksPage.PrefillKeepsPopulatedRefs | frontend/src/pages/Tasks.jsx:61-75 | populated references keep their ids; bare identifiers become "" |
| TasksPage.StrictSearch | frontend/src/pages/Tasks.jsx:293 | fails exactly when some user has no name; otherwise the same list as the creation page's search |
| TasksPage.StrictSearchAgrees | frontend/src/pages/Tasks.jsx:293 | when every user has a name, the two searches agree |
| ProjectsPage.CountsForIff | frontend/src/pages/Projects.jsx:145 | a task counts for a project exactly when its reference carries the project's id; a task without a project never counts |
| ProjectsPage.TaskCount | frontend/src/pages/Projects.jsx:145 | at most the number of tasks, and 0 exactly when no task counts |
| ProjectsPage.TaskCountAppend | frontend/src/pages/Projects.jsx:145 | one more task adds one to the count exactly when it counts for the project, so the count is the number of such tasks |
| ProjectsPage.TwoCountsBounded | frontend/src/pages/Projects.jsx:145 | two different projects never count the same task |
| ProjectsPage.HitsAtMostOne | frontend/src/pages/Projects.jsx:145 | among distinct projects a task is counted at most once |
| ProjectsPage.CountsTotalBounded | frontend/src/pages/Projects.jsx:145 | the counts on all cards add up to at most the number of tasks |
| ProjectsPage.DescriptionText | frontend/src/pages/Projects.jsx:157 | the description, or a fixed text when empty |
| ProjectsPage.EmptyFormDefaults | frontend/src/pages/Projects.jsx:64-73 | the reset form has status `todo`, the schema default, and no members |
| ProjectsPage.DateText | frontend/src/pages/Projects.jsx:61 | the text of the date before its first `T`, "" when absent |
| ProjectsPage.OpenModal | frontend/src/pages/Projects.jsx:54-75 | a new project gets the empty form; an existing one its fields and the ids of its members, in order |
| ProjectsPage.SelectedValues | frontend/src/pages/Projects.jsx:85-90 | the loop collects the selected values, in order |
| ProjectsPage.HandleChange | frontend/src/pages/Projects.jsx:82-94 | `members` takes the selected values, any other field its value, nothing else changes |
| ProjectsPage.SubmitRequest | frontend/src/pages/Projects.jsx:96-109 | an update of the edited project, or a creation, with the form's fields |
| ProjectsPage.EditUnchangedUpdates | frontend/src/pages/Projects.jsx:54-109 | opening a project and saving sends an update of that project with its title |
| ProjectsPage.MemberInitial | frontend/src/pages/Projects.jsx:177 | the first letter of the name, upper-cased, "" for no name |

## Left out

- The database is left out: `find`, `populate`, `save`, `updateMany` and unique indexes. Collections are sequences in insertion order, and a populated reference is the `Ref` datatype.
- HTTP and framework plumbing are left out: routes, server set-up, services, interceptors and every request.
- The single-record reads are left out: `getTaskById`, `getTeamById`, `getProjectById`, `getUserById` and both `getMe`. They are plain lookups, and `Store.IndexOf` states the lookup they make.
- JWT signing and verification become the parameter `verify` of `Gate.Authenticate`.
- The password comparison becomes the parameter `matches` of `Auth.Login`. The password is stored as given, and hashing is not modelled.
- `backend/models/User.js` is not part of this model. Its fields are those the controllers read, and a new account is assumed active.
- Clocks, time zones, DST and locales are left out. Days are numbered from the epoch with fixed 86 400 000 ms windows, and today's day number is a parameter. The weekday label is `(day + 4) mod 7` into English three-letter names.
- `toISOString` is left out: a date already arrives in that text form.
- Floating point is left out. The completion rate is exact integer half-up rounding.
- Case mapping is ASCII only.
- Stats.CompletionRate: does not model the floating-point product, so a ratio whose float result lands just below a half may round differently in the source.
- The Joi schemas of the validation utilities are not modelled. Validation is the schemas' own required, enum, length and range rules.
- Front-end wiring faults are integration issues and are left out: the `read-all` route name, and the team route parameter against the body's `memberId`.
- ProfilePage.Submit and ProfilePage.AfterReply: model the page as if its requests reached a password-change route. As written, the page fetches `/api/user/profile` and posts to `/api/user/change-password` (`frontend/src/pages/Profile.jsx:28`, 69), while the server mounts the user routes at `/api/users` (`backend/server.js:49`) and defines no password-change route (`backend/routes/userRoutes.js:14-18`). Every submission therefore gets the 404 "Route not found" reply (`backend/server.js:53-59`), the refusal branch of `ProfilePage.AfterReply` shows that message on `current`, and its accepted branch never happens.
- The notifications page's wiring faults are left out, and together they mean the page as written never shows a notification. `NotificationsPage.UnreadCount`, `NotificationsPage.MarkOne`, `NotificationsPage.AfterMarkAsRead` and `NotificationsPage.AfterMarkAllAsRead` model the list the page would hold if these worked:
  - the page reads `data.notifications` (`frontend/src/pages/Notifications.jsx:18`), while the controller answers `{ success, count, data }` (`backend/controllers/notificationController.js:11-15`);
  - its `fetch` calls send no bearer token, which `protect` answers with 401 (`backend/middleware/auth.js:8-17`);
  - it keys and marks notifications by `n.id` (`frontend/src/pages/Notifications.jsx:35`, 92), which a stored document's JSON does not carry, so `markAsRead` sends `undefined`.
- TeamPage.PendingRequests: takes `me` to be the caller's identifier, the intended reading. The page as written compares with the session user's missing `_id` (see "## Findings" and `TeamPage.PendingAsWritten`).
- TeamPage.TeamMembers: takes `me` to be the caller's identifier. As written, every member shown is the requester, the caller included (`TeamPage.MembersAsWritten`, `TeamPage.PageWithoutIdentity`).
- TeamPage.MeNotAMember: holds for `me` the caller's identifier. The page as written lists the caller for each accepted request they sent (`TeamPage.CallerListedAsWritten`).
- TeamPage.SentRequestsExcluded: holds for `me` the caller's identifier. As written, the pending list is always empty (`TeamPage.PageWithoutIdentity`).
- TeamPage.RemoveTarget: takes `me` to be the caller's identifier. As written, the lookup never matches and nothing is removed (`TeamPage.RemoveTargetAsWritten`).
- Rendering, CSS classes beyond the colour maps, the notification icons, the logout button, and the refetches that follow a save, delete or accept are left out.
- DashboardPage.EditPrefill: the search box and the fetch of the user list for the picker are left out. A `null` due date, for which `new Date(null)` gives 1970-01-01 instead of throwing, is not told apart from a missing one.
- The task list's edit picker reuses the typing and selection steps modelled by `CreateTaskPage.TypeSearch` and `CreateTaskPage.SelectUser`. Only its stricter filter is modelled separately (`TasksPage.StrictSearch`).
- Concurrency is left out. Each request runs to completion before the next, and `Promise.all` is not modelled.
- Projects.Errors: lists the messages in the schema's field order (title, status, progress, due date). The order in which the validation library reports them is not modelled, so only which messages appear, one per failing field, is promised.
- Malformed identifiers are left out. In the source, a malformed id makes `findById` throw a cast error, and each controller's `catch` answers 500 (for example `backend/controllers/taskController.js:81` with the catch at 111-116). The model's `Id` is any string, so such an id is just unknown and gets 404.
- A missing `recipientId` in `sendRequest` is left out. The source answers 500 when the connection's required-field validation fails inside the `try` (`backend/controllers/connectionController.js:25-34`). The model's `Connections.ConnectionStore.SendRequest` always receives a recipient.
- String lengths count characters (Unicode scalar values), while JavaScript's `.length` counts UTF-16 code units. For text holding characters beyond the Basic Multilingual Plane, the length checks of `frontend/src/pages/Register.jsx:9-10` and `frontend/src/pages/Profile.jsx:61` and the schemas' `minlength` can differ.
- Tasks.TaskStore.CreateTask: assumes Mongoose 5. After `Task.create`, the controller chains `.populate(...).execPopulate()` on the document (`backend/controllers/taskController.js:64`). From Mongoose 6 on, `Document.populate` returns a promise and `execPopulate` is gone, so the chain throws after the task is stored and the `catch` answers 500. The repository does not pin the library version.
- The request-body logging of `register` (`console.log`) is left out, as is all other logging.

## Findings

| source | as written | input that shows it | evidently intended | confidence | as-written member | corrected member |
|---|---|---|---|---|---|---|
| backend/controllers/taskController.js:91 (also teamController.js:87 and notificationController.js:57) | `record.createdBy.toString() !== req.userId` compares a string with the ObjectId that `protect` stores, so it is always unequal and every caller, the owner included, gets 403 | the owner `u` updating their own task: `"u" !== ObjectId(u)` holds | compare both sides as text, as projectController.js:101 does, so that exactly the owner passes | not executed | Ownership.OwnerRefusedAsWritten | Ownership.OwnerCheckExactlyOwner |
| frontend/src/pages/Team.jsx:24, 27, 64-65 | the page compares connection parties with `user._id`, but the session user is the login or registration reply (`frontend/src/contexts/AuthContext.jsx:40`, 52), which carries `id` and no `_id` (`backend/utils/tokenHelper.js:15-21`); the other route, `getCurrentUser`, throws on an undeclared variable (`frontend/src/services/authService.js:25`) | a user `u` whose request to `v` was accepted: the team page lists `u` among `u`'s own members, shows no pending request, and cannot remove `v` | compare with the caller's own identifier (`user.id`), so that the other party is listed | not executed | TeamPage.CallerListedAsWritten | TeamPage.MeNotAMember |

=== FILE: auth_controller.dfy ===
/** `authController`: registration appends an account to the user store after
    a presence check and an email check; login answers the same refusal for an
    unknown email and for a wrong password. Token signing and password hashing
    are outside the model: a token is the account identifier it carries, and
    the password comparison is the parameter `matches`. */
module Auth {
  import opened Common
  import opened Store
  import opened Domain
  import opened Text
  import opened Users

  const MissingRegisterFields: string := "Please provide name, email and password"
  const EmailTaken: string := "Email already exists"
  const MissingLoginFields: string := "Please provide email and password"
  const InvalidCredentials: string := "Invalid credentials"

  /** The role a new account gets when none is given. */
  const DefaultRole: string := "user"

  /** The part of an account a token response carries (`sendTokenResponse`). */
  datatype PublicUser = PublicUser(id: Id, name: string, email: string, role: string, avatar: string)

  function PublicOf(d: Doc<User>): (p: PublicUser)
    ensures p.id == d.id && p.name == d.body.name && p.email == d.body.email
    ensures p.role == d.body.role && p.avatar == d.body.avatar
  {
    PublicUser(d.id, d.body.name, d.body.email, d.body.role, d.body.avatar)
  }

  /** A refusal with its status and message, or a token response; `token` is the
      identifier the signed token carries. */
  datatype AuthOutcome =
    | Refused(code: int, message: string)
    | Granted(code: int, token: Id, user: PublicUser)

  /** `name.substring(0, 2).toUpperCase()`: the first two characters, upper-cased. */
  function Avatar(name: string): (r: string)
    ensures |r| == if |name| < 2 then |name| else 2
    ensures forall i :: 0 <= i < |r| ==> r[i] == UpperChar(name[i])
  {
    ToUpper(Prefix(name, 2))
  }

  /** The account `User.create` stores for a registration that passed the checks. */
  function NewUser(name: string, email: string, password: string, role: Option<string>): (u: User)
    ensures u.name == name && u.email == email && u.password == password
    ensures u.role == (if Present(role) then role.value else DefaultRole)
    ensures u.avatar == Avatar(name) && u.isActive
  {
    User(name, email, password, if Present(role) then role.value else DefaultRole, Avatar(name), true)
  }

  /** A registration without a role gets role `user`, and a non-empty name gives
      an avatar of one or two characters. */
  lemma NewUserDefaults(name: string, email: string, password: string)
    requires name != ""
    ensures NewUser(name, email, password, None).role == DefaultRole
    ensures 1 <= |NewUser(name, email, password, None).avatar| <= 2
  {
  }

  /** `register`: 400 when name, email or password is missing or empty, then 400
      when an account (active or not) already has the email, else the account is
      appended and a 201 token response names it. */
  method Register(store: UserStore, name: Option<string>, email: Option<string>, password: Option<string>,
                  role: Option<string>, newId: Id, now: int) returns (r: AuthOutcome)
    requires store.Valid() && Fresh(store.docs, newId)
    modifies store
    ensures store.Valid()
    ensures !(Present(name) && Present(email) && Present(password)) ==>
      r == Refused(BadRequest400, MissingRegisterFields) && store.docs == old(store.docs)
    ensures Present(name) && Present(email) && Present(password) && IndexOfEmail(old(store.docs), email.value).Some? ==>
      r == Refused(BadRequest400, EmailTaken) && store.docs == old(store.docs)
    ensures Present(name) && Present(email) && Present(password) && IndexOfEmail(old(store.docs), email.value).None? ==>
      && store.docs == old(store.docs) + [Doc(newId, now, NewUser(name.value, email.value, password.value, role))]
      && r == Granted(Created201, newId, PublicOf(store.docs[|store.docs| - 1]))
  {
    if !Present(name) || !Present(email) || !Present(password) {
      return Refused(BadRequest400, MissingRegisterFields);
    }
    if IndexOfEmail(store.docs, email.value).Some? {
      return Refused(BadRequest400, EmailTaken);
    }
    var d := Doc(newId, now, NewUser(name.value, email.value, password.value, role));
    AppendKeepsUnique(store.docs, d);
    store.docs := store.docs + [d];
    r := Granted(Created201, newId, PublicOf(d));
  }

  /** `login`: 400 when email or password is missing or empty, 401 with one and the
      same message for an unknown email and for a password `matches` rejects, else a
      200 token response for the account with that email. Deactivated accounts are
      not refused. */
  function Login(users: seq<Doc<User>>, email: Option<string>, password: Option<string>,
                 matches: (string, string) -> bool): (r: AuthOutcome)
    ensures !(Present(email) && Present(password)) ==> r == Refused(BadRequest400, MissingLoginFields)
    ensures r.Refused? && r.code == Unauthorized401 ==> r.message == InvalidCredentials
    ensures Present(email) && Present(password) && (forall i :: 0 <= i < |users| ==> users[i].body.email != email.value) ==>
      r == Refused(Unauthorized401, InvalidCredentials)
    ensures Present(email) && Present(password) && r.Refused? ==> r == Refused(Unauthorized401, InvalidCredentials)
    ensures r.Refused? ==> r.code == BadRequest400 || r.code == Unauthorized401
    ensures r.Granted? ==> r.code == Ok200
    ensures r.Granted? ==> exists i :: (0 <= i < |users| && users[i].id == r.token
      && users[i].body.email == email.value && matches(password.value, users[i].body.password)
      && r.user == PublicOf(users[i]))
  {
    if !Present(email) || !Present(password) then Refused(BadRequest400, MissingLoginFields)
    else match IndexOfEmail(users, email.value)
      case None => Refused(Unauthorized401, InvalidCredentials)
      case Some(i) =>
        if !matches(password.value, users[i].body.password) then Refused(Unauthorized401, InvalidCredentials)
        else Granted(Ok200, users[i].id, PublicOf(users[i]))
  }

  /** With emails unique, login succeeds exactly when some account has the email
      and `matches` accepts the password against it. */
  lemma LoginGrantedIff(users: seq<Doc<User>>, email: Option<string>, password: Option<string>,
                        matches: (string, string) -> bool)
    requires UniqueEmails(users)
    ensures Login(users, email, password, matches).Granted? <==>
      Present(email) && Present(password)
      && exists i :: 0 <= i < |users| && users[i].body.email == email.value && matches(password.value, users[i].body.password)
  {
    if Present(email) && Present(password) {
      var found := IndexOfEmail(users, email.value);
      if found.Some? {
        var k := found.value;
        assert forall i :: 0 <= i < |users| && users[i].body.email == email.value ==> i == k;
      }
    }
  }

  /** An account just registered can log in with its email, given a password the
      comparison accepts against the stored one. */
  lemma RegisterThenLogin(users: seq<Doc<User>>, name: string, email: string, password: string,
                          role: Option<string>, newId: Id, now: int, matches: (string, string) -> bool)
    requires email != "" && password != "" && matches(password, password)
    requires IndexOfEmail(users, email).None?
    ensures Login(users + [Doc(newId, now, NewUser(name, email, password, role))], Some(email), Some(password), matches)
      == Granted(Ok200, newId, PublicOf(Doc(newId, now, NewUser(name, email, password, role))))
  {
    var d := Doc(newId, now, NewUser(name, email, password, role));
    var all := users + [d];
    assert all[|users|] == d;
    assert IndexOfEmail(all, email) == Some(|users|) by {
      IndexOfEmailAppend(users, d, email);
    }
  }

  /** Looking up an email not held in `users` after appending `d` with that email finds `d`. */
  lemma {:induction false} IndexOfEmailAppend(users: seq<Doc<User>>, d: Doc<User>, email: string)
    requires IndexOfEmail(users, email).None? && d.body.email == email
    ensures IndexOfEmail(users + [d], email) == Some(|users|)
  {
    if users != [] {
      assert (users + [d])[1..] == users[1..] + [d];
      IndexOfEmailAppend(users[1..], d, email);
    }
  }
}

=== FILE: auth_middleware.dfy ===
/** The request gate of `auth.js`: `protect` takes a bearer token from the
    `Authorization` header, has it verified, locates the account it names and
    records that account on the request; `authorize` admits only the listed
    roles. Token verification (signature and expiry) is the parameter `verify`,
    which yields the identifier a valid token carries and None where
    `jwt.verify` or the lookup would throw. */
module Gate {
  import opened Common
  import opened Store
  import opened Domain
  import opened Text
  import opened Ownership

  const NotAuthorized: string := "Not authorized to access this route"
  const RoleNotAuthorized: string := "User role is not authorized to access this route"

  /** Whether a middleware hands the request on (`next()`) or answers it. */
  datatype Verdict = Next | Halt(code: int, message: string)

  /** The token of the `Authorization` header: present only when the header starts
      with `Bearer`, and then the second field of a split on single spaces, which
      must exist and be non-empty. */
  function BearerToken(header: Option<string>): (r: Option<string>)
    ensures r.Some? ==> header.Some? && StartsWith(header.value, "Bearer")
    ensures r.Some? ==> r.value != "" && ' ' !in r.value
    ensures header.Some? && !StartsWith(header.value, "Bearer") ==> r.None?
  {
    if header.None? || !StartsWith(header.value, "Bearer") then None
    else
      var fields := Split(header.value, ' ');
      if |fields| < 2 || fields[1] == "" then None else Some(fields[1])
  }

  /** `Bearer <token>` gives the token back, for any non-empty token without spaces. */
  lemma BearerRoundTrip(t: string)
    requires t != "" && ' ' !in t
    ensures BearerToken(Some("Bearer " + t)) == Some(t)
  {
    assert "Bearer " + t == "Bearer" + [' '] + t;
    SplitAtFirst("Bearer", t, ' ');
    SplitNoSeparator(t, ' ');
  }

  /** The prefix test is looser than the scheme name: any text glued to `Bearer`
      before the first space is accepted, and fields after the token are ignored. */
  lemma BearerLoose(glued: string, t: string, rest: string)
    requires ' ' !in glued && ' ' !in t && t != ""
    ensures BearerToken(Some("Bearer" + glued + " " + t + " " + rest)) == Some(t)
  {
    var head := "Bearer" + glued;
    assert ' ' !in head;
    var h := "Bearer" + glued + " " + t + " " + rest;
    assert h == head + [' '] + (t + [' '] + rest);
    assert h[..6] == "Bearer";
    SplitAtFirst(head, t + [' '] + rest, ' ');
    SplitAtFirst(t, rest, ' ');
  }

  /** What `protect` concludes: a refusal, or the account the token names, with the
      values it stores in `req.userId`, `req.user` and `req.userRole`. */
  datatype Admission =
    | Denied(code: int, message: string)
    | Admitted(userId: JsValue, user: Doc<User>, userRole: string)

  /** `protect`: a missing token, a token `verify` rejects and a token naming no
      account all give the same 401 refusal; otherwise the account found by the
      identifier is admitted. The `isActive` flag is not consulted. */
  function Authenticate(header: Option<string>, verify: string -> Option<Id>, users: seq<Doc<User>>): (r: Admission)
    ensures r.Denied? ==> r == Denied(Unauthorized401, NotAuthorized)
    ensures r.Admitted? <==>
      && BearerToken(header).Some?
      && verify(BearerToken(header).value).Some?
      && !Fresh(users, verify(BearerToken(header).value).value)
    ensures r.Admitted? ==> r.user in users && r.user.id == verify(BearerToken(header).value).value
    ensures r.Admitted? ==> ToText(r.userId) == r.user.id && r.userRole == r.user.body.role
  {
    var token := BearerToken(header);
    if token.None? then Denied(Unauthorized401, NotAuthorized)
    else
      var decoded := verify(token.value);
      if decoded.None? then Denied(Unauthorized401, NotAuthorized)
      else match IndexOf(users, decoded.value)
        case None => Denied(Unauthorized401, NotAuthorized)
        case Some(i) => Admitted(RequestUserId(users[i].id), users[i], users[i].body.role)
  }

  /** A well-formed bearer header whose token names an account admits exactly that
      account, deactivated or not. */
  lemma AdmitsNamedAccount(t: string, verify: string -> Option<Id>, users: seq<Doc<User>>, i: nat)
    requires t != "" && ' ' !in t
    requires UniqueIds(users) && i < |users| && verify(t) == Some(users[i].id)
    ensures Authenticate(Some("Bearer " + t), verify, users) == Admitted(RequestUserId(users[i].id), users[i], users[i].body.role)
  {
    BearerRoundTrip(t);
    IndexOfUnique(users, i);
  }

  /** The fields `protect` writes on a request. */
  class Request {
    var authorization: Option<string>
    var userId: Option<JsValue>
    var user: Option<Doc<User>>
    var userRole: Option<string>

    constructor (authorization: Option<string>)
      ensures this.authorization == authorization
      ensures userId.None? && user.None? && userRole.None?
    {
      this.authorization := authorization;
      userId := None;
      user := None;
      userRole := None;
    }
  }

  /** `protect` on a request: a refusal leaves the request as it was; an admission
      records the account and hands the request on. */
  method Protect(req: Request, verify: string -> Option<Id>, users: seq<Doc<User>>) returns (v: Verdict)
    modifies req
    ensures req.authorization == old(req.authorization)
    ensures Authenticate(old(req.authorization), verify, users).Denied? ==>
      && v == Halt(Unauthorized401, NotAuthorized)
      && req.userId == old(req.userId) && req.user == old(req.user) && req.userRole == old(req.userRole)
    ensures Authenticate(old(req.authorization), verify, users).Admitted? ==>
      && v == Next
      && req.userId == Some(Authenticate(old(req.authorization), verify, users).userId)
      && req.user == Some(Authenticate(old(req.authorization), verify, users).user)
      && req.userRole == Some(Authenticate(old(req.authorization), verify, users).userRole)
  {
    var a := Authenticate(req.authorization, verify, users);
    if a.Denied? {
      return Halt(a.code, a.message);
    }
    req.userId := Some(a.userId);
    req.user := Some(a.user);
    req.userRole := Some(a.userRole);
    v := Next;
  }

  /** `authorize(...roles)`: the request passes only when `protect` recorded a role
      and that role is listed; otherwise 403. */
  function Authorize(roles: seq<string>, userRole: Option<string>): (v: Verdict)
    ensures v == Next <==> userRole.Some? && userRole.value in roles
    ensures v != Next ==> v == Halt(Forbidden403, RoleNotAuthorized)
  {
    if userRole.Some? && userRole.value in roles then Next else Halt(Forbidden403, RoleNotAuthorized)
  }

  /** After `protect`, `authorize` decides on the stored role of the admitted
      account, and an empty role list refuses everyone. */
  lemma AuthorizeAdmitted(header: Option<string>, verify: string -> Option<Id>, users: seq<Doc<User>>,
                          roles: seq<string>)
    requires Authenticate(header, verify, users).Admitted?
    ensures Authorize(roles, Some(Authenticate(header, verify, users).userRole)) == Next
      <==> Authenticate(header, verify, users).user.body.role in roles
    ensures Authorize([], Some(Authenticate(header, verify, users).userRole)) == Halt(Forbidden403, RoleNotAuthorized)
  {
  }
}

=== FILE: client.dfy ===
/** What the pages of the front end share: the shape in which they receive
    documents from the server, the local list rewrites they apply after a
    successful request, form-state updates, and the case-insensitive user
    search. */
module Client {
  import opened Common
  import opened Store
  import opened Text

  /** A reference field as a page receives it: absent, a bare identifier, or a
      populated document carrying its `_id` and possibly its display text (a
      user's `name`, a project's `title`). */
  datatype Ref = Absent | RawId(id: Id) | Populated(id: Id, name: Option<string>)

  /** `ref?._id || ref`: the identifier of a populated or of a bare reference. */
  function IdOrRaw(r: Ref): (o: Option<Id>)
    ensures o.None? <==> r.Absent?
    ensures o.Some? ==> o.value == r.id
  {
    match r
    case Absent => None
    case RawId(id) => Some(id)
    case Populated(id, _) => Some(id)
  }

  /** `ref?._id || ""`: the identifier of a populated reference, "" otherwise
      (a bare identifier has no `_id` property, so it is lost). */
  function PopulatedIdOr(r: Ref): (s: string)
    ensures r.Populated? ==> s == r.id
    ensures !r.Populated? ==> s == ""
  {
    if r.Populated? then r.id else ""
  }

  /** For references with non-empty identifiers, the two readings agree exactly
      on populated ones. */
  lemma RefReadingsAgree(r: Ref)
    requires !r.Absent? ==> r.id != ""
    ensures (IdOrRaw(r) == Some(PopulatedIdOr(r))) <==> r.Populated?
  {
  }

  /** A task as the pages hold it: the server's document with its references
      populated or not; status, priority and due date are the texts received. */
  datatype TaskView = TaskView(
    title: string,
    description: string,
    status: string,
    priority: string,
    assignee: Ref,
    project: Ref,
    dueDate: Option<string>)

  /** A user as the pages receive it from the user directory. */
  datatype UserView = UserView(name: Option<string>, email: string)

  /** `list.map(t => t._id === id ? x : t)`: every element with the identifier is
      replaced by `x`, every other stays where it was. */
  function ReplaceById<T>(s: seq<Doc<T>>, id: Id, x: Doc<T>): (r: seq<Doc<T>>)
    ensures |r| == |s|
    ensures forall k :: 0 <= k < |s| ==> r[k] == if s[k].id == id then x else s[k]
  {
    if s == [] then [] else [if s[0].id == id then x else s[0]] + ReplaceById(s[1..], id, x)
  }

  /** With identifiers unique, the replacement touches exactly the one element
      with that identifier. */
  lemma ReplaceByIdUnique<T>(s: seq<Doc<T>>, i: nat, x: Doc<T>)
    requires UniqueIds(s) && i < |s|
    ensures ReplaceById(s, s[i].id, x) == s[i := x]
  {
  }

  /** An identifier absent from the list changes nothing. */
  lemma ReplaceByIdAbsent<T>(s: seq<Doc<T>>, id: Id, x: Doc<T>)
    requires Fresh(s, id)
    ensures ReplaceById(s, id, x) == s
  {
  }

  function OtherId<T>(id: Id): Doc<T> -> bool
  {
    (d: Doc<T>) => d.id != id
  }

  /** `list.filter(t => t._id !== id)`. */
  function RemoveById<T(!new)>(s: seq<Doc<T>>, id: Id): (r: seq<Doc<T>>)
    ensures forall d :: d in r <==> d in s && d.id != id
    ensures |r| <= |s|
  {
    Where(s, OtherId(id))
  }

  /** With identifiers unique, the local removal is the removal of that one
      position, the same change the server makes to its collection. */
  lemma RemoveByIdIsWithout<T(!new)>(s: seq<Doc<T>>, i: nat)
    requires UniqueIds(s) && i < |s|
    ensures RemoveById(s, s[i].id) == Without(s, i)
  {
    var p := OtherId(s[i].id);
    var before, after := s[..i], s[i + 1..];
    KeepAll(s, i, before, 0);
    KeepAll(s, i, after, i + 1);
    assert !p(s[i]);
    assert s == before + [s[i]] + after;
    DropOne(before, s[i], after, p);
    calc {
      RemoveById(s, s[i].id);
      Where(s, p);
      before + after;
      Without(s, i);
    }
  }

  /** A slice of `s` at offset `off` that avoids position `i` keeps every element
      when removing the identifier of `s[i]`. */
  lemma KeepAll<T(!new)>(s: seq<Doc<T>>, i: nat, part: seq<Doc<T>>, off: nat)
    requires UniqueIds(s) && i < |s| && off + |part| <= |s|
    requires part == s[off..off + |part|] && (i < off || off + |part| <= i)
    ensures Where(part, OtherId(s[i].id)) == part
  {
    forall k | 0 <= k < |part| ensures OtherId(s[i].id)(part[k]) {
      assert part[k] == s[off + k];
    }
    WhereAll(part, OtherId(s[i].id));
  }

  /** A form or an error object: field name to text. */
  type Fields = map<string, string>

  /** `setFormData(prev => ({ ...prev, [name]: value }))`. */
  function SetField(form: Fields, name: string, value: string): (r: Fields)
    ensures name in r && r[name] == value
    ensures forall k :: k != name ==> (k in r <==> k in form)
    ensures forall k :: k != name && k in form ==> r[k] == form[k]
  {
    form[name := value]
  }

  /** `if (errors[name]) setErrors(prev => ({ ...prev, [name]: "" }))`: a non-empty
      error of the edited field becomes "", and nothing else changes. */
  function ClearError(errors: Fields, name: string): (r: Fields)
    ensures r.Keys == errors.Keys
    ensures name in r ==> r[name] == ""
    ensures forall k :: k in errors && k != name ==> r[k] == errors[k]
  {
    if name in errors && errors[name] != "" then errors[name := ""] else errors
  }

  /** Clearing an error twice is clearing it once. */
  lemma ClearErrorIdempotent(errors: Fields, name: string)
    ensures ClearError(ClearError(errors, name), name) == ClearError(errors, name)
  {
  }

  /** `name.toLowerCase().includes(query.toLowerCase())`. */
  predicate NameMatches(name: string, query: string)
  {
    Contains(ToLower(name), ToLower(query))
  }

  /** The empty query matches every name. */
  lemma EmptyQueryMatches(name: string)
    ensures NameMatches(name, "")
  {
    assert OccursAt(ToLower(name), ToLower(""), 0);
  }

  /** The match ignores the case of both the name and the query. */
  lemma NameMatchesIgnoresCase(name: string, query: string)
    ensures NameMatches(name, query) <==> NameMatches(ToLower(name), ToUpper(query))
  {
    LowerIdempotent(name);
    LowerOfUpper(query);
  }

  lemma LowerIdempotent(s: string)
    ensures ToLower(ToLower(s)) == ToLower(s)
  {
    assert forall i :: 0 <= i < |s| ==> LowerChar(LowerChar(s[i])) == LowerChar(s[i]);
  }

  lemma LowerOfUpper(s: string)
    ensures ToLower(ToUpper(s)) == ToLower(s)
  {
    assert forall i :: 0 <= i < |s| ==> LowerChar(UpperChar(s[i])) == LowerChar(s[i]);
  }

  /** `u.name || ""`. */
  function NameOrEmpty(u: Doc<UserView>): string
  {
    if u.body.name.Some? then u.body.name.value else ""
  }

  function Listed(query: string): Doc<UserView> -> bool
  {
    (u: Doc<UserView>) => NameMatches(NameOrEmpty(u), query)
  }

  /** The users whose name contains the query, case aside, in their order; a user
      without a name is treated as named "" (`(u.name || "")`). */
  function SearchUsers(users: seq<Doc<UserView>>, query: string): (r: seq<Doc<UserView>>)
    ensures forall u :: u in r <==> u in users && NameMatches(NameOrEmpty(u), query)
    ensures query == "" ==> r == users
  {
    if query == "" then
      forall u | u in users ensures Listed(query)(u) {
        EmptyQueryMatches(NameOrEmpty(u));
      }
      WhereAll(users, Listed(query));
      users
    else
      Where(users, Listed(query))
  }

  /** Under a non-empty query, a user without a name (or with an empty one) is
      never listed. */
  lemma NamelessNeverListed(users: seq<Doc<UserView>>, query: string, u: Doc<UserView>)
    requires query != "" && u in SearchUsers(users, query)
    ensures Present(u.body.name)
  {
    assert NameMatches(NameOrEmpty(u), query);
    assert |ToLower(query)| > 0;
  }
}

=== FILE: common.dfy ===
/** Vocabulary shared by every module: identifiers, optional values and
    the HTTP status codes the controllers answer with. */
module Common {

  /** A document identifier, as the 24-digit hexadecimal text of an ObjectId. */
  type Id = string

  datatype Option<T> = None | Some(value: T)

  /** A string field of a request body is truthy: given, and not empty. */
  predicate Present(o: Option<string>)
  {
    o.Some? && o.value != ""
  }

  const Ok200: int := 200
  const Created201: int := 201
  const BadRequest400: int := 400
  const Unauthorized401: int := 401
  const Forbidden403: int := 403
  const NotFound404: int := 404
  const ServerError500: int := 500
}

=== FILE: connections.dfy ===
/** The connection ("friend request") store of `connectionController`: a request
    is created pending, the recipient may accept it, and either party may
    remove it. No operation ever writes the status `rejected`: refusing a
    request deletes it. */
module Connections {
  import opened Common
  import opened Store
  import opened Domain
  import opened Ownership

  /** The connection links `a` and `b`, in either direction. */
  predicate Between(c: Connection, a: Id, b: Id)
  {
    (c.requester == a && c.recipient == b) || (c.requester == b && c.recipient == a)
  }

  /** `find` of the first connection between `a` and `b` in either direction. */
  function FindBetween(cs: seq<Doc<Connection>>, a: Id, b: Id): (r: Option<nat>)
    ensures r.Some? ==> r.value < |cs| && Between(cs[r.value].body, a, b)
    ensures r.Some? ==> forall k :: 0 <= k < r.value ==> !Between(cs[k].body, a, b)
    ensures r.None? <==> forall k :: 0 <= k < |cs| ==> !Between(cs[k].body, a, b)
  {
    if cs == [] then None
    else if Between(cs[0].body, a, b) then Some(0)
    else match FindBetween(cs[1..], a, b)
      case None => None
      case Some(k) => Some(k + 1)
  }

  /** The caller is one of the two parties. */
  function Involves(user: Id): Doc<Connection> -> bool
  {
    (d: Doc<Connection>) => d.body.requester == user || d.body.recipient == user
  }

  /** A connection joins two different users and is pending or accepted. */
  predicate WellFormed(c: Connection)
  {
    c.requester != c.recipient && c.status != Rejected
  }

  /** The connection at `i` with its status set to accepted. */
  function AcceptAt(docs: seq<Doc<Connection>>, i: nat): (r: seq<Doc<Connection>>)
    requires i < |docs|
    ensures |r| == |docs| && r[i].body.status == Accepted
    ensures r[i].id == docs[i].id && r[i].body.requester == docs[i].body.requester && r[i].body.recipient == docs[i].body.recipient
    ensures forall k :: 0 <= k < |docs| && k != i ==> r[k] == docs[k]
  {
    docs[i := docs[i].(body := docs[i].body.(status := Accepted))]
  }

  /** Accepting a connection a second time changes nothing. */
  lemma AcceptIdempotent(docs: seq<Doc<Connection>>, i: nat)
    requires i < |docs|
    ensures AcceptAt(AcceptAt(docs, i), i) == AcceptAt(docs, i)
  {
  }

  class ConnectionStore {
    /** The `Connection` collection, in insertion order. */
    var docs: seq<Doc<Connection>>

    /** Identifiers are unique, every connection is well formed, and two users
        share at most one connection whichever of them sent it. */
    ghost predicate Valid()
      reads this
    {
      && UniqueIds(docs)
      && (forall i :: 0 <= i < |docs| ==> WellFormed(docs[i].body))
      && (forall i, j :: 0 <= i < j < |docs| ==> !Between(docs[j].body, docs[i].body.requester, docs[i].body.recipient))
    }

    constructor ()
      ensures Valid() && docs == []
    {
      docs := [];
    }

    /** `sendRequest` from `caller` to `recipient`; `newId` and `now` are the new
        document's identifier and creation time. */
    method SendRequest(caller: Id, recipient: Id, newId: Id, now: int) returns (code: int)
      requires Valid() && Fresh(docs, newId)
      modifies this
      ensures Valid()
      ensures caller == recipient ==> code == BadRequest400 && docs == old(docs)
      ensures caller != recipient && FindBetween(old(docs), caller, recipient).Some? ==>
        code == BadRequest400 && docs == old(docs)
      ensures caller != recipient && FindBetween(old(docs), caller, recipient).None? ==>
        code == Created201 && docs == old(docs) + [Doc(newId, now, Connection(caller, recipient, Pending))]
    {
      if caller == recipient {
        return BadRequest400;
      }
      var existing := FindBetween(docs, caller, recipient);
      if existing.Some? {
        return BadRequest400;
      }
      var d := Doc(newId, now, Connection(caller, recipient, Pending));
      AppendKeepsUnique(docs, d);
      docs := docs + [d];
      code := Created201;
    }

    /** `getRequests`: every connection the caller takes part in, pending or accepted. */
    function GetRequests(caller: Id): (r: seq<Doc<Connection>>)
      reads this
      ensures forall d :: d in r <==> d in docs && (d.body.requester == caller || d.body.recipient == caller)
    {
      Where(docs, Involves(caller))
    }

    /** `acceptRequest` of connection `id` by `caller`: only the recipient may accept. */
    method AcceptRequest(caller: Id, id: Id) returns (code: int)
      requires Valid()
      modifies this
      ensures Valid()
      ensures IndexOf(old(docs), id).None? ==> code == NotFound404 && docs == old(docs)
      ensures IndexOf(old(docs), id).Some? && old(docs)[IndexOf(old(docs), id).value].body.recipient != caller ==>
        code == Forbidden403 && docs == old(docs)
      ensures IndexOf(old(docs), id).Some? && old(docs)[IndexOf(old(docs), id).value].body.recipient == caller ==>
        code == Ok200 && docs == AcceptAt(old(docs), IndexOf(old(docs), id).value)
    {
      var found := IndexOf(docs, id);
      if found.None? {
        return NotFound404;
      }
      var i := found.value;
      OwnerCheckExactlyOwner(docs[i].body.recipient, caller);
      if !OwnerCheck(docs[i].body.recipient, RequestUserId(caller)) {
        return Forbidden403;
      }
      docs := AcceptAt(docs, i);
      code := Ok200;
    }

    /** `rejectRequest` of connection `id` by `caller`: the recipient rejects, the
        requester cancels, and either way the connection is deleted. */
    method RejectRequest(caller: Id, id: Id) returns (code: int)
      requires Valid()
      modifies this
      ensures Valid()
      ensures IndexOf(old(docs), id).None? ==> code == NotFound404 && docs == old(docs)
      ensures IndexOf(old(docs), id).Some? && !Involves(caller)(old(docs)[IndexOf(old(docs), id).value]) ==>
        code == Forbidden403 && docs == old(docs)
      ensures IndexOf(old(docs), id).Some? && Involves(caller)(old(docs)[IndexOf(old(docs), id).value]) ==>
        code == Ok200 && docs == Without(old(docs), IndexOf(old(docs), id).value)
    {
      var found := IndexOf(docs, id);
      if found.None? {
        return NotFound404;
      }
      var i := found.value;
      OwnerCheckExactlyOwner(docs[i].body.recipient, caller);
      OwnerCheckExactlyOwner(docs[i].body.requester, caller);
      if !OwnerCheck(docs[i].body.recipient, RequestUserId(caller)) && !OwnerCheck(docs[i].body.requester, RequestUserId(caller)) {
        return Forbidden403;
      }
      docs := Without(docs, i);
      code := Ok200;
    }
  }
}

=== FILE: create_task_page.dfy ===
/** The task-creation page: the initial form, the normalisation of the user
    directory's reply, the assignee picker, and the checks made before the
    task is sent. */
module CreateTaskPage {
  import opened Common
  import opened Store
  import opened Domain
  import opened Text
  import opened Client

  /** The names of the form's fields. */
  const FormFields: set<string> := {"title", "description", "status", "priority", "dueDate", "assignee", "project"}

  /** The form as the page starts: everything empty but the status and the
      priority, which start at the defaults the task schema uses. */
  const InitialForm: Fields := map[
    "title" := "", "description" := "", "status" := "todo", "priority" := "medium",
    "dueDate" := "", "assignee" := "", "project" := ""]

  /** The form holds every one of its fields. */
  predicate WellShaped(form: Fields)
  {
    FormFields <= form.Keys
  }

  lemma InitialFormDefaults()
    ensures WellShaped(InitialForm)
    ensures InitialForm["status"] == StatusName(DefaultStatus)
    ensures InitialForm["priority"] == PriorityName(DefaultPriority)
    ensures forall k :: k in InitialForm && k != "status" && k != "priority" ==> InitialForm[k] == ""
  {
  }

  /** `handleChange` keeps every field of the form. */
  lemma ChangeKeepsShape(form: Fields, name: string, value: string)
    requires WellShaped(form)
    ensures WellShaped(SetField(form, name, value))
  {
  }

  const NoTitle: string := "Please enter a task title"
  const NoAssignee: string := "Please assign the task to a user"
  const NoProject: string := "Please select a project"
  const NoDueDate: string := "Please select a due date"

  /** The alert `handleSubmit` raises, the first check failing in this order: a
      blank title, no assignee, no project, no due date; None when the task is
      sent. */
  function SubmitCheck(form: Fields): (r: Option<string>)
    requires WellShaped(form)
    ensures r.None? <==> Trim(form["title"]) != "" && form["assignee"] != "" && form["project"] != "" && form["dueDate"] != ""
    ensures Trim(form["title"]) == "" ==> r == Some(NoTitle)
    ensures Trim(form["title"]) != "" && form["assignee"] == "" ==> r == Some(NoAssignee)
    ensures Trim(form["title"]) != "" && form["assignee"] != "" && form["project"] == "" ==> r == Some(NoProject)
    ensures Trim(form["title"]) != "" && form["assignee"] != "" && form["project"] != "" && form["dueDate"] == "" ==> r == Some(NoDueDate)
  {
    if Trim(form["title"]) == "" then Some(NoTitle)
    else if form["assignee"] == "" then Some(NoAssignee)
    else if form["project"] == "" then Some(NoProject)
    else if form["dueDate"] == "" then Some(NoDueDate)
    else None
  }

  /** The initial form is never sent: its title is empty. */
  lemma InitialFormRefused()
    ensures WellShaped(InitialForm) && SubmitCheck(InitialForm) == Some(NoTitle)
  {
    InitialFormDefaults();
    var t := InitialForm["title"];
    assert t == "";
    assert |Trim(t)| <= 0;
  }

  /** A reply body as the page may receive it: a list, an object with possibly a
      `data` and a `users` member, or anything else. */
  datatype Payload<T> = List(items: seq<T>) | Record(data: Option<Payload<T>>, users: Option<Payload<T>>) | Other

  predicate IsList<T>(o: Option<Payload<T>>)
  {
    o.Some? && o.value.List?
  }

  /** `fetchUsers`: the list under `data`, else the reply itself when it is a list,
      else the list under `users`, else none. */
  function UsersFrom<T>(res: Payload<T>): (r: seq<T>)
    ensures res.Record? && IsList(res.data) ==> r == res.data.value.items
    ensures res.List? ==> r == res.items
    ensures res.Record? && !IsList(res.data) && IsList(res.users) ==> r == res.users.value.items
    ensures res.Other? || (res.Record? && !IsList(res.data) && !IsList(res.users)) ==> r == []
  {
    if res.Record? && IsList(res.data) then res.data.value.items
    else if res.List? then res.items
    else if res.Record? && IsList(res.users) then res.users.value.items
    else []
  }

  /** `fetchProjects`: the list under `data`, none otherwise. */
  function ProjectsFrom<T>(res: Payload<T>): (r: seq<T>)
    ensures res.Record? && IsList(res.data) ==> r == res.data.value.items
    ensures !(res.Record? && IsList(res.data)) ==> r == []
  {
    if res.Record? && IsList(res.data) then res.data.value.items else []
  }

  /** Projects are read from `data` only, where users are read first too; a bare
      list, accepted as users, yields no projects. */
  lemma ProjectsStricterThanUsers<T>(res: Payload<T>)
    ensures ProjectsFrom(res) != [] ==> ProjectsFrom(res) == UsersFrom(res)
    ensures res.List? ==> ProjectsFrom(res) == [] && UsersFrom(res) == res.items
  {
  }

  /** The assignee picker: the form, the text typed in the search box, and
      whether the list is open. */
  datatype Picker = Picker(form: Fields, search: string, open: bool)

  /** The list appears when it is open and something is typed. */
  predicate ShowDropdown(p: Picker)
  {
    p.open && p.search != ""
  }

  /** The users listed under the search box. */
  function Dropdown(p: Picker, users: seq<Doc<UserView>>): (r: seq<Doc<UserView>>)
    ensures !ShowDropdown(p) ==> r == []
    ensures ShowDropdown(p) ==> forall u :: u in r <==> u in users && NameMatches(NameOrEmpty(u), p.search)
  {
    if ShowDropdown(p) then SearchUsers(users, p.search) else []
  }

  /** Typing in the search box: the text is taken, the list opens, and a chosen
      assignee is dropped. */
  function TypeSearch(p: Picker, text: string): (r: Picker)
    requires WellShaped(p.form)
    ensures r.search == text && r.open
    ensures WellShaped(r.form) && r.form["assignee"] == ""
    ensures forall k :: k != "assignee" ==> (k in r.form <==> k in p.form)
    ensures forall k :: k in p.form && k != "assignee" ==> r.form[k] == p.form[k]
  {
    var form := if p.form["assignee"] != "" then SetField(p.form, "assignee", "") else p.form;
    Picker(form, text, true)
  }

  /** Focusing the search box opens the list. */
  function Focus(p: Picker): (r: Picker)
    ensures r.open && r.form == p.form && r.search == p.search
  {
    p.(open := true)
  }

  /** `handleUserSelect` on the `k`th user listed: that user becomes the
      assignee, the search box shows the name, and the list closes. */
  function SelectUser(p: Picker, users: seq<Doc<UserView>>, k: nat): (r: Picker)
    requires WellShaped(p.form) && k < |Dropdown(p, users)|
    ensures WellShaped(r.form) && r.form["assignee"] == Dropdown(p, users)[k].id
    ensures Present(Dropdown(p, users)[k].body.name) && r.search == Dropdown(p, users)[k].body.name.value
    ensures !r.open && !ShowDropdown(r)
    ensures r.form.Keys == p.form.Keys
    ensures forall f :: f in p.form && f != "assignee" ==> r.form[f] == p.form[f]
  {
    var u := Dropdown(p, users)[k];
    assert u in SearchUsers(users, p.search);
    NamelessNeverListed(users, p.search, u);
    Picker(SetField(p.form, "assignee", u.id), u.body.name.value, false)
  }

  /** Typing in the search box after choosing a user un-assigns the task: with a
      title given, sending is refused until a user is chosen again. */
  lemma TypingUnassigns(p: Picker, text: string)
    requires WellShaped(p.form) && Trim(p.form["title"]) != ""
    ensures SubmitCheck(TypeSearch(p, text).form) == Some(NoAssignee)
  {
  }
}

=== FILE: dashboard_page.dfy ===
/** The dashboard page: the paginated list of active tasks, its Previous and
    Next buttons, the edit form's validation, and the colour classes of the
    badges. */
module DashboardPage {
  import opened Common
  import opened Store
  import opened Domain
  import opened Text
  import opened Client
  import TasksPage

  /** `itemsPerPage`. */
  const PageSize: nat := 5

  function NotCompleted(): Doc<TaskView> -> bool
  {
    (t: Doc<TaskView>) => t.body.status != "completed"
  }

  /** `tasks.filter(t => t.status !== "completed")`. */
  function ActiveTasks(tasks: seq<Doc<TaskView>>): (r: seq<Doc<TaskView>>)
    ensures forall t :: t in r <==> t in tasks && t.body.status != "completed"
    ensures |r| <= |tasks|
  {
    Where(tasks, NotCompleted())
  }

  /** The position `Array.prototype.slice` makes of an index: a negative one counts
      from the end, and either kind is clamped to 0..len. */
  function SliceIndex(i: int, len: nat): (r: nat)
    ensures r <= len
    ensures 0 <= i <= len ==> r == i
  {
    if i < 0 then (if len + i < 0 then 0 else len + i) else if i > len then len else i
  }

  /** `s.slice(start, end)`. */
  function Slice<T>(s: seq<T>, start: int, end: int): (r: seq<T>)
    ensures |r| <= |s|
    ensures 0 <= start <= end ==> |r| <= end - start
    ensures 0 <= start && r != [] ==> start + |r| <= |s|
    ensures 0 <= start <= end ==> forall k :: 0 <= k < |r| ==> r[k] == s[start + k]
  {
    var a, b := SliceIndex(start, |s|), SliceIndex(end, |s|);
    if a < b then s[a..b] else []
  }

  /** The tasks shown on page `page`. */
  function PageItems(active: seq<Doc<TaskView>>, page: int): (r: seq<Doc<TaskView>>)
    ensures page >= 1 ==> |r| <= PageSize
    ensures page >= 1 && r != [] ==> (page - 1) * PageSize + |r| <= |active|
    ensures page >= 1 ==> forall k :: 0 <= k < |r| ==> r[k] == active[(page - 1) * PageSize + k]
  {
    Slice(active, (page - 1) * PageSize, page * PageSize)
  }

  /** `Math.ceil(n / itemsPerPage)`: the fewest pages of five that hold `n` items. */
  function TotalPages(n: nat): (r: nat)
    ensures r * PageSize >= n
    ensures r == 0 || (r - 1) * PageSize < n
    ensures r == 0 <==> n == 0
  {
    (n + PageSize - 1) / PageSize
  }

  /** Every active task is on exactly the page its position says, and that page
      is among the pages counted. */
  lemma EveryTaskOnItsPage(active: seq<Doc<TaskView>>, k: nat)
    requires k < |active|
    ensures 1 <= k / PageSize + 1 <= TotalPages(|active|)
    ensures k % PageSize < |PageItems(active, k / PageSize + 1)|
    ensures PageItems(active, k / PageSize + 1)[k % PageSize] == active[k]
  {
    var p := k / PageSize + 1;
    assert (p - 1) * PageSize + k % PageSize == k;
    assert p * PageSize > k;
  }

  /** Pages 1 to TotalPages are never empty. */
  lemma CountedPagesNonEmpty(active: seq<Doc<TaskView>>, page: int)
    requires 1 <= page <= TotalPages(|active|)
    ensures |PageItems(active, page)| >= 1
  {
    assert (page - 1) * PageSize < |active|;
  }

  /** The pagination bar appears when there is more than one page: exactly when
      more than five tasks are active. */
  predicate ShowPagination(active: nat)
  {
    TotalPages(active) > 1
  }

  lemma ShowPaginationIff(n: nat)
    ensures ShowPagination(n) <==> n > PageSize
  {
  }

  /** Previous: `Math.max(1, p - 1)`. */
  function Previous(page: int): (r: int)
    ensures r >= 1
    ensures page > 1 ==> r == page - 1
    ensures page <= 1 ==> r == 1
  {
    if page - 1 < 1 then 1 else page - 1
  }

  /** Next: `Math.min(totalPages, p + 1)`. */
  function Next(page: int, totalPages: int): (r: int)
    ensures r <= totalPages
    ensures page < totalPages ==> r == page + 1
    ensures page >= totalPages ==> r == totalPages
  {
    if totalPages < page + 1 then totalPages else page + 1
  }

  /** From any page within 1..totalPages, both buttons lead to a page within it. */
  lemma NavigationStaysInRange(page: int, totalPages: int)
    requires 1 <= page <= totalPages
    ensures 1 <= Previous(page) <= totalPages
    ensures 1 <= Next(page, totalPages) <= totalPages
  {
  }

  const TitleRequired: string := "Title is required"
  const DescriptionRequired: string := "Description is required"
  const DueDateRequired: string := "Due date is required"

  /** `!form.field?.trim()`: the field is absent or blank. */
  predicate BlankField(form: Fields, name: string)
  {
    name !in form || Trim(form[name]) == ""
  }

  /** `!form.field`: the field is absent or empty. */
  predicate EmptyField(form: Fields, name: string)
  {
    name !in form || form[name] == ""
  }

  /** `validate`: the errors object is built field by field, and the form is valid
      exactly when it stays empty. */
  method Validate(form: Fields) returns (errors: Fields, ok: bool)
    ensures ok <==> errors == map[]
    ensures ok <==> !BlankField(form, "title") && !BlankField(form, "description") && !EmptyField(form, "dueDate")
    ensures errors.Keys <= {"title", "description", "dueDate"}
    ensures "title" in errors <==> BlankField(form, "title")
    ensures "title" in errors ==> errors["title"] == TitleRequired
    ensures "description" in errors <==> BlankField(form, "description")
    ensures "description" in errors ==> errors["description"] == DescriptionRequired
    ensures "dueDate" in errors <==> EmptyField(form, "dueDate")
    ensures "dueDate" in errors ==> errors["dueDate"] == DueDateRequired
  {
    assert "title" != "description" && "title" != "dueDate" && "description" != "dueDate" by {}
    var noTitle, noDescription, noDueDate := BlankField(form, "title"), BlankField(form, "description"), EmptyField(form, "dueDate");
    errors := map[];
    if noTitle {
      errors := errors["title" := TitleRequired];
    }
    if noDescription {
      errors := errors["description" := DescriptionRequired];
    }
    if noDueDate {
      errors := errors["dueDate" := DueDateRequired];
    }
    ok := !noTitle && !noDescription && !noDueDate;
    assert !ok ==> errors != map[] by {
      if noTitle {
        assert "title" in errors;
      } else if noDescription {
        assert "description" in errors;
      } else if noDueDate {
        assert "dueDate" in errors;
      }
    }
  }

  /** `getPriorityColor`: a class for each priority of the enumeration, "" otherwise. */
  function PriorityColor(priority: string): (r: string)
    ensures ParsePriority(priority).Some? ==> r == "priority-" + priority
    ensures ParsePriority(priority).None? ==> r == ""
  {
    match priority
    case "high" => "priority-high"
    case "medium" => "priority-medium"
    case "low" => "priority-low"
    case _ => ""
  }

  /** `getStatusColor` (the same switch appears on the projects page): a class for
      each status of the enumeration, "" otherwise. */
  function StatusColor(status: string): (r: string)
    ensures ParseStatus(status).Some? ==> r == "status-" + status
    ensures ParseStatus(status).None? ==> r == ""
  {
    match status
    case "completed" => "status-completed"
    case "in-progress" => "status-in-progress"
    case "todo" => "status-todo"
    case _ => ""
  }

  /** The fields the dashboard's edit form always sets; it has no project field. */
  const EditFields: set<string> := {"title", "description", "status", "priority", "dueDate"}

  /** `handleEditOpen`: the dashboard's own edit form, filled from the task. The
      assignee is `task.assignee?._id || task.assignee`, a key left unset when the
      task has none; there is no project field; the due date goes through
      `new Date(task.dueDate).toISOString()` with no guard, which throws for a task
      without one (None). */
  function EditPrefill(t: TaskView): (r: Option<Fields>)
    ensures r.None? <==> t.dueDate.None?
    ensures r.Some? ==> r.value.Keys == EditFields + (if t.assignee.Absent? then {} else {"assignee"})
    ensures r.Some? ==> r.value["title"] == t.title && r.value["description"] == t.description
    ensures r.Some? ==> r.value["status"] == t.status && r.value["priority"] == t.priority
    ensures r.Some? ==> r.value["dueDate"] == TasksPage.DatePart(t.dueDate.value)
    ensures r.Some? && !t.assignee.Absent? ==> r.value["assignee"] == t.assignee.id
  {
    if t.dueDate.None? then None
    else
      var fields := map[
        "title" := t.title, "description" := t.description, "status" := t.status,
        "priority" := t.priority, "dueDate" := TasksPage.DatePart(t.dueDate.value)];
      match IdOrRaw(t.assignee)
      case Some(id) => Some(fields["assignee" := id])
      case None => Some(fields)
  }

  /** The two edit forms agree on every field they share when the task's assignee
      arrives populated, and differ on a bare identifier: the dashboard keeps it,
      the task list empties it. */
  lemma EditPrefillsCompared(t: TaskView)
    requires t.dueDate.Some?
    ensures "project" !in EditPrefill(t).value
    ensures var d := EditPrefill(t).value; var f := TasksPage.EditPrefill(t).form;
      forall k :: k in d ==> k in f && ((k != "assignee" || t.assignee.Populated?) ==> d[k] == f[k])
    ensures t.assignee.RawId? && t.assignee.id != "" ==>
      EditPrefill(t).value["assignee"] != TasksPage.EditPrefill(t).form["assignee"]
  {
  }
}

=== FILE: domain.dfy ===
/** The records the back end stores, with the enumerations and defaults of
    their schemas (backend/models). Each is the `body` of a `Store.Doc`. */
module Domain {
  import opened Common

  /** The status enumeration shared by tasks and projects: todo, in-progress, completed. */
  datatype Status = Todo | InProgress | Completed

  /** The task priority enumeration: low, medium, high. */
  datatype Priority = Low | Medium | High

  function StatusName(s: Status): (r: string)
    ensures r in ["todo", "in-progress", "completed"]
  {
    match s
    case Todo => "todo"
    case InProgress => "in-progress"
    case Completed => "completed"
  }

  function PriorityName(p: Priority): (r: string)
    ensures r in ["low", "medium", "high"]
  {
    match p
    case Low => "low"
    case Medium => "medium"
    case High => "high"
  }

  /** The schema's enum validator for status: the status a stored string names, if any. */
  function ParseStatus(s: string): (r: Option<Status>)
    ensures r.Some? ==> StatusName(r.value) == s
  {
    if s == "todo" then Some(Todo)
    else if s == "in-progress" then Some(InProgress)
    else if s == "completed" then Some(Completed)
    else None
  }

  /** Every status survives a round trip through its stored name. */
  lemma StatusRoundTrip(st: Status)
    ensures ParseStatus(StatusName(st)) == Some(st)
  {
  }

  /** The schema's enum validator for priority. */
  function ParsePriority(s: string): (r: Option<Priority>)
    ensures r.Some? ==> PriorityName(r.value) == s
  {
    if s == "low" then Some(Low)
    else if s == "medium" then Some(Medium)
    else if s == "high" then Some(High)
    else None
  }

  /** Every priority survives a round trip through its stored name. */
  lemma PriorityRoundTrip(p: Priority)
    ensures ParsePriority(PriorityName(p)) == Some(p)
  {
  }

  /** The schema default status of a task or project. */
  const DefaultStatus: Status := Todo

  /** The schema default priority of a task. */
  const DefaultPriority: Priority := Medium

  /** A task. `updatedAt` is the time of its last write, in milliseconds. */
  datatype Task = Task(
    title: string,
    description: string,
    status: Status,
    priority: Priority,
    project: Option<Id>,
    assignee: Id,
    createdBy: Id,
    dueDate: int,
    updatedAt: int)

  /** A project; `team` is optional and `members` lists user ids. */
  datatype Project = Project(
    title: string,
    description: string,
    status: Status,
    progress: int,
    dueDate: int,
    team: Option<Id>,
    members: seq<Id>,
    createdBy: Id)

  /** A team: a named list of member ids owned by its creator. */
  datatype Team = Team(name: string, description: string, members: seq<Id>, createdBy: Id)

  /** The connection status enumeration: pending, accepted, rejected. */
  datatype ConnectionStatus = Pending | Accepted | Rejected

  /** A friend-request style connection from `requester` to `recipient`. */
  datatype Connection = Connection(requester: Id, recipient: Id, status: ConnectionStatus)

  /** The notification type enumeration: assignment, completion, reminder, team, system. */
  datatype NotificationKind = Assignment | Completion | Reminder | TeamEvent | System

  function KindName(k: NotificationKind): (r: string)
    ensures r in ["assignment", "completion", "reminder", "team", "system"]
  {
    match k
    case Assignment => "assignment"
    case Completion => "completion"
    case Reminder => "reminder"
    case TeamEvent => "team"
    case System => "system"
  }

  /** The schema's enum validator for the notification type. */
  function ParseKind(s: string): (r: Option<NotificationKind>)
    ensures r.Some? ==> KindName(r.value) == s
  {
    if s == "assignment" then Some(Assignment)
    else if s == "completion" then Some(Completion)
    else if s == "reminder" then Some(Reminder)
    else if s == "team" then Some(TeamEvent)
    else if s == "system" then Some(System)
    else None
  }

  /** Every notification type survives a round trip through its stored name. */
  lemma KindRoundTrip(k: NotificationKind)
    ensures ParseKind(KindName(k)) == Some(k)
  {
  }

  /** The schema default notification type. */
  const DefaultKind: NotificationKind := System

  /** A notification addressed to `user`. */
  datatype Notification = Notification(
    title: string,
    message: string,
    kind: NotificationKind,
    user: Id,
    read: bool,
    relatedTask: Option<Id>,
    relatedProject: Option<Id>)

  /** A user account. `password` stands for the stored credential. */
  datatype User = User(
    name: string,
    email: string,
    password: string,
    role: string,
    avatar: string,
    isActive: bool)
}

=== FILE: error_handler.dfy ===
/** `errorHandler`: the last middleware, which fills in a status and a message
    for an error and answers with them. Its rules run one after another and
    each matching rule overwrites what the earlier ones wrote, so the last
    matching rule decides. */
module ErrorHandler {
  import opened Common

  const DefaultMessage: string := "Internal Server Error"
  const CastPrefix: string := "Resource not found. Invalid: "
  const DuplicateSuffix: string := " already exists"
  const InvalidToken: string := "Invalid token"
  const ExpiredToken: string := "Token has expired"

  /** MongoDB's duplicate-key error code. */
  const DuplicateKey: int := 11000

  /** The text a template literal makes of a string property that may be `undefined`. */
  function TemplateText(o: Option<string>): (r: string)
    ensures o.Some? ==> r == o.value
    ensures o.None? ==> r == "undefined"
  {
    if o.Some? then o.value else "undefined"
  }

  /** An error reaching the handler: its `name`, its optional `statusCode` and
      `message`, the `path` of a cast error, the driver `code`, and the field
      names of the `keyValue` of a duplicate-key error, in key order. */
  class ErrorObject {
    var name: string
    var statusCode: Option<int>
    var message: Option<string>
    var path: Option<string>
    var code: Option<int>
    var keyFields: seq<string>

    constructor (name: string, statusCode: Option<int>, message: Option<string>, path: Option<string>,
                 code: Option<int>, keyFields: seq<string>)
      ensures this.name == name && this.statusCode == statusCode && this.message == message
      ensures this.path == path && this.code == code && this.keyFields == keyFields
    {
      this.name := name;
      this.statusCode := statusCode;
      this.message := message;
      this.path := path;
      this.code := code;
      this.keyFields := keyFields;
    }
  }

  /** `${field} already exists` for the first key of `keyValue`. */
  function DuplicateMessage(keyFields: seq<string>): (m: string)
    ensures keyFields != [] ==> m == keyFields[0] + DuplicateSuffix
    ensures keyFields == [] ==> m == "undefined" + DuplicateSuffix
  {
    TemplateText(if keyFields == [] then None else Some(keyFields[0])) + DuplicateSuffix
  }

  /** Some rule of the handler matches the error. */
  predicate AnyRule(name: string, code: Option<int>)
  {
    name == "CastError" || code == Some(DuplicateKey) || name == "JsonWebTokenError" || name == "TokenExpiredError"
  }

  /** The status and message the handler settles on, stated rule by rule from the
      last one back: the first rule met in this order is the one that wrote last. */
  function Outcome(name: string, statusCode: Option<int>, message: Option<string>, path: Option<string>,
                   code: Option<int>, keyFields: seq<string>): (r: (int, string))
    ensures AnyRule(name, code) ==> r.0 == BadRequest400
    ensures !AnyRule(name, code) ==> r.0 == (if statusCode.Some? && statusCode.value != 0 then statusCode.value else ServerError500)
    ensures !AnyRule(name, code) ==> r.1 == (if Present(message) then message.value else DefaultMessage)
    ensures name == "TokenExpiredError" ==> r.1 == ExpiredToken
    ensures name == "JsonWebTokenError" ==> r.1 == InvalidToken
    ensures name == "CastError" && code != Some(DuplicateKey) ==> r.1 == CastPrefix + TemplateText(path)
    ensures name == "CastError" && code == Some(DuplicateKey) ==> r.1 == DuplicateMessage(keyFields)
  {
    if name == "TokenExpiredError" then (BadRequest400, ExpiredToken)
    else if name == "JsonWebTokenError" then (BadRequest400, InvalidToken)
    else if code == Some(DuplicateKey) then (BadRequest400, DuplicateMessage(keyFields))
    else if name == "CastError" then (BadRequest400, CastPrefix + TemplateText(path))
    else (if statusCode.Some? && statusCode.value != 0 then statusCode.value else ServerError500,
          if Present(message) then message.value else DefaultMessage)
  }

  /** The status the handler answers with is never 0, so never falsy: the
      default always applies to an error without one. */
  lemma OutcomeStatusSet(name: string, statusCode: Option<int>, message: Option<string>, path: Option<string>,
                         code: Option<int>, keyFields: seq<string>)
    ensures Outcome(name, statusCode, message, path, code, keyFields).0 != 0
    ensures Outcome(name, statusCode, message, path, code, keyFields).1 != ""
  {
  }

  /** The body of the answer: `success` false, the message, and the error itself
      in development (None stands for the empty object sent otherwise). */
  datatype Response = Response(status: int, success: bool, message: string, error: Option<ErrorObject>)

  /** `errorHandler(err, req, res, next)`: the defaults, then each rule in turn
      overwriting the status and message of `err`, then the answer. */
  method HandleError(err: ErrorObject, development: bool) returns (res: Response)
    modifies err
    ensures err.name == old(err.name) && err.path == old(err.path)
    ensures err.code == old(err.code) && err.keyFields == old(err.keyFields)
    ensures var o := Outcome(old(err.name), old(err.statusCode), old(err.message), old(err.path), old(err.code),
                             old(err.keyFields));
      && err.statusCode == Some(o.0) && err.message == Some(o.1)
      && res == Response(o.0, false, o.1, if development then Some(err) else None)
  {
    var status := if err.statusCode.Some? && err.statusCode.value != 0 then err.statusCode.value else ServerError500;
    var message := if Present(err.message) then err.message.value else DefaultMessage;
    if err.name == "CastError" {
      status, message := BadRequest400, CastPrefix + TemplateText(err.path);
    }
    if err.code == Some(DuplicateKey) {
      status, message := BadRequest400, DuplicateMessage(err.keyFields);
    }
    if err.name == "JsonWebTokenError" {
      status, message := BadRequest400, InvalidToken;
    }
    if err.name == "TokenExpiredError" {
      status, message := BadRequest400, ExpiredToken;
    }
    err.statusCode, err.message := Some(status), Some(message);
    res := Response(status, false, message, if development then Some(err) else None);
  }
}

=== FILE: notifications.dfy ===
/** The notification store of `notificationController`: notifications addressed
    to one user each, with a read flag only that user may set. */
module Notifications {
  import opened Common
  import opened Store
  import opened Domain
  import opened Ownership

  function AddressedTo(user: Id): Doc<Notification> -> bool
  {
    (d: Doc<Notification>) => d.body.user == user
  }

  function UnreadFor(user: Id): Doc<Notification> -> bool
  {
    (d: Doc<Notification>) => d.body.user == user && !d.body.read
  }

  /** The notification at `i` marked read. */
  function ReadAt(docs: seq<Doc<Notification>>, i: nat): (r: seq<Doc<Notification>>)
    requires i < |docs|
    ensures |r| == |docs| && r[i].body.read
    ensures r[i] == docs[i].(body := docs[i].body.(read := true))
    ensures forall k :: 0 <= k < |docs| && k != i ==> r[k] == docs[k]
  {
    docs[i := docs[i].(body := docs[i].body.(read := true))]
  }

  /** Marking a notification read twice is the same as marking it once. */
  lemma ReadAtIdempotent(docs: seq<Doc<Notification>>, i: nat)
    requires i < |docs|
    ensures ReadAt(ReadAt(docs, i), i) == ReadAt(docs, i)
  {
  }

  /** `updateMany({ user, read: false }, { read: true })`: every unread notification of
      `user` becomes read; identifiers, order and every other notification stay. */
  function MarkAllRead(docs: seq<Doc<Notification>>, user: Id): (r: seq<Doc<Notification>>)
    ensures |r| == |docs|
    ensures forall k :: 0 <= k < |docs| ==>
      r[k] == if docs[k].body.user == user then docs[k].(body := docs[k].body.(read := true)) else docs[k]
  {
    if docs == [] then []
    else
      var d := docs[0];
      [if d.body.user == user then d.(body := d.body.(read := true)) else d] + MarkAllRead(docs[1..], user)
  }

  /** After marking everything read, `user` has no unread notification left. */
  lemma {:induction false} NoUnreadAfterMarkAll(docs: seq<Doc<Notification>>, user: Id)
    ensures Where(MarkAllRead(docs, user), UnreadFor(user)) == []
  {
    if docs != [] {
      NoUnreadAfterMarkAll(docs[1..], user);
      assert MarkAllRead(docs, user)[1..] == MarkAllRead(docs[1..], user);
    }
  }

  /** Marking everything read twice changes nothing the second time. */
  lemma MarkAllReadIdempotent(docs: seq<Doc<Notification>>, user: Id)
    ensures MarkAllRead(MarkAllRead(docs, user), user) == MarkAllRead(docs, user)
  {
  }

  /** The values `createNotification` reads from the body. */
  datatype NotificationInput = NotificationInput(
    title: Option<string>,
    message: Option<string>,
    kind: Option<string>,
    user: Option<Id>,
    relatedTask: Option<Id>,
    relatedProject: Option<Id>)

  /** The document `Notification.create` builds, or None when validation throws:
      title, message and user are required (an empty string fails too), a given
      type must be one of the enum, an absent one defaults to `system`, and a new
      notification is unread. */
  function BuildNotification(input: NotificationInput): (r: Option<Notification>)
    ensures r.Some? <==>
      && input.title.Some? && input.title.value != ""
      && input.message.Some? && input.message.value != ""
      && input.user.Some?
      && (input.kind.None? || ParseKind(input.kind.value).Some?)
    ensures r.Some? ==> !r.value.read && r.value.user == input.user.value
    ensures r.Some? ==> r.value.title == input.title.value && r.value.message == input.message.value
    ensures r.Some? ==> r.value.relatedTask == input.relatedTask && r.value.relatedProject == input.relatedProject
    ensures r.Some? && input.kind.None? ==> r.value.kind == System
    ensures r.Some? && input.kind.Some? ==> KindName(r.value.kind) == input.kind.value
  {
    if input.title.None? || input.title.value == "" then None
    else if input.message.None? || input.message.value == "" then None
    else if input.user.None? then None
    else
      var kind := if input.kind.None? then Some(DefaultKind) else ParseKind(input.kind.value);
      if kind.None? then None
      else Some(Notification(input.title.value, input.message.value, kind.value, input.user.value, false,
                             input.relatedTask, input.relatedProject))
  }

  class NotificationStore {
    /** The `Notification` collection, in insertion order. */
    var docs: seq<Doc<Notification>>

    ghost predicate Valid()
      reads this
    {
      UniqueIds(docs)
    }

    constructor ()
      ensures Valid() && docs == []
    {
      docs := [];
    }

    /** `getAllNotifications`: the caller's notifications, newest first. */
    function GetAllNotifications(caller: Id): (r: seq<Doc<Notification>>)
      reads this
      ensures forall d :: d in r <==> d in docs && d.body.user == caller
      ensures forall i :: 0 <= i < |r| - 1 ==> r[i].createdAt >= r[i + 1].createdAt
    {
      NewestFirst(Where(docs, AddressedTo(caller)))
    }

    /** `getUnreadNotifications`: the caller's unread notifications, newest first. */
    function GetUnreadNotifications(caller: Id): (r: seq<Doc<Notification>>)
      reads this
      ensures forall d :: d in r <==> d in docs && d.body.user == caller && !d.body.read
      ensures forall i :: 0 <= i < |r| - 1 ==> r[i].createdAt >= r[i + 1].createdAt
    {
      NewestFirst(Where(docs, UnreadFor(caller)))
    }

    /** `markAsRead`: 404 for an unknown notification, 403 for anyone but its
        addressee, else that notification alone becomes read. */
    method MarkAsRead(caller: Id, id: Id) returns (code: int)
      requires Valid()
      modifies this
      ensures Valid()
      ensures match IndexOf(old(docs), id)
        case None => code == NotFound404 && docs == old(docs)
        case Some(i) =>
          if old(docs)[i].body.user != caller then code == Forbidden403 && docs == old(docs)
          else code == Ok200 && docs == ReadAt(old(docs), i)
    {
      var found := IndexOf(docs, id);
      if found.None? {
        return NotFound404;
      }
      var i := found.value;
      OwnerCheckExactlyOwner(docs[i].body.user, caller);
      if !OwnerCheck(docs[i].body.user, RequestUserId(caller)) {
        return Forbidden403;
      }
      UpdatedKeepsUnique(docs, i, ReadAt(docs, i)[i]);
      docs := ReadAt(docs, i);
      code := Ok200;
    }

    /** `markAllAsRead`: every unread notification of the caller becomes read. */
    method MarkAllAsRead(caller: Id) returns (code: int)
      requires Valid()
      modifies this
      ensures Valid()
      ensures code == Ok200 && docs == MarkAllRead(old(docs), caller)
      ensures GetUnreadNotifications(caller) == []
    {
      docs := MarkAllRead(docs, caller);
      NoUnreadAfterMarkAll(old(docs), caller);
      code := Ok200;
    }

    /** `deleteNotification`: 404, then 403, else only that notification is removed. */
    method DeleteNotification(caller: Id, id: Id) returns (code: int)
      requires Valid()
      modifies this
      ensures Valid()
      ensures match IndexOf(old(docs), id)
        case None => code == NotFound404 && docs == old(docs)
        case Some(i) =>
          if old(docs)[i].body.user != caller then code == Forbidden403 && docs == old(docs)
          else code == Ok200 && docs == Without(old(docs), i)
    {
      var found := IndexOf(docs, id);
      if found.None? {
        return NotFound404;
      }
      var i := found.value;
      OwnerCheckExactlyOwner(docs[i].body.user, caller);
      if !OwnerCheck(docs[i].body.user, RequestUserId(caller)) {
        return Forbidden403;
      }
      docs := Without(docs, i);
      code := Ok200;
    }

    /** `createNotification`: the addressee comes from the body, not from the caller;
        500 when validation throws. */
    method CreateNotification(input: NotificationInput, newId: Id, now: int) returns (code: int)
      requires Valid() && Fresh(docs, newId)
      modifies this
      ensures Valid()
      ensures BuildNotification(input).None? ==> code == ServerError500 && docs == old(docs)
      ensures BuildNotification(input).Some? ==>
        code == Created201 && docs == old(docs) + [Doc(newId, now, BuildNotification(input).value)]
    {
      var built := BuildNotification(input);
      if built.None? {
        return ServerError500;
      }
      var d := Doc(newId, now, built.value);
      AppendKeepsUnique(docs, d);
      docs := docs + [d];
      code := Created201;
    }
  }
}

=== FILE: notifications_page.dfy ===
/** The notifications page: the unread count, the local read marks applied
    once the server has accepted the request, and the header text and button
    that depend on the count. The page keys notifications by their `id`. */
module NotificationsPage {
  import opened Common
  import opened Store
  import opened Domain
  import opened Text

  function IsUnread(): Doc<Notification> -> bool
  {
    (n: Doc<Notification>) => !n.body.read
  }

  /** `notifications.filter(n => !n.read).length`. */
  function UnreadCount(ns: seq<Doc<Notification>>): (c: nat)
    ensures c <= |ns|
    ensures c == 0 <==> forall k :: 0 <= k < |ns| ==> ns[k].body.read
  {
    var unread := Where(ns, IsUnread());
    assert unread == [] <==> forall k :: 0 <= k < |ns| ==> ns[k].body.read by {
      if unread != [] {
        assert unread[0] in ns;
      } else {
        forall k | 0 <= k < |ns| ensures ns[k].body.read {
          assert ns[k] in ns;
        }
      }
    }
    |unread|
  }

  /** A notification added at the end raises the count by one exactly when it is
      unread. With `UnreadCount([]) == 0` this fixes the count of every list: the
      number of its unread notifications. */
  lemma UnreadCountAppend(ns: seq<Doc<Notification>>, n: Doc<Notification>)
    ensures UnreadCount(ns + [n]) == UnreadCount(ns) + (if n.body.read then 0 else 1)
  {
    WhereConcat(ns, [n], IsUnread());
    assert [n][1..] == [];
  }

  /** `notifications.map(n => n.id === id ? { ...n, read: true } : n)`. */
  function MarkOne(ns: seq<Doc<Notification>>, id: Id): (r: seq<Doc<Notification>>)
    ensures |r| == |ns|
    ensures forall k :: 0 <= k < |ns| ==>
      r[k] == if ns[k].id == id then ns[k].(body := ns[k].body.(read := true)) else ns[k]
  {
    if ns == [] then []
    else
      var n := ns[0];
      [if n.id == id then n.(body := n.body.(read := true)) else n] + MarkOne(ns[1..], id)
  }

  /** `notifications.map(n => ({ ...n, read: true }))`. */
  function MarkAll(ns: seq<Doc<Notification>>): (r: seq<Doc<Notification>>)
    ensures |r| == |ns|
    ensures forall k :: 0 <= k < |ns| ==> r[k] == ns[k].(body := ns[k].body.(read := true))
  {
    if ns == [] then [] else [ns[0].(body := ns[0].body.(read := true))] + MarkAll(ns[1..])
  }

  /** The list after `markAsRead(id)`: changed only when the server answered with
      success. */
  function AfterMarkAsRead(ns: seq<Doc<Notification>>, id: Id, serverOk: bool): (r: seq<Doc<Notification>>)
    ensures !serverOk ==> r == ns
    ensures serverOk ==> r == MarkOne(ns, id)
  {
    if serverOk then MarkOne(ns, id) else ns
  }

  /** The list after `markAllAsRead`: every notification read when the server
      answered with success, unchanged otherwise. */
  function AfterMarkAllAsRead(ns: seq<Doc<Notification>>, serverOk: bool): (r: seq<Doc<Notification>>)
    ensures !serverOk ==> r == ns
    ensures serverOk ==> UnreadCount(r) == 0
    ensures |r| == |ns|
  {
    if serverOk then MarkAll(ns) else ns
  }

  /** Marking one notification read never raises the unread count. */
  lemma {:induction false} MarkOneUnread(ns: seq<Doc<Notification>>, id: Id)
    ensures UnreadCount(MarkOne(ns, id)) <= UnreadCount(ns)
  {
    if ns != [] {
      MarkOneUnread(ns[1..], id);
      assert MarkOne(ns, id)[1..] == MarkOne(ns[1..], id);
      assert Where(MarkOne(ns, id), IsUnread()) == (if IsUnread()(MarkOne(ns, id)[0]) then [MarkOne(ns, id)[0]] else [])
        + Where(MarkOne(ns[1..], id), IsUnread());
    }
  }

  /** The header line: the count with a plural `s` from two on, or `All caught up!`. */
  function Subtitle(unread: nat): (r: string)
    ensures r == "All caught up!" <==> unread == 0
    ensures |r| > 0
    ensures unread > 0 ==> (r[|r| - 1] == 's' <==> unread > 1)
    ensures unread > 0 ==> StartsWithCount(r, unread)
  {
    if unread > 0 then Decimal(unread) + " unread notification" + (if unread > 1 then "s" else "")
    else "All caught up!"
  }

  /** `r` begins with the decimal digits of `n`. */
  predicate StartsWithCount(r: string, n: nat)
  {
    |Decimal(n)| <= |r| && r[..|Decimal(n)|] == Decimal(n)
  }

  /** The `Mark all as read` button is shown exactly when something is unread, and
      a successful mark-all hides it. */
  predicate ShowMarkAll(ns: seq<Doc<Notification>>)
  {
    UnreadCount(ns) > 0
  }

  lemma MarkAllHidesButton(ns: seq<Doc<Notification>>)
    ensures !ShowMarkAll(AfterMarkAllAsRead(ns, true))
    ensures Subtitle(UnreadCount(AfterMarkAllAsRead(ns, true))) == "All caught up!"
  {
  }
}

=== FILE: ownership.dfy ===
/** How the controllers decide that the caller owns a record.

    `protect` stores the located user's `_id` in `req.userId`, and that value
    is an ObjectId, not a string. The task, team and notification controllers
    refuse the caller when `record.createdBy.toString() !== req.userId`
    (or `record.user.toString()`), a strict comparison between a string and an
    object, which never holds as equal. The project and connection
    controllers convert both sides with `toString()`. */
module Ownership {
  import opened Common

  /** The two kinds of value a user identity takes in a request. */
  datatype JsValue = JsString(text: string) | JsObjectId(hex: Id)

  /** `v.toString()`. */
  function ToText(v: JsValue): string
  {
    match v
    case JsString(s) => s
    case JsObjectId(h) => h
  }

  /** JavaScript `s === v` for a string `s`: true only for a string with the same text. */
  predicate StrictEqualsText(s: string, v: JsValue)
  {
    v == JsString(s)
  }

  /** What `protect` stores in `req.userId` for the located user: that user's ObjectId. */
  function RequestUserId(user: Id): (v: JsValue)
    ensures ToText(v) == user
  {
    JsObjectId(user)
  }

  /** The owner test as written in the task, team and notification controllers:
      the caller passes when `owner.toString() === req.userId`. */
  predicate OwnerCheckAsWritten(owner: Id, requestUserId: JsValue)
  {
    StrictEqualsText(ToText(JsObjectId(owner)), requestUserId)
  }

  /** With the identity `protect` provides, the written owner test fails for every
      caller, the owner included. */
  lemma OwnerRefusedAsWritten(owner: Id, caller: Id)
    ensures !OwnerCheckAsWritten(owner, RequestUserId(caller))
  {
  }

  /** The owner test with both sides converted by `toString()`, as the project and
      connection controllers write it, and as every store of this model uses it. */
  predicate OwnerCheck(owner: Id, requestUserId: JsValue)
  {
    ToText(JsObjectId(owner)) == ToText(requestUserId)
  }

  /** The corrected test admits exactly the owner. */
  lemma OwnerCheckExactlyOwner(owner: Id, caller: Id)
    ensures OwnerCheck(owner, RequestUserId(caller)) <==> owner == caller
  {
  }
}

=== FILE: profile_page.dfy ===
/** The profile page: the tab chosen from the address, and the password form
    with its checks, its request and the state it is left in by the reply. */
module ProfilePage {
  import opened Common
  import opened Client

  /** `searchParams.get("tab") || "profile"`. */
  function Tab(param: Option<string>): (r: string)
    ensures Present(param) ==> r == param.value
    ensures !Present(param) ==> r == "profile"
    ensures r != ""
  {
    if Present(param) then param.value else "profile"
  }

  /** The three fields of the password form (`new` is a reserved word here). */
  datatype PasswordData = PasswordData(current: string, newPassword: string, confirm: string)

  const Cleared: PasswordData := PasswordData("", "", "")

  const CurrentRequired: string := "Current password is required"
  const NewRequired: string := "New password is required"
  const NewTooShort: string := "Password must be at least 8 characters"
  const ConfirmDiffers: string := "Passwords do not match"
  const ChangeFailed: string := "Error changing password"
  const MinPasswordLength: nat := 8

  /** The checks of `handlePasswordSubmit`, one `if` after the other. The length
      check overwrites the message of an empty new password, so the
      `required` message is never left. */
  method PasswordErrors(data: PasswordData) returns (errors: Fields)
    ensures errors.Keys <= {"current", "new", "confirm"}
    ensures "current" in errors <==> data.current == ""
    ensures "current" in errors ==> errors["current"] == CurrentRequired
    ensures "new" in errors <==> |data.newPassword| < MinPasswordLength
    ensures "new" in errors ==> errors["new"] == NewTooShort
    ensures "confirm" in errors <==> data.newPassword != data.confirm
    ensures "confirm" in errors ==> errors["confirm"] == ConfirmDiffers
    ensures forall k :: k in errors ==> errors[k] != NewRequired
  {
    errors := map[];
    if data.current == "" {
      errors := errors["current" := CurrentRequired];
    }
    if data.newPassword == "" {
      errors := errors["new" := NewRequired];
    }
    if |data.newPassword| < MinPasswordLength {
      errors := errors["new" := NewTooShort];
    }
    if data.newPassword != data.confirm {
      errors := errors["confirm" := ConfirmDiffers];
    }
  }

  /** The answer to the change-password request: refused with the body's
      `message` if any, accepted, or no answer at all (the request threw). */
  datatype Reply = Refused(message: Option<string>) | Accepted | Threw

  /** The form after a submission: the request goes out exactly when there are no
      errors; a refusal shows the server's message, or a default, under the
      current password; an acceptance clears the three fields. */
  datatype FormState = FormState(data: PasswordData, errors: Fields)

  function AfterReply(data: PasswordData, errors: Fields, reply: Reply): (r: FormState)
    requires errors == map[]
    ensures reply.Accepted? ==> r == FormState(Cleared, map[])
    ensures reply.Refused? ==> r.data == data && r.errors.Keys == {"current"}
    ensures reply.Refused? && Present(reply.message) ==> r.errors["current"] == reply.message.value
    ensures reply.Refused? && !Present(reply.message) ==> r.errors["current"] == ChangeFailed
    ensures reply.Threw? ==> r == FormState(data, errors)
  {
    match reply
    case Refused(message) => FormState(data, map["current" := if Present(message) then message.value else ChangeFailed])
    case Accepted => FormState(Cleared, map[])
    case Threw => FormState(data, errors)
  }

  /** `handlePasswordSubmit`: the state the form is left in, and whether the
      request was sent. The reply is consulted only when it was. */
  method Submit(data: PasswordData, reply: Reply) returns (state: FormState, sent: bool)
    ensures sent <==> data.current != "" && |data.newPassword| >= MinPasswordLength && data.newPassword == data.confirm
    ensures !sent ==> state.data == data && state.errors != map[]
    ensures sent ==> state == AfterReply(data, map[], reply)
  {
    var errors := PasswordErrors(data);
    sent := |errors.Keys| == 0;
    if sent {
      state := AfterReply(data, errors, reply);
    } else {
      state := FormState(data, errors);
    }
  }

  /** `handlePasswordChange`: the field takes the value and its error, if shown,
      is cleared. The form's three inputs carry these three names. */
  function ChangeField(state: FormState, name: string, value: string): (r: FormState)
    requires name in {"current", "new", "confirm"}
    ensures name == "current" ==> r.data == state.data.(current := value)
    ensures name == "new" ==> r.data == state.data.(newPassword := value)
    ensures name == "confirm" ==> r.data == state.data.(confirm := value)
    ensures r.errors == ClearError(state.errors, name)
  {
    var data := match name
      case "current" => state.data.(current := value)
      case "new" => state.data.(newPassword := value)
      case _ => state.data.(confirm := value);
    FormState(data, ClearError(state.errors, name))
  }
}

=== FILE: projects.dfy ===
/** The project store of `projectController`: projects owned by their creator,
    where the owner test converts both identities to text. */
module Projects {
  import opened Common
  import opened Store
  import opened Domain
  import opened Ownership
  import opened Text

  /** The shortest title the schema admits, after trimming. */
  const MinTitleLength: nat := 3

  /** The bounds the schema puts on `progress`. */
  const MinProgress: int := 0
  const MaxProgress: int := 100

  /** One failed schema validator of `Project.create`, in schema path order. */
  datatype FieldError =
    | TitleMissing
    | TitleTooShort
    | StatusNotInEnum(text: string)
    | ProgressBelowMin(value: int)
    | ProgressAboveMax(value: int)
    | DueDateMissing

  /** The message mongoose reports for a failed validator: the schema's own text
      where it declares one, the library's default text otherwise. */
  function Message(e: FieldError): (m: string)
    ensures |m| > 0
  {
    match e
    case TitleMissing => "Please provide a project title"
    case TitleTooShort => "Title must be at least 3 characters"
    case StatusNotInEnum(s) => "`" + s + "` is not a valid enum value for path `status`."
    case ProgressBelowMin(p) => "Path `progress` (" + IntText(p) + ") is less than minimum allowed value (0)."
    case ProgressAboveMax(p) => "Path `progress` (" + IntText(p) + ") is more than maximum allowed value (100)."
    case DueDateMissing => "Please provide a due date"
  }

  /** `required` fails on an absent title and on one that trims to nothing;
      `minlength` on one of one or two characters. */
  function TitleErrors(title: Option<string>): (r: seq<FieldError>)
    ensures |r| <= 1
    ensures TitleMissing in r <==> title.None? || Trim(title.value) == []
    ensures DueDateMissing !in r
    ensures r == [] <==> title.Some? && |Trim(title.value)| >= MinTitleLength
  {
    if title.None? || Trim(title.value) == [] then [TitleMissing]
    else if |Trim(title.value)| < MinTitleLength then [TitleTooShort]
    else []
  }

  function StatusErrors(status: Option<string>): (r: seq<FieldError>)
    ensures |r| <= 1
    ensures TitleMissing !in r && DueDateMissing !in r
    ensures r == [] <==> status.None? || ParseStatus(status.value).Some?
  {
    if status.Some? && ParseStatus(status.value).None? then [StatusNotInEnum(status.value)] else []
  }

  function ProgressErrors(progress: Option<int>): (r: seq<FieldError>)
    ensures |r| <= 1
    ensures TitleMissing !in r && DueDateMissing !in r
    ensures r == [] <==> progress.None? || MinProgress <= progress.value <= MaxProgress
  {
    if progress.None? then []
    else if progress.value < MinProgress then [ProgressBelowMin(progress.value)]
    else if progress.value > MaxProgress then [ProgressAboveMax(progress.value)]
    else []
  }

  /** `Object.values(error.errors).map(val => val.message)`: one message per
      failed validator, in the same order. */
  function Messages(errors: seq<FieldError>): (r: seq<string>)
    ensures |r| == |errors|
    ensures forall k :: 0 <= k < |errors| ==> r[k] == Message(errors[k])
  {
    if errors == [] then [] else [Message(errors[0])] + Messages(errors[1..])
  }

  /** The values `createProject` reads from the body. */
  datatype ProjectInput = ProjectInput(
    title: Option<string>,
    description: Option<string>,
    status: Option<string>,
    progress: Option<int>,
    dueDate: Option<int>,
    team: Option<Id>,
    members: Option<seq<Id>>)

  /** Every failed validator of a creation, one entry per failing field, in schema order. */
  function Errors(input: ProjectInput): (r: seq<FieldError>)
    ensures |r| <= 4
    ensures (input.dueDate.None?) <==> DueDateMissing in r
    ensures TitleMissing in r <==> input.title.None? || Trim(input.title.value) == []
    ensures r == [] <==>
      && input.title.Some? && |Trim(input.title.value)| >= MinTitleLength
      && (input.status.None? || ParseStatus(input.status.value).Some?)
      && (input.progress.None? || MinProgress <= input.progress.value <= MaxProgress)
      && input.dueDate.Some?
  {
    var title, status, progress := TitleErrors(input.title), StatusErrors(input.status), ProgressErrors(input.progress);
    var due: seq<FieldError> := if input.dueDate.None? then [DueDateMissing] else [];
    assert DueDateMissing in due <==> input.dueDate.None?;
    title + status + progress + due
  }

  /** The document `Project.create` builds once validation passes: the title
      trimmed, description "", status todo, progress 0 and members none unless given. */
  function BuildProject(input: ProjectInput, caller: Id): (p: Project)
    requires Errors(input) == []
    ensures p.createdBy == caller && p.team == input.team
    ensures p.title == Trim(input.title.value) && |p.title| >= MinTitleLength
    ensures p.description == (if input.description.Some? then input.description.value else "")
    ensures p.status == (if input.status.Some? then ParseStatus(input.status.value).value else DefaultStatus)
    ensures p.progress == (if input.progress.Some? then input.progress.value else 0)
    ensures MinProgress <= p.progress <= MaxProgress
    ensures p.members == (if input.members.Some? then input.members.value else [])
  {
    Project(
      Trim(input.title.value),
      if input.description.Some? then input.description.value else "",
      if input.status.Some? then ParseStatus(input.status.value).value else DefaultStatus,
      if input.progress.Some? then input.progress.value else 0,
      input.dueDate.value,
      input.team,
      if input.members.Some? then input.members.value else [],
      caller)
  }

  /** The outcome of `createProject`: 201, or 400 with the messages. */
  datatype CreateOutcome = Created | Invalid(messages: seq<string>)

  function CreatedBy(user: Id): Doc<Project> -> bool
  {
    (d: Doc<Project>) => d.body.createdBy == user
  }

  /** The fields `updateProject` may overwrite; an absent field keeps its value. */
  datatype ProjectPatch = ProjectPatch(
    title: Option<string>,
    description: Option<string>,
    status: Option<string>,
    progress: Option<int>,
    dueDate: Option<int>,
    team: Option<Id>,
    members: Option<seq<Id>>,
    createdBy: Option<Id>)

  /** The update validators that run on the fields a patch sets. */
  predicate PatchValid(p: ProjectPatch)
  {
    && (p.title.None? || TitleErrors(p.title) == [])
    && StatusErrors(p.status) == [] && ProgressErrors(p.progress) == []
  }

  function ApplyPatch(t: Project, p: ProjectPatch): (r: Project)
    requires PatchValid(p)
    ensures r.title == (if p.title.Some? then Trim(p.title.value) else t.title)
    ensures r.description == (if p.description.Some? then p.description.value else t.description)
    ensures p.status.Some? ==> StatusName(r.status) == p.status.value
    ensures p.status.None? ==> r.status == t.status
    ensures r.progress == (if p.progress.Some? then p.progress.value else t.progress)
    ensures r.dueDate == (if p.dueDate.Some? then p.dueDate.value else t.dueDate)
    ensures r.team == (if p.team.Some? then p.team else t.team)
    ensures r.members == (if p.members.Some? then p.members.value else t.members)
    ensures r.createdBy == (if p.createdBy.Some? then p.createdBy.value else t.createdBy)
  {
    Project(
      if p.title.Some? then Trim(p.title.value) else t.title,
      if p.description.Some? then p.description.value else t.description,
      if p.status.Some? then ParseStatus(p.status.value).value else t.status,
      if p.progress.Some? then p.progress.value else t.progress,
      if p.dueDate.Some? then p.dueDate.value else t.dueDate,
      if p.team.Some? then p.team else t.team,
      if p.members.Some? then p.members.value else t.members,
      if p.createdBy.Some? then p.createdBy.value else t.createdBy)
  }

  /** A valid update keeps the progress within 0..100. */
  lemma PatchKeepsProgress(t: Project, p: ProjectPatch)
    requires PatchValid(p) && MinProgress <= t.progress <= MaxProgress
    ensures MinProgress <= ApplyPatch(t, p).progress <= MaxProgress
  {
  }

  /** Every progress value lies within the schema bounds. */
  predicate ProgressInBounds(docs: seq<Doc<Project>>)
  {
    forall i :: 0 <= i < |docs| ==> MinProgress <= docs[i].body.progress <= MaxProgress
  }

  /** Creating a project whose progress is within the bounds keeps the store within them. */
  lemma AppendKeepsBounds(docs: seq<Doc<Project>>, d: Doc<Project>)
    requires ProgressInBounds(docs) && MinProgress <= d.body.progress <= MaxProgress
    ensures ProgressInBounds(docs + [d])
  {
    assert forall i :: 0 <= i < |docs| ==> (docs + [d])[i] == docs[i];
  }

  class ProjectStore {
    /** The `Project` collection, in insertion order. */
    var docs: seq<Doc<Project>>

    /** Identifiers are unique and every progress value lies within the schema bounds. */
    ghost predicate Valid()
      reads this
    {
      UniqueIds(docs) && ProgressInBounds(docs)
    }

    constructor ()
      ensures Valid() && docs == []
    {
      docs := [];
    }

    /** `getAllProjects`: the projects the caller created (not those where the
        caller is only a member), newest first. */
    function GetAllProjects(caller: Id): (r: seq<Doc<Project>>)
      reads this
      ensures forall d :: d in r <==> d in docs && d.body.createdBy == caller
      ensures forall i :: 0 <= i < |r| - 1 ==> r[i].createdAt >= r[i + 1].createdAt
    {
      NewestFirst(Where(docs, CreatedBy(caller)))
    }

    /** `createProject`: 400 with one message per failing field, else 201. */
    method CreateProject(caller: Id, input: ProjectInput, newId: Id, now: int) returns (outcome: CreateOutcome)
      requires Valid() && Fresh(docs, newId)
      modifies this
      ensures Valid()
      ensures Errors(input) != [] ==>
        && outcome == Invalid(Messages(Errors(input)))
        && docs == old(docs)
      ensures Errors(input) == [] ==>
        outcome == Created && docs == old(docs) + [Doc(newId, now, BuildProject(input, caller))]
    {
      var errors := Errors(input);
      if errors != [] {
        outcome := Invalid(Messages(errors));
      } else {
        var d := Doc(newId, now, BuildProject(input, caller));
        AppendKeepsUnique(docs, d);
        AppendKeepsBounds(docs, d);
        docs := docs + [d];
        outcome := Created;
      }
    }

    /** `updateProject`: 404 for an unknown project, then 403 for anyone but its
        creator, then 500 when an update validator fails, else the patch is applied. */
    method UpdateProject(caller: Id, id: Id, patch: ProjectPatch) returns (code: int)
      requires Valid()
      modifies this
      ensures Valid()
      ensures match IndexOf(old(docs), id)
        case None => code == NotFound404 && docs == old(docs)
        case Some(i) =>
          if old(docs)[i].body.createdBy != caller then code == Forbidden403 && docs == old(docs)
          else if !PatchValid(patch) then code == ServerError500 && docs == old(docs)
          else code == Ok200 && docs == old(docs)[i := old(docs)[i].(body := ApplyPatch(old(docs)[i].body, patch))]
    {
      var found := IndexOf(docs, id);
      if found.None? {
        return NotFound404;
      }
      var i := found.value;
      OwnerCheckExactlyOwner(docs[i].body.createdBy, caller);
      if !OwnerCheck(docs[i].body.createdBy, RequestUserId(caller)) {
        return Forbidden403;
      }
      if !PatchValid(patch) {
        return ServerError500;
      }
      var d := docs[i].(body := ApplyPatch(docs[i].body, patch));
      UpdatedKeepsUnique(docs, i, d);
      docs := docs[i := d];
      code := Ok200;
    }

    /** `deleteProject`: 404, then 403, else only that project is removed. */
    method DeleteProject(caller: Id, id: Id) returns (code: int)
      requires Valid()
      modifies this
      ensures Valid()
      ensures match IndexOf(old(docs), id)
        case None => code == NotFound404 && docs == old(docs)
        case Some(i) =>
          if old(docs)[i].body.createdBy != caller then code == Forbidden403 && docs == old(docs)
          else code == Ok200 && docs == Without(old(docs), i)
    {
      var found := IndexOf(docs, id);
      if found.None? {
        return NotFound404;
      }
      var i := found.value;
      OwnerCheckExactlyOwner(docs[i].body.createdBy, caller);
      if !OwnerCheck(docs[i].body.createdBy, RequestUserId(caller)) {
        return Forbidden403;
      }
      docs := Without(docs, i);
      code := Ok200;
    }

    /** `getProjectsByTeam`: the caller's projects linked to team `teamId`, newest first. */
    function GetProjectsByTeam(caller: Id, teamId: Id): (r: seq<Doc<Project>>)
      reads this
      ensures forall d :: d in r <==> d in docs && d.body.createdBy == caller && d.body.team == Some(teamId)
      ensures forall i :: 0 <= i < |r| - 1 ==> r[i].createdAt >= r[i + 1].createdAt
    {
      NewestFirst(Where(docs, (d: Doc<Project>) => d.body.createdBy == caller && d.body.team == Some(teamId)))
    }
  }
}

=== FILE: projects_page.dfy ===
/** The projects page: the task count on each project card, the modal form
    opened empty or from a project, its field updates (the members list read
    from a multiple selection), and the request the form sends. */
module ProjectsPage {
  import opened Common
  import opened Store
  import opened Domain
  import opened Text
  import opened Client

  /** A project as the page receives it, its members populated. */
  datatype ProjectView = ProjectView(
    title: string,
    description: string,
    status: string,
    dueDate: Option<string>,
    members: Option<seq<Doc<UserView>>>)

  /** The test of the card's count, `t.project && (t.project._id === id ||
      t.project === id)`: a populated project with that identifier, or a bare
      non-empty identifier equal to it. */
  predicate CountsFor(project: Ref, id: Id)
  {
    match project
    case Absent => false
    case RawId(raw) => raw != "" && raw == id
    case Populated(pid, _) => pid == id
  }

  /** For a project with a non-empty identifier, the test accepts exactly the
      tasks whose reference, populated or bare, carries that identifier. */
  lemma CountsForIff(project: Ref, id: Id)
    requires id != ""
    ensures CountsFor(project, id) <==> IdOrRaw(project) == Some(id)
  {
  }

  function CountedFor(id: Id): Doc<TaskView> -> bool
  {
    (t: Doc<TaskView>) => CountsFor(t.body.project, id)
  }

  /** `projectTaskCount`. */
  function TaskCount(tasks: seq<Doc<TaskView>>, id: Id): (n: nat)
    ensures n <= |tasks|
    ensures n == 0 <==> forall k :: 0 <= k < |tasks| ==> !CountsFor(tasks[k].body.project, id)
  {
    var hits := Where(tasks, CountedFor(id));
    assert hits == [] <==> forall k :: 0 <= k < |tasks| ==> !CountsFor(tasks[k].body.project, id) by {
      if hits != [] {
        assert hits[0] in tasks;
      } else {
        forall k | 0 <= k < |tasks| ensures !CountsFor(tasks[k].body.project, id) {
          assert tasks[k] in tasks;
        }
      }
    }
    |hits|
  }

  /** A task added at the end raises the count by one exactly when it counts for
      the project. With `TaskCount([], id) == 0` this fixes the count of every
      list: the number of its tasks that count for the project. */
  lemma TaskCountAppend(tasks: seq<Doc<TaskView>>, t: Doc<TaskView>, id: Id)
    ensures TaskCount(tasks + [t], id) == TaskCount(tasks, id) + (if CountsFor(t.body.project, id) then 1 else 0)
  {
    WhereConcat(tasks, [t], CountedFor(id));
    assert [t][1..] == [];
  }

  /** Two different projects never count the same task. */
  lemma TwoCountsBounded(tasks: seq<Doc<TaskView>>, a: Id, b: Id)
    requires a != b
    ensures TaskCount(tasks, a) + TaskCount(tasks, b) <= |tasks|
  {
    WhereDisjoint(tasks, CountedFor(a), CountedFor(b));
  }

  /** The counts of the cards for the projects `ids`, added up. */
  function CountsTotal(tasks: seq<Doc<TaskView>>, ids: seq<Id>): nat
  {
    if ids == [] then 0 else TaskCount(tasks, ids[0]) + CountsTotal(tasks, ids[1..])
  }

  /** The number of the projects `ids` that count the task `t`. */
  function Hits(t: Doc<TaskView>, ids: seq<Id>): nat
  {
    if ids == [] then 0 else (if CountsFor(t.body.project, ids[0]) then 1 else 0) + Hits(t, ids[1..])
  }

  predicate Distinct(ids: seq<Id>)
  {
    forall i, j :: 0 <= i < j < |ids| ==> ids[i] != ids[j]
  }

  /** Among distinct projects, a task is counted at most once. */
  lemma {:induction false} HitsAtMostOne(t: Doc<TaskView>, ids: seq<Id>)
    requires Distinct(ids)
    ensures Hits(t, ids) <= 1
    ensures Hits(t, ids) == 1 ==> exists k :: 0 <= k < |ids| && CountsFor(t.body.project, ids[k])
  {
    if ids != [] {
      HitsAtMostOne(t, ids[1..]);
      if CountsFor(t.body.project, ids[0]) {
        NoLaterHits(t, ids);
      } else if Hits(t, ids) == 1 {
        var k :| 0 <= k < |ids[1..]| && CountsFor(t.body.project, ids[1..][k]);
        assert ids[k + 1] == ids[1..][k];
      }
    }
  }

  /** When the first project counts a task, no other distinct project does. */
  lemma NoLaterHits(t: Doc<TaskView>, ids: seq<Id>)
    requires Distinct(ids) && ids != [] && CountsFor(t.body.project, ids[0])
    ensures Hits(t, ids[1..]) == 0
  {
    NoneCount(t, ids[1..], ids[0]);
  }

  lemma {:induction false} NoneCount(t: Doc<TaskView>, rest: seq<Id>, first: Id)
    requires CountsFor(t.body.project, first) && first !in rest
    ensures Hits(t, rest) == 0
  {
    if rest != [] {
      assert rest[0] != first;
      assert first !in rest[1..];
      NoneCount(t, rest[1..], first);
    }
  }

  /** Peeling the first task off every count at once. */
  lemma {:induction false} CountsTotalStep(tasks: seq<Doc<TaskView>>, ids: seq<Id>)
    requires tasks != []
    ensures CountsTotal(tasks, ids) == Hits(tasks[0], ids) + CountsTotal(tasks[1..], ids)
  {
    if ids != [] {
      CountsTotalStep(tasks, ids[1..]);
    }
  }

  /** With distinct projects on the page, the counts shown on all cards add up
      to at most the number of tasks: no task is counted on two cards. */
  lemma {:induction false} CountsTotalBounded(tasks: seq<Doc<TaskView>>, ids: seq<Id>)
    requires Distinct(ids)
    ensures CountsTotal(tasks, ids) <= |tasks|
  {
    if tasks == [] {
      ZeroCounts(ids);
    } else {
      CountsTotalStep(tasks, ids);
      HitsAtMostOne(tasks[0], ids);
      CountsTotalBounded(tasks[1..], ids);
    }
  }

  lemma {:induction false} ZeroCounts(ids: seq<Id>)
    ensures CountsTotal([], ids) == 0
  {
    if ids != [] {
      ZeroCounts(ids[1..]);
    }
  }

  /** `project.description || "No description provided."`. */
  function DescriptionText(description: string): (r: string)
    ensures description != "" ==> r == description
    ensures description == "" ==> r == "No description provided."
    ensures r != ""
  {
    if description != "" then description else "No description provided."
  }

  /** The form of the modal; `members` holds user identifiers. */
  datatype ProjectForm = ProjectForm(title: string, description: string, status: string, dueDate: string, members: seq<Id>)

  const EmptyForm: ProjectForm := ProjectForm("", "", "todo", "", [])

  /** The empty form starts at the status the project schema defaults to. */
  lemma EmptyFormDefaults()
    ensures EmptyForm.status == StatusName(DefaultStatus)
    ensures EmptyForm.members == []
  {
  }

  /** The modal's state: the project edited, if any, and the form. */
  datatype Modal = Modal(current: Option<Id>, form: ProjectForm)

  /** `d.toISOString().split('T')[0]` for a date received in that form. */
  function DateText(d: Option<string>): (r: string)
    ensures d.None? ==> r == ""
    ensures d.Some? ==> |r| <= |d.value| && d.value[..|r|] == r && 'T' !in r
    ensures d.Some? && |r| < |d.value| ==> d.value[|r|] == 'T'
  {
    if d.None? then ""
    else
      SplitFirstField(d.value, 'T');
      Split(d.value, 'T')[0]
  }

  /** `handleOpenModal`: empty for a new project; for an existing one, its fields
      and the identifiers of its members, in their order. */
  function OpenModal(project: Option<Doc<ProjectView>>): (r: Modal)
    ensures project.None? ==> r == Modal(None, EmptyForm)
    ensures project.Some? ==> r.current == Some(project.value.id)
    ensures project.Some? ==> var p := project.value.body;
      r.form.title == p.title && r.form.description == p.description && r.form.status == p.status
      && r.form.dueDate == DateText(p.dueDate)
    ensures project.Some? && project.value.body.members.Some? ==> var ms := project.value.body.members.value;
      |r.form.members| == |ms| && forall k :: 0 <= k < |ms| ==> r.form.members[k] == ms[k].id
    ensures project.Some? && project.value.body.members.None? ==> r.form.members == []
  {
    match project
    case None => Modal(None, EmptyForm)
    case Some(d) =>
      var ms := if d.body.members.Some? then d.body.members.value else [];
      var ids := seq(|ms|, k requires 0 <= k < |ms| => ms[k].id);
      Modal(Some(d.id), ProjectForm(d.body.title, d.body.description, d.body.status, DateText(d.body.dueDate), ids))
  }

  /** The `for` loop of `handleChange` over the selected options: their values,
      one by one, in their order. */
  method SelectedValues(options: seq<string>) returns (values: seq<string>)
    ensures |values| == |options|
    ensures forall k :: 0 <= k < |options| ==> values[k] == options[k]
  {
    values := [];
    var i := 0;
    while i < |options|
      invariant 0 <= i <= |options|
      invariant values == options[..i]
    {
      values := values + [options[i]];
      i := i + 1;
    }
  }

  /** `handleChange`: the members list from the selected options, any other
      input its value. The modal's inputs carry these five names. */
  method HandleChange(form: ProjectForm, name: string, value: string, selected: seq<string>) returns (r: ProjectForm)
    requires name in {"title", "description", "status", "dueDate", "members"}
    ensures name == "members" ==> r == form.(members := selected)
    ensures name == "title" ==> r == form.(title := value)
    ensures name == "description" ==> r == form.(description := value)
    ensures name == "status" ==> r == form.(status := value)
    ensures name == "dueDate" ==> r == form.(dueDate := value)
  {
    if name == "members" {
      var values := SelectedValues(selected);
      r := form.(members := values);
    } else if name == "title" {
      r := form.(title := value);
    } else if name == "description" {
      r := form.(description := value);
    } else if name == "status" {
      r := form.(status := value);
    } else {
      r := form.(dueDate := value);
    }
  }

  /** The request `handleSubmit` sends: an update of the project edited, or a
      creation. */
  datatype ProjectRequest = Create(form: ProjectForm) | Update(id: Id, form: ProjectForm)

  function SubmitRequest(m: Modal): (r: ProjectRequest)
    ensures r.form == m.form
    ensures r.Update? <==> m.current.Some?
    ensures r.Update? ==> r.id == m.current.value
  {
    match m.current
    case Some(id) => Update(id, m.form)
    case None => Create(m.form)
  }

  /** Opening a project and saving it unchanged sends an update of that project
      with its own fields. */
  lemma EditUnchangedUpdates(d: Doc<ProjectView>)
    ensures SubmitRequest(OpenModal(Some(d))).Update?
    ensures SubmitRequest(OpenModal(Some(d))).id == d.id
    ensures SubmitRequest(OpenModal(Some(d))).form.title == d.body.title
  {
  }

  /** The initial on a member's badge, `m.name.charAt(0).toUpperCase()`. */
  function MemberInitial(name: string): (r: string)
    ensures name == "" ==> r == ""
    ensures name != "" ==> |r| == 1 && r[0] == UpperChar(name[0])
  {
    if name == "" then "" else [UpperChar(name[0])]
  }
}

=== FILE: register_page.dfy ===
/** The registration page: the password-strength meter and the checks made
    before the registration request is sent. */
module RegisterPage {
  import opened Common

  predicate IsLowerLetter(c: char) { 'a' <= c <= 'z' }
  predicate IsUpperLetter(c: char) { 'A' <= c <= 'Z' }
  predicate IsDigit(c: char) { '0' <= c <= '9' }

  /** `/[a-z]/.test(p)`, `/[A-Z]/.test(p)`, `/\d/.test(p)` and `/[^a-zA-Z0-9]/.test(p)`. */
  predicate HasLower(p: string) { exists i | 0 <= i < |p| :: IsLowerLetter(p[i]) }
  predicate HasUpper(p: string) { exists i | 0 <= i < |p| :: IsUpperLetter(p[i]) }
  predicate HasDigit(p: string) { exists i | 0 <= i < |p| :: IsDigit(p[i]) }
  predicate HasSymbol(p: string)
  {
    exists i | 0 <= i < |p| :: !IsLowerLetter(p[i]) && !IsUpperLetter(p[i]) && !IsDigit(p[i])
  }

  function Point(b: bool): nat { if b then 1 else 0 }

  /** The number of strength criteria a password meets: at least 8 characters, at
      least 12, both letter cases, a digit, a character outside letters and digits. */
  function Criteria(p: string): (n: nat)
    ensures n <= 5
  {
    Point(|p| >= 8) + Point(|p| >= 12) + Point(HasLower(p) && HasUpper(p)) + Point(HasDigit(p)) + Point(HasSymbol(p))
  }

  /** The strength score: 0 for the empty password, otherwise the criteria met,
      capped at 4. */
  function Strength(p: string): (s: nat)
    ensures s <= 4
    ensures p == "" ==> s == 0
    ensures |p| >= 12 ==> s >= 2
  {
    if p == "" then 0 else if Criteria(p) < 4 then Criteria(p) else 4
  }

  /** A password that meets no criterion scores 0, whatever its length below 8. */
  lemma ShortPlainScoresZero(p: string)
    requires |p| < 8 && forall i :: 0 <= i < |p| ==> IsLowerLetter(p[i])
    ensures Strength(p) == 0
  {
  }

  /** `getPasswordStrength`: the score built up one criterion at a time. */
  method PasswordStrength(password: string) returns (score: nat)
    ensures score == Strength(password)
    ensures score <= 4
  {
    if password == "" {
      return 0;
    }
    score := 0;
    if |password| >= 8 {
      score := score + 1;
    }
    if |password| >= 12 {
      score := score + 1;
    }
    if HasLower(password) && HasUpper(password) {
      score := score + 1;
    }
    if HasDigit(password) {
      score := score + 1;
    }
    if HasSymbol(password) {
      score := score + 1;
    }
    if score > 4 {
      score := 4;
    }
  }

  const StrengthLabels: seq<string> := ["Weak", "Fair", "Good", "Strong", "Very Strong"]

  /** The meter's text: `Weak` for an empty password, otherwise the label the score
      indexes, which always exists. */
  function StrengthLabel(password: string): (r: string)
    ensures r in StrengthLabels
    ensures password == "" ==> r == "Weak"
    ensures password != "" ==> r == StrengthLabels[Strength(password)]
  {
    if password == "" then "Weak" else StrengthLabels[Strength(password)]
  }

  const TermsNotAccepted: string := "You must accept terms."
  const PasswordsDiffer: string := "Passwords do not match."

  /** The checks of `handleRegister` before the request: the terms first, then the
      confirmation; the request goes out only when both pass (None). */
  function RegisterPrecheck(agreeTerms: bool, password: string, confirmPassword: string): (r: Option<string>)
    ensures r.None? <==> agreeTerms && password == confirmPassword
    ensures !agreeTerms ==> r == Some(TermsNotAccepted)
    ensures agreeTerms && password != confirmPassword ==> r == Some(PasswordsDiffer)
  {
    if !agreeTerms then Some(TermsNotAccepted)
    else if password != confirmPassword then Some(PasswordsDiffer)
    else None
  }
}

=== FILE: stats.dfy ===
/** The statistics endpoint (`getStats`): project and task counts, the
    completion rate and the seven-day series of completed tasks for one user.

    Time is counted in milliseconds of local time; day number `d` is the
    window [d * DayMs, d * DayMs + DayMs - 1], that is 00:00:00.000 to
    23:59:59.999 of that calendar day, and `today` is the day number of the
    request. */
module Stats {
  import opened Common
  import opened Store
  import opened Domain

  /** The tasks the statistics are computed over: created by or assigned to `user`. */
  function TasksOf(tasks: seq<Doc<Task>>, user: Id): (r: seq<Doc<Task>>)
    ensures forall d :: d in r <==> d in tasks && (d.body.createdBy == user || d.body.assignee == user)
  {
    Where(tasks, (d: Doc<Task>) => d.body.createdBy == user || d.body.assignee == user)
  }

  /** The projects the statistics are computed over: created by `user` or listing `user` as member. */
  function ProjectsOf(projects: seq<Doc<Project>>, user: Id): (r: seq<Doc<Project>>)
    ensures forall d :: d in r <==> d in projects && (d.body.createdBy == user || user in d.body.members)
  {
    Where(projects, (d: Doc<Project>) => d.body.createdBy == user || user in d.body.members)
  }

  function HasStatus(s: Status): Doc<Task> -> bool
  {
    (d: Doc<Task>) => d.body.status == s
  }

  function HasPriority(p: Priority): Doc<Task> -> bool
  {
    (d: Doc<Task>) => d.body.priority == p
  }

  function ProjectHasStatus(s: Status): Doc<Project> -> bool
  {
    (d: Doc<Project>) => d.body.status == s
  }

  /** `tasks.filter(t => t.status === s).length` */
  function CountStatus(tasks: seq<Doc<Task>>, s: Status): nat
  {
    |Where(tasks, HasStatus(s))|
  }

  /** `tasks.filter(t => t.priority === p).length` */
  function CountPriority(tasks: seq<Doc<Task>>, p: Priority): nat
  {
    |Where(tasks, HasPriority(p))|
  }

  /** `projects.filter(p => p.status === s).length` */
  function CountProjects(projects: seq<Doc<Project>>, s: Status): nat
  {
    |Where(projects, ProjectHasStatus(s))|
  }

  /** Every task has exactly one of the three statuses, so the status counts add up to the total. */
  lemma {:induction false} StatusCountsPartition(tasks: seq<Doc<Task>>)
    ensures CountStatus(tasks, Todo) + CountStatus(tasks, InProgress) + CountStatus(tasks, Completed) == |tasks|
  {
    WherePartition3(tasks, HasStatus(Todo), HasStatus(InProgress), HasStatus(Completed));
  }

  /** Every task has exactly one of the three priorities, so the priority counts add up to the total. */
  lemma {:induction false} PriorityCountsPartition(tasks: seq<Doc<Task>>)
    ensures CountPriority(tasks, High) + CountPriority(tasks, Medium) + CountPriority(tasks, Low) == |tasks|
  {
    WherePartition3(tasks, HasPriority(High), HasPriority(Medium), HasPriority(Low));
  }

  /** A project is never both completed and in progress; a `todo` project counts toward the total only. */
  lemma {:induction false} ProjectCountsBounded(projects: seq<Doc<Project>>)
    ensures CountProjects(projects, Completed) + CountProjects(projects, InProgress) <= |projects|
  {
    WhereDisjoint(projects, ProjectHasStatus(Completed), ProjectHasStatus(InProgress));
  }

  /** `Math.round(completed / total * 100)`, or 0 without tasks, in exact integer
      arithmetic: the nearest integer to 100 * completed / total, halves rounded up. */
  function CompletionRate(completed: nat, total: nat): (r: nat)
    ensures total == 0 ==> r == 0
    ensures total > 0 ==> 2 * total * r <= 200 * completed + total < 2 * total * (r + 1)
  {
    if total > 0 then (200 * completed + total) / (2 * total) else 0
  }

  /** `k * x <= k * y` for `x <= y` and a non-negative `k`. */
  lemma MulMonotone(k: nat, x: int, y: int)
    requires x <= y
    ensures k * x <= k * y
  {
    assert k * y - k * x == k * (y - x);
  }

  /** The rate is a percentage: at most 100 when no more tasks are completed than
      exist, exactly 100 when all are, and 0 when none is. */
  lemma CompletionRateRange(completed: nat, total: nat)
    ensures completed <= total ==> CompletionRate(completed, total) <= 100
    ensures 0 < total == completed ==> CompletionRate(completed, total) == 100
    ensures completed == 0 ==> CompletionRate(completed, total) == 0
  {
    var r := CompletionRate(completed, total);
    var t := total;
    if t > 0 {
      if completed <= total && r >= 101 {
        MulMonotone(2 * t, 101, r);
        assert false;
      }
      if completed == total && r <= 99 {
        MulMonotone(2 * t, r + 1, 100);
        assert false;
      }
      if completed == 0 && r >= 1 {
        MulMonotone(2 * t, 1, r);
        assert false;
      }
    }
  }

  /** Milliseconds in a day. */
  const DayMs: int := 86_400_000

  /** `date.setHours(0, 0, 0, 0)` on day number `day`. */
  function DayStart(day: int): int
  {
    day * DayMs
  }

  /** `date.setHours(23, 59, 59, 999)` on day number `day`. */
  function DayEnd(day: int): int
  {
    day * DayMs + DayMs - 1
  }

  /** The day number a timestamp falls on. */
  function DayIndex(ts: int): int
  {
    ts / DayMs
  }

  /** A timestamp lies in a day's inclusive window exactly when it falls on that day,
      so windows of different days never overlap and 23:59:59.999 is the last
      instant of a day, the next millisecond the first of the following one. */
  lemma InWindowIff(ts: int, day: int)
    ensures DayStart(day) <= ts <= DayEnd(day) <==> DayIndex(ts) == day
    ensures DayEnd(day) + 1 == DayStart(day + 1)
  {
  }

  /** The predicate of the weekly filter: completed, and `updatedAt` inside the day's window. */
  function CompletedOn(day: int): Doc<Task> -> bool
  {
    (d: Doc<Task>) => d.body.status == Completed && DayStart(day) <= d.body.updatedAt <= DayEnd(day)
  }

  /** The number of completed tasks whose `updatedAt` lies in day `day`. */
  function CompletedCount(tasks: seq<Doc<Task>>, day: int): nat
  {
    |Where(tasks, CompletedOn(day))|
  }

  /** The short weekday name of day number `day` (day 0, 1 January 1970, was a Thursday). */
  function WeekdayLabel(day: int): (r: string)
    ensures |r| == 3
  {
    DayName((day + 4) % 7)
  }

  /** `['Sun', 'Mon', 'Tue', 'Wed', 'Thu', 'Fri', 'Sat'][i]`, `i` being `getDay()`. */
  function DayName(i: int): (r: string)
    requires 0 <= i < 7
    ensures |r| == 3
  {
    if i == 0 then "Sun" else if i == 1 then "Mon" else if i == 2 then "Tue"
    else if i == 3 then "Wed" else if i == 4 then "Thu" else if i == 5 then "Fri" else "Sat"
  }

  /** Different weekday numbers have different names. */
  lemma DayNamesDiffer(i: int, j: int)
    requires 0 <= i < 7 && 0 <= j < 7 && i != j
    ensures DayName(i) != DayName(j)
  {
    assert DayName(i)[0] != DayName(j)[0] || DayName(i)[1] != DayName(j)[1];
  }

  /** One entry of `weeklyProgress`: the day, its weekday name and its completed count. */
  datatype DayProgress = DayProgress(day: int, name: string, completed: nat)

  /** The entry for one day. */
  function Entry(tasks: seq<Doc<Task>>, day: int): DayProgress
  {
    DayProgress(day, WeekdayLabel(day), CompletedCount(tasks, day))
  }

  /** The entries of `n` consecutive days starting with day `first`. */
  function Days(tasks: seq<Doc<Task>>, first: int, n: nat): (w: seq<DayProgress>)
    ensures |w| == n
    ensures forall k :: 0 <= k < n ==> w[k] == Entry(tasks, first + k)
    decreases n
  {
    if n == 0 then []
    else
      var rest := Days(tasks, first + 1, n - 1);
      var w := [Entry(tasks, first)] + rest;
      assert forall k :: 1 <= k < n ==> w[k] == rest[k - 1];
      w
  }

  /** The seven entries, from six days ago to today. */
  function Week(tasks: seq<Doc<Task>>, today: int): (w: seq<DayProgress>)
    ensures |w| == 7 && w[6].day == today
    ensures forall k :: 0 <= k < 7 ==> w[k] == Entry(tasks, today - 6 + k)
  {
    Days(tasks, today - 6, 7)
  }

  /** The weekly loop: for i from 6 down to 0, count the completed tasks of day `today - i`. */
  method WeeklyProgress(tasks: seq<Doc<Task>>, today: int) returns (week: seq<DayProgress>)
    ensures |week| == 7
    ensures forall k :: 0 <= k < 7 ==> week[k].day == today - 6 + k
    ensures week == Week(tasks, today)
  {
    week := [];
    var i := 6;
    while i >= 0
      invariant -1 <= i <= 6
      invariant |week| == 6 - i
      invariant forall k :: 0 <= k < |week| ==> week[k] == Entry(tasks, today - 6 + k)
    {
      var day := today - i;
      var completedCount := |Where(tasks, CompletedOn(day))|;
      week := week + [DayProgress(day, WeekdayLabel(day), completedCount)];
      i := i - 1;
    }
  }

  /** The sum of the daily completed counts. */
  function WeekTotal(week: seq<DayProgress>): nat
  {
    if week == [] then 0 else week[0].completed + WeekTotal(week[1..])
  }

  /** A single task is counted on a day exactly when it is completed and falls on that day. */
  lemma SingleTaskCount(t: Doc<Task>, day: int)
    ensures CompletedCount([t], day) == if t.body.status == Completed && DayIndex(t.body.updatedAt) == day then 1 else 0
  {
    InWindowIff(t.body.updatedAt, day);
    assert [t][1..] == [];
  }

  /** Over consecutive days a single task is counted once if it is completed and
      falls on one of them, and never otherwise: the day windows do not overlap. */
  lemma {:induction false} SingleTaskDays(t: Doc<Task>, first: int, n: nat)
    ensures WeekTotal(Days([t], first, n))
      == if t.body.status == Completed && first <= DayIndex(t.body.updatedAt) < first + n then 1 else 0
    decreases n
  {
    if n > 0 {
      SingleTaskCount(t, first);
      SingleTaskDays(t, first + 1, n - 1);
      assert Days([t], first, n)[1..] == Days([t], first + 1, n - 1);
    }
  }

  /** The daily counts of a concatenation add up. */
  lemma {:induction false} DaysConcat(a: seq<Doc<Task>>, b: seq<Doc<Task>>, first: int, n: nat)
    ensures WeekTotal(Days(a + b, first, n)) == WeekTotal(Days(a, first, n)) + WeekTotal(Days(b, first, n))
    decreases n
  {
    if n > 0 {
      WhereConcat(a, b, CompletedOn(first));
      DaysConcat(a, b, first + 1, n - 1);
      assert Days(a + b, first, n)[1..] == Days(a + b, first + 1, n - 1);
      assert Days(a, first, n)[1..] == Days(a, first + 1, n - 1);
      assert Days(b, first, n)[1..] == Days(b, first + 1, n - 1);
    }
  }

  /** Without tasks every day counts 0. */
  lemma {:induction false} NoTasksDays(first: int, n: nat)
    ensures WeekTotal(Days([], first, n)) == 0
    decreases n
  {
    if n > 0 {
      NoTasksDays(first + 1, n - 1);
      assert Days([], first, n)[1..] == Days([], first + 1, n - 1);
    }
  }

  /** Each task is counted on at most one day, so the daily counts of any run of
      days add up to at most the number of completed tasks. */
  lemma {:induction false} DaysBound(tasks: seq<Doc<Task>>, first: int, n: nat)
    ensures WeekTotal(Days(tasks, first, n)) <= CountStatus(tasks, Completed)
  {
    if tasks == [] {
      NoTasksDays(first, n);
    } else {
      var t, rest := tasks[0], tasks[1..];
      assert tasks == [t] + rest;
      DaysConcat([t], rest, first, n);
      SingleTaskDays(t, first, n);
      DaysBound(rest, first, n);
      assert WeekTotal(Days(tasks, first, n)) == WeekTotal(Days([t], first, n)) + WeekTotal(Days(rest, first, n));
      WhereConcat([t], rest, HasStatus(Completed));
      assert [t][1..] == [];
      assert CountStatus(tasks, Completed) == CountStatus([t], Completed) + CountStatus(rest, Completed);
      assert CountStatus([t], Completed) == if t.body.status == Completed then 1 else 0;
    }
  }

  /** The seven daily counts of `weeklyProgress` add up to at most `completedTasks`. */
  lemma WeekTotalBound(tasks: seq<Doc<Task>>, today: int)
    ensures WeekTotal(Week(tasks, today)) <= CountStatus(tasks, Completed)
  {
    DaysBound(tasks, today - 6, 7);
  }

  /** Two days less than a week apart have different weekday names. */
  lemma WeekdayLabelsDiffer(d1: int, d2: int)
    requires d1 < d2 < d1 + 7
    ensures WeekdayLabel(d1) != WeekdayLabel(d2)
  {
    DayNamesDiffer((d1 + 4) % 7, (d2 + 4) % 7);
  }

  datatype ProjectCounts = ProjectCounts(total: nat, completed: nat, active: nat)
  datatype TaskCounts = TaskCounts(total: nat, completed: nat, pending: nat, inProgress: nat)
  datatype StatusCounts = StatusCounts(todo: nat, inProgress: nat, completed: nat)
  datatype PriorityCounts = PriorityCounts(high: nat, medium: nat, low: nat)

  /** The response body of the statistics endpoint. */
  datatype Summary = Summary(
    projects: ProjectCounts,
    tasks: TaskCounts,
    completionRate: nat,
    tasksByStatus: StatusCounts,
    tasksByPriority: PriorityCounts,
    weeklyProgress: seq<DayProgress>)

  /** The summary of already selected tasks and projects. */
  function Summarize(tasks: seq<Doc<Task>>, projects: seq<Doc<Project>>, today: int): Summary
  {
    var completed := CountStatus(tasks, Completed);
    var pending := CountStatus(tasks, Todo);
    var inProgress := CountStatus(tasks, InProgress);
    Summary(
      ProjectCounts(|projects|, CountProjects(projects, Completed), CountProjects(projects, InProgress)),
      TaskCounts(|tasks|, completed, pending, inProgress),
      CompletionRate(completed, |tasks|),
      StatusCounts(pending, inProgress, completed),
      PriorityCounts(CountPriority(tasks, High), CountPriority(tasks, Medium), CountPriority(tasks, Low)),
      Week(tasks, today))
  }

  /** The numbers of a summary agree with each other: the three status counts and
      the three priority counts each add up to the total, completed and active
      projects never exceed the total, the rate is a percentage and the seven
      daily counts add up to at most the completed tasks. */
  lemma SummaryConsistent(tasks: seq<Doc<Task>>, projects: seq<Doc<Project>>, today: int)
    ensures var s := Summarize(tasks, projects, today);
      && s.tasks.total == |tasks| && s.projects.total == |projects|
      && s.tasks.pending + s.tasks.inProgress + s.tasks.completed == s.tasks.total
      && s.tasksByPriority.high + s.tasksByPriority.medium + s.tasksByPriority.low == s.tasks.total
      && s.projects.completed + s.projects.active <= s.projects.total
      && s.completionRate <= 100
      && s.tasksByStatus == StatusCounts(s.tasks.pending, s.tasks.inProgress, s.tasks.completed)
      && |s.weeklyProgress| == 7 && WeekTotal(s.weeklyProgress) <= s.tasks.completed
  {
    StatusCountsPartition(tasks);
    PriorityCountsPartition(tasks);
    ProjectCountsBounded(projects);
    CompletionRateRange(CountStatus(tasks, Completed), |tasks|);
    WeekTotalBound(tasks, today);
  }

  /** `getStats` for `user` on day `today`, over the whole task and project collections. */
  method GetStats(allTasks: seq<Doc<Task>>, allProjects: seq<Doc<Project>>, user: Id, today: int)
    returns (s: Summary)
    ensures s == Summarize(TasksOf(allTasks, user), ProjectsOf(allProjects, user), today)
  {
    var projects := ProjectsOf(allProjects, user);
    var tasks := TasksOf(allTasks, user);

    var totalProjects := |projects|;
    var completedProjects := CountProjects(projects, Completed);
    var activeProjects := CountProjects(projects, InProgress);

    var totalTasks := |tasks|;
    var completedTasks := CountStatus(tasks, Completed);
    var pendingTasks := CountStatus(tasks, Todo);
    var inProgressTasks := CountStatus(tasks, InProgress);

    var highPriorityTasks := CountPriority(tasks, High);
    var mediumPriorityTasks := CountPriority(tasks, Medium);
    var lowPriorityTasks := CountPriority(tasks, Low);

    var completionRate := CompletionRate(completedTasks, totalTasks);

    var weeklyProgress := WeeklyProgress(tasks, today);

    s := Summary(
      ProjectCounts(totalProjects, completedProjects, activeProjects),
      TaskCounts(totalTasks, completedTasks, pendingTasks, inProgressTasks),
      completionRate,
      StatusCounts(pendingTasks, inProgressTasks, completedTasks),
      PriorityCounts(highPriorityTasks, mediumPriorityTasks, lowPriorityTasks),
      weeklyProgress);
  }

  /** With no tasks and no projects every number is 0 and each of the seven days counts 0. */
  lemma ZeroState(today: int)
    ensures var s := Summarize([], [], today);
      && s.projects == ProjectCounts(0, 0, 0)
      && s.tasks == TaskCounts(0, 0, 0, 0)
      && s.completionRate == 0
      && s.tasksByStatus == StatusCounts(0, 0, 0)
      && s.tasksByPriority == PriorityCounts(0, 0, 0)
      && |s.weeklyProgress| == 7
      && forall k :: 0 <= k < 7 ==> s.weeklyProgress[k].completed == 0
  {
  }
}

=== FILE: store.dfy ===
/** Collections of documents as the controllers see them through the
    document store: a sequence in insertion order, each document carrying its
    identifier and creation time. `filter`, `findById`, `findByIdAndDelete`
    and `sort` are the functions below. */
module Store {
  import opened Common

  /** A stored document: its `_id`, its `createdAt` timestamp (milliseconds) and its fields. */
  datatype Doc<T> = Doc(id: Id, createdAt: int, body: T)

  /** No two documents of a collection share an `_id`. */
  ghost predicate UniqueIds<T>(docs: seq<Doc<T>>)
  {
    forall i, j :: 0 <= i < j < |docs| ==> docs[i].id != docs[j].id
  }

  /** No document of the collection has the identifier `id`. */
  predicate Fresh<T>(docs: seq<Doc<T>>, id: Id)
  {
    forall i :: 0 <= i < |docs| ==> docs[i].id != id
  }

  /** `filter(p)`: the elements satisfying `p`, in their original order. */
  function Where<T(!new)>(s: seq<T>, p: T -> bool): (r: seq<T>)
    ensures |r| <= |s|
    ensures forall x :: x in r <==> x in s && p(x)
  {
    if s == [] then [] else (if p(s[0]) then [s[0]] else []) + Where(s[1..], p)
  }

  /** Filtering keeps order: it distributes over concatenation. */
  lemma {:induction false} WhereConcat<T(!new)>(a: seq<T>, b: seq<T>, p: T -> bool)
    ensures Where(a + b, p) == Where(a, p) + Where(b, p)
  {
    if a == [] {
      assert a + b == b;
    } else {
      assert (a + b)[0] == a[0];
      assert (a + b)[1..] == a[1..] + b;
      WhereConcat(a[1..], b, p);
    }
  }

  /** A singleton that fails the test filters to nothing. */
  lemma WhereDropsSingle<T(!new)>(x: T, p: T -> bool)
    requires !p(x)
    ensures Where([x], p) == []
  {
    assert [x][1..] == [];
  }

  /** Filtering out one element that fails the test, between two runs that pass it. */
  lemma DropOne<T(!new)>(before: seq<T>, x: T, after: seq<T>, p: T -> bool)
    requires Where(before, p) == before && Where(after, p) == after && !p(x)
    ensures Where(before + [x] + after, p) == before + after
  {
    WhereDropsSingle(x, p);
    WhereConcat(before, [x], p);
    assert Where(before + [x], p) == before + [];
    assert before + [] == before;
    WhereConcat(before + [x], after, p);
  }

  /** A filter every element passes is the identity. */
  lemma {:induction false} WhereAll<T(!new)>(s: seq<T>, p: T -> bool)
    requires forall i :: 0 <= i < |s| ==> p(s[i])
    ensures Where(s, p) == s
  {
    if s != [] {
      WhereAll(s[1..], p);
      assert [s[0]] + s[1..] == s;
    }
  }

  /** Three filters that split every element exactly one way account for every element. */
  lemma {:induction false} WherePartition3<T(!new)>(s: seq<T>, p: T -> bool, q: T -> bool, r: T -> bool)
    requires forall i :: 0 <= i < |s| ==> (if p(s[i]) then 1 else 0) + (if q(s[i]) then 1 else 0) + (if r(s[i]) then 1 else 0) == 1
    ensures |Where(s, p)| + |Where(s, q)| + |Where(s, r)| == |s|
  {
    if s != [] {
      WherePartition3(s[1..], p, q, r);
    }
  }

  /** Two filters no element passes together select at most every element once. */
  lemma {:induction false} WhereDisjoint<T(!new)>(s: seq<T>, p: T -> bool, q: T -> bool)
    requires forall i :: 0 <= i < |s| ==> !(p(s[i]) && q(s[i]))
    ensures |Where(s, p)| + |Where(s, q)| <= |s|
  {
    if s != [] {
      WhereDisjoint(s[1..], p, q);
    }
  }

  /** `findById`: the position of the first document with identifier `id`. */
  function IndexOf<T>(docs: seq<Doc<T>>, id: Id): (r: Option<nat>)
    ensures r.Some? ==> r.value < |docs| && docs[r.value].id == id && Fresh(docs[..r.value], id)
    ensures r.None? <==> Fresh(docs, id)
  {
    if docs == [] then None
    else if docs[0].id == id then Some(0)
    else match IndexOf(docs[1..], id)
      case None => None
      case Some(k) => Some(k + 1)
  }

  /** With unique identifiers, a document found at `i` is the only one with its identifier. */
  lemma IndexOfUnique<T>(docs: seq<Doc<T>>, i: nat)
    requires UniqueIds(docs) && i < |docs|
    ensures IndexOf(docs, docs[i].id) == Some(i)
  {
  }

  /** Removing the document at position `i` (`findByIdAndDelete`). */
  function Without<T(!new)>(docs: seq<Doc<T>>, i: nat): (r: seq<Doc<T>>)
    requires i < |docs|
    ensures |r| == |docs| - 1
    ensures forall k :: 0 <= k < |r| ==> r[k] == docs[if k < i then k else k + 1]
    ensures UniqueIds(docs) ==> UniqueIds(r)
    ensures UniqueIds(docs) ==> forall d :: d in r <==> d in docs && d.id != docs[i].id
  {
    var r := docs[..i] + docs[i + 1..];
    assert forall k :: 0 <= k < |r| ==> r[k] == docs[if k < i then k else k + 1];
    r
  }

  /** Writing back the document at `i` with its identifier unchanged keeps identifiers unique. */
  lemma UpdatedKeepsUnique<T>(docs: seq<Doc<T>>, i: nat, d: Doc<T>)
    requires UniqueIds(docs) && i < |docs| && d.id == docs[i].id
    ensures UniqueIds(docs[i := d])
  {
  }

  /** Appending a document under a fresh identifier keeps identifiers unique. */
  lemma AppendKeepsUnique<T>(docs: seq<Doc<T>>, d: Doc<T>)
    requires UniqueIds(docs) && Fresh(docs, d.id)
    ensures UniqueIds(docs + [d])
  {
  }

  /** `before` orders any two elements one way or the other. */
  ghost predicate Total<T(!new)>(before: (T, T) -> bool)
  {
    forall a, b :: before(a, b) || before(b, a)
  }

  /** Each element comes `before` the next one. */
  ghost predicate Ordered<T>(s: seq<T>, before: (T, T) -> bool)
  {
    forall i :: 0 <= i < |s| - 1 ==> before(s[i], s[i + 1])
  }

  function Insert<T(!new)>(x: T, s: seq<T>, before: (T, T) -> bool): (r: seq<T>)
    requires Total(before) && Ordered(s, before)
    ensures Ordered(r, before)
    ensures multiset(r) == multiset(s) + multiset{x}
    ensures |r| == |s| + 1 && (r[0] == x || (|s| > 0 && r[0] == s[0]))
  {
    if s == [] then [x]
    else if before(x, s[0]) then [x] + s
    else
      assert s == [s[0]] + s[1..];
      assert Ordered(s[1..], before) by {
        forall i | 0 <= i < |s[1..]| - 1 ensures before(s[1..][i], s[1..][i + 1]) {
          assert s[1..][i] == s[i + 1] && s[1..][i + 1] == s[i + 2];
        }
      }
      assert before(s[0], x);
      var rest := Insert(x, s[1..], before);
      assert before(s[0], rest[0]);
      [s[0]] + rest
  }

  /** `sort`: an ordering of `s` that follows `before`, holding the same elements. */
  function SortBy<T(!new)>(s: seq<T>, before: (T, T) -> bool): (r: seq<T>)
    requires Total(before)
    ensures Ordered(r, before)
    ensures multiset(r) == multiset(s)
  {
    if s == [] then []
    else
      assert s == [s[0]] + s[1..];
      Insert(s[0], SortBy(s[1..], before), before)
  }

  /** `sort({ createdAt: -1 })`: newest document first. */
  function NewestFirst<T(!new)>(docs: seq<Doc<T>>): (r: seq<Doc<T>>)
    ensures forall i :: 0 <= i < |r| - 1 ==> r[i].createdAt >= r[i + 1].createdAt
    ensures multiset(r) == multiset(docs)
    ensures forall d :: d in r <==> d in docs
  {
    var before := (a: Doc<T>, b: Doc<T>) => a.createdAt >= b.createdAt;
    assert Total(before);
    var r := SortBy(docs, before);
    assert forall d :: d in r <==> d in multiset(r);
    assert forall d :: d in docs <==> d in multiset(docs);
    r
  }
}

=== FILE: tasks.dfy ===
/** The task store of `taskController`: tasks owned by their creator, validated
    against the task schema on every write. */
module Tasks {
  import opened Common
  import opened Store
  import opened Domain
  import opened Ownership
  import opened Text

  /** The shortest title the schema admits, after trimming. */
  const MinTitleLength: nat := 3

  /** The shortest description the schema admits (not trimmed). */
  const MinDescriptionLength: nat := 10

  predicate ValidTitle(title: string)
  {
    |Trim(title)| >= MinTitleLength
  }

  predicate ValidDescription(description: string)
  {
    |description| >= MinDescriptionLength
  }

  /** A given status or priority must name a value of its enum. */
  predicate ValidStatusText(s: Option<string>)
  {
    s.None? || ParseStatus(s.value).Some?
  }

  predicate ValidPriorityText(p: Option<string>)
  {
    p.None? || ParsePriority(p.value).Some?
  }

  function CreatedBy(user: Id): Doc<Task> -> bool
  {
    (d: Doc<Task>) => d.body.createdBy == user
  }

  /** The values `createTask` reads from the body. A `createdBy` in the body is
      never read, so it has no field here. */
  datatype TaskInput = TaskInput(
    title: Option<string>,
    description: Option<string>,
    status: Option<string>,
    priority: Option<string>,
    assignee: Option<Id>,
    project: Option<Id>,
    dueDate: Option<int>)

  /** The document `Task.create` builds, or None when validation throws. The title
      is trimmed and keeps three characters, the description has ten, assignee and
      due date are present, status and priority are from their enums or default
      to todo and medium; the project may be absent (its schema entry says
      `require`, not `required`). The creator is always `caller`. */
  function BuildTask(input: TaskInput, caller: Id, now: int): (r: Option<Task>)
    ensures r.Some? <==>
      && input.title.Some? && ValidTitle(input.title.value)
      && input.description.Some? && ValidDescription(input.description.value)
      && ValidStatusText(input.status) && ValidPriorityText(input.priority)
      && input.assignee.Some? && input.dueDate.Some?
    ensures r.Some? ==> r.value.createdBy == caller && r.value.updatedAt == now
    ensures r.Some? ==> r.value.title == Trim(input.title.value) && r.value.project == input.project
    ensures r.Some? ==> r.value.assignee == input.assignee.value && r.value.dueDate == input.dueDate.value
    ensures r.Some? ==> r.value.status == (if input.status.None? then DefaultStatus else ParseStatus(input.status.value).value)
    ensures r.Some? ==> r.value.priority == (if input.priority.None? then DefaultPriority else ParsePriority(input.priority.value).value)
  {
    if input.title.None? || !ValidTitle(input.title.value) then None
    else if input.description.None? || !ValidDescription(input.description.value) then None
    else if !ValidStatusText(input.status) || !ValidPriorityText(input.priority) then None
    else if input.assignee.None? || input.dueDate.None? then None
    else
      Some(Task(
        Trim(input.title.value),
        input.description.value,
        if input.status.None? then DefaultStatus else ParseStatus(input.status.value).value,
        if input.priority.None? then DefaultPriority else ParsePriority(input.priority.value).value,
        input.project,
        input.assignee.value,
        caller,
        input.dueDate.value,
        now))
  }

  /** The fields `updateTask` may overwrite (the whole body is passed on, so the
      creator too); an absent field keeps its value. */
  datatype TaskPatch = TaskPatch(
    title: Option<string>,
    description: Option<string>,
    status: Option<string>,
    priority: Option<string>,
    project: Option<Id>,
    assignee: Option<Id>,
    createdBy: Option<Id>,
    dueDate: Option<int>)

  /** The update validators that run on the fields a patch sets. */
  predicate PatchValid(p: TaskPatch)
  {
    && (p.title.None? || ValidTitle(p.title.value))
    && (p.description.None? || ValidDescription(p.description.value))
    && ValidStatusText(p.status) && ValidPriorityText(p.priority)
  }

  /** `findByIdAndUpdate(id, body)`: the given fields replace the stored ones and
      the update time becomes `now`. */
  function ApplyPatch(t: Task, p: TaskPatch, now: int): (r: Task)
    requires PatchValid(p)
    ensures r.title == (if p.title.Some? then Trim(p.title.value) else t.title)
    ensures r.description == (if p.description.Some? then p.description.value else t.description)
    ensures p.status.Some? ==> StatusName(r.status) == p.status.value
    ensures p.status.None? ==> r.status == t.status
    ensures p.priority.Some? ==> PriorityName(r.priority) == p.priority.value
    ensures p.priority.None? ==> r.priority == t.priority
    ensures r.project == (if p.project.Some? then p.project else t.project)
    ensures r.assignee == (if p.assignee.Some? then p.assignee.value else t.assignee)
    ensures r.createdBy == (if p.createdBy.Some? then p.createdBy.value else t.createdBy)
    ensures r.dueDate == (if p.dueDate.Some? then p.dueDate.value else t.dueDate)
    ensures r.updatedAt == now
  {
    Task(
      if p.title.Some? then Trim(p.title.value) else t.title,
      if p.description.Some? then p.description.value else t.description,
      if p.status.Some? then ParseStatus(p.status.value).value else t.status,
      if p.priority.Some? then ParsePriority(p.priority.value).value else t.priority,
      if p.project.Some? then p.project else t.project,
      if p.assignee.Some? then p.assignee.value else t.assignee,
      if p.createdBy.Some? then p.createdBy.value else t.createdBy,
      if p.dueDate.Some? then p.dueDate.value else t.dueDate,
      now)
  }

  /** An empty patch only refreshes the update time. */
  lemma EmptyPatchTouches(t: Task, now: int)
    ensures ApplyPatch(t, TaskPatch(None, None, None, None, None, None, None, None), now) == t.(updatedAt := now)
  {
  }

  class TaskStore {
    /** The `Task` collection, in insertion order. */
    var docs: seq<Doc<Task>>

    ghost predicate Valid()
      reads this
    {
      UniqueIds(docs)
    }

    constructor ()
      ensures Valid() && docs == []
    {
      docs := [];
    }

    /** `getAllTasks`: the tasks the caller created, newest first. */
    function GetAllTasks(caller: Id): (r: seq<Doc<Task>>)
      reads this
      ensures forall d :: d in r <==> d in docs && d.body.createdBy == caller
      ensures forall i :: 0 <= i < |r| - 1 ==> r[i].createdAt >= r[i + 1].createdAt
    {
      NewestFirst(Where(docs, CreatedBy(caller)))
    }

    /** `createTask`: 201 with the built task, 500 when validation throws. */
    method CreateTask(caller: Id, input: TaskInput, newId: Id, now: int) returns (code: int)
      requires Valid() && Fresh(docs, newId)
      modifies this
      ensures Valid()
      ensures BuildTask(input, caller, now).None? ==> code == ServerError500 && docs == old(docs)
      ensures BuildTask(input, caller, now).Some? ==>
        && code == Created201 && docs == old(docs) + [Doc(newId, now, BuildTask(input, caller, now).value)]
        && docs[|docs| - 1].body.createdBy == caller
    {
      var built := BuildTask(input, caller, now);
      if built.None? {
        return ServerError500;
      }
      var d := Doc(newId, now, built.value);
      AppendKeepsUnique(docs, d);
      docs := docs + [d];
      code := Created201;
    }

    /** `updateTask`: 404 for an unknown task, then 403 for anyone but its creator,
        then 500 when an update validator fails, else the patch is applied. */
    method UpdateTask(caller: Id, id: Id, patch: TaskPatch, now: int) returns (code: int)
      requires Valid()
      modifies this
      ensures Valid()
      ensures match IndexOf(old(docs), id)
        case None => code == NotFound404 && docs == old(docs)
        case Some(i) =>
          if old(docs)[i].body.createdBy != caller then code == Forbidden403 && docs == old(docs)
          else if !PatchValid(patch) then code == ServerError500 && docs == old(docs)
          else code == Ok200 && docs == old(docs)[i := old(docs)[i].(body := ApplyPatch(old(docs)[i].body, patch, now))]
    {
      var found := IndexOf(docs, id);
      if found.None? {
        return NotFound404;
      }
      var i := found.value;
      OwnerCheckExactlyOwner(docs[i].body.createdBy, caller);
      if !OwnerCheck(docs[i].body.createdBy, RequestUserId(caller)) {
        return Forbidden403;
      }
      if !PatchValid(patch) {
        return ServerError500;
      }
      var d := docs[i].(body := ApplyPatch(docs[i].body, patch, now));
      UpdatedKeepsUnique(docs, i, d);
      docs := docs[i := d];
      code := Ok200;
    }

    /** `deleteTask`: 404, then 403, else only that task is removed. */
    method DeleteTask(caller: Id, id: Id) returns (code: int)
      requires Valid()
      modifies this
      ensures Valid()
      ensures match IndexOf(old(docs), id)
        case None => code == NotFound404 && docs == old(docs)
        case Some(i) =>
          if old(docs)[i].body.createdBy != caller then code == Forbidden403 && docs == old(docs)
          else code == Ok200 && docs == Without(old(docs), i)
    {
      var found := IndexOf(docs, id);
      if found.None? {
        return NotFound404;
      }
      var i := found.value;
      OwnerCheckExactlyOwner(docs[i].body.createdBy, caller);
      if !OwnerCheck(docs[i].body.createdBy, RequestUserId(caller)) {
        return Forbidden403;
      }
      docs := Without(docs, i);
      code := Ok200;
    }

    /** `getTasksByStatus`: the caller's tasks whose stored status is the text
        `status`, newest first; a text outside the enum matches nothing. */
    function GetTasksByStatus(caller: Id, status: string): (r: seq<Doc<Task>>)
      reads this
      ensures forall d :: d in r <==> d in docs && d.body.createdBy == caller && StatusName(d.body.status) == status
      ensures forall i :: 0 <= i < |r| - 1 ==> r[i].createdAt >= r[i + 1].createdAt
      ensures ParseStatus(status).None? ==> r == []
    {
      NewestFirst(Where(docs, (d: Doc<Task>) => d.body.createdBy == caller && StatusName(d.body.status) == status))
    }
  }
}

=== FILE: tasks_page.dfy ===
/** The task list page: the lists read from the three replies, the local
    rewrites after a deletion or an edit, the labels of each card, the edit
    form's prefill, and the edit picker's search. */
module TasksPage {
  import opened Common
  import opened Store
  import opened Domain
  import opened Text
  import opened Client
  import opened CreateTaskPage

  /** `if (res.success) setX(res.data || []) else setX([])`. */
  function ListFrom<T>(success: bool, data: Option<seq<T>>): (r: seq<T>)
    ensures success && data.Some? ==> r == data.value
    ensures !success || data.None? ==> r == []
  {
    if success && data.Some? then data.value else []
  }

  /** `handleDeleteClick`: the task leaves the list only when the deletion was
      confirmed and the server accepted it. */
  function AfterDelete(tasks: seq<Doc<TaskView>>, id: Id, confirmed: bool, serverOk: bool): (r: seq<Doc<TaskView>>)
    ensures confirmed && serverOk ==> forall t :: t in r <==> t in tasks && t.id != id
    ensures !(confirmed && serverOk) ==> r == tasks
  {
    if confirmed && serverOk then RemoveById(tasks, id) else tasks
  }

  /** With identifiers unique, a confirmed deletion removes exactly that task,
      as the server removes it from its collection. */
  lemma DeleteMatchesServer(tasks: seq<Doc<TaskView>>, i: nat)
    requires UniqueIds(tasks) && i < |tasks|
    ensures AfterDelete(tasks, tasks[i].id, true, true) == Without(tasks, i)
    ensures UniqueIds(AfterDelete(tasks, tasks[i].id, true, true))
  {
    RemoveByIdIsWithout(tasks, i);
  }

  /** `handleSave`: on success the returned task takes the place of the edited
      one; on failure the list stays. */
  function AfterSave(tasks: seq<Doc<TaskView>>, editingId: Id, reply: Option<Doc<TaskView>>): (r: seq<Doc<TaskView>>)
    ensures |r| == |tasks|
    ensures reply.None? ==> r == tasks
    ensures reply.Some? ==> forall k :: 0 <= k < |tasks| ==>
      r[k] == if tasks[k].id == editingId then reply.value else tasks[k]
  {
    if reply.Some? then ReplaceById(tasks, editingId, reply.value) else tasks
  }

  /** With identifiers unique and the server returning the task under its own
      identifier, a save replaces that one position and keeps the identifiers
      unique. */
  lemma SaveReplacesOne(tasks: seq<Doc<TaskView>>, i: nat, saved: Doc<TaskView>)
    requires UniqueIds(tasks) && i < |tasks| && saved.id == tasks[i].id
    ensures AfterSave(tasks, tasks[i].id, Some(saved)) == tasks[i := saved]
    ensures UniqueIds(AfterSave(tasks, tasks[i].id, Some(saved)))
  {
    ReplaceByIdUnique(tasks, i, saved);
    UpdatedKeepsUnique(tasks, i, saved);
  }

  /** `p.charAt(0).toUpperCase() + p.slice(1)`. */
  function PriorityLabel(p: string): (r: string)
    ensures |r| == |p|
    ensures p != "" ==> r[0] == UpperChar(p[0])
    ensures forall i :: 1 <= i < |p| ==> r[i] == p[i]
    ensures ToLower(r) == ToLower(p)
  {
    if p == "" then ""
    else
      var r := [UpperChar(p[0])] + p[1..];
      assert LowerChar(UpperChar(p[0])) == LowerChar(p[0]);
      assert forall i :: 0 <= i < |p| ==> LowerChar(r[i]) == LowerChar(p[i]);
      r
  }

  /** The card shows each priority of the enumeration capitalised. */
  lemma PriorityLabels()
    ensures PriorityLabel(PriorityName(High)) == "High"
    ensures PriorityLabel(PriorityName(Medium)) == "Medium"
    ensures PriorityLabel(PriorityName(Low)) == "Low"
  {
    HighLabel();
    MediumLabel();
    LowLabel();
  }

  lemma HighLabel()
    ensures PriorityLabel(PriorityName(High)) == "High"
  {
    CapitalisedPriority(High, 'h', "igh", "High");
  }

  lemma MediumLabel()
    ensures PriorityLabel(PriorityName(Medium)) == "Medium"
  {
    CapitalisedPriority(Medium, 'm', "edium", "Medium");
  }

  lemma LowLabel()
    ensures PriorityLabel(PriorityName(Low)) == "Low"
  {
    CapitalisedPriority(Low, 'l', "ow", "Low");
  }

  /** The label of a priority written `c` followed by `rest`. */
  lemma CapitalisedPriority(p: Priority, c: char, rest: string, shown: string)
    requires PriorityName(p) == [c] + rest && shown == [UpperChar(c)] + rest
    ensures PriorityLabel(PriorityName(p)) == shown
  {
    PriorityLabelOf(c, rest);
  }

  /** The label of a word is its first letter upper-cased before the rest. */
  lemma PriorityLabelOf(c: char, rest: string)
    ensures PriorityLabel([c] + rest) == [UpperChar(c)] + rest
  {
    var p := [c] + rest;
    assert p[0] == c && p[1..] == rest;
  }

  /** The position of the first `c` in `s`. */
  function FirstIndexOf(s: string, c: char): (r: Option<nat>)
    ensures r.None? <==> c !in s
    ensures r.Some? ==> r.value < |s| && s[r.value] == c && c !in s[..r.value]
  {
    if s == [] then None
    else if s[0] == c then Some(0)
    else match FirstIndexOf(s[1..], c)
      case None => None
      case Some(i) =>
        assert s[..i + 1] == [s[0]] + s[1..][..i];
        Some(i + 1)
  }

  /** `s.replace("-", " ")`: only the first hyphen becomes a space. */
  function StatusLabel(s: string): (r: string)
    ensures |r| == |s|
    ensures '-' !in s ==> r == s
    ensures FirstIndexOf(s, '-').Some? ==> var i := FirstIndexOf(s, '-').value;
      r[i] == ' ' && r[..i] == s[..i] && r[i + 1..] == s[i + 1..]
  {
    match FirstIndexOf(s, '-')
    case None => s
    case Some(i) =>
      var r := s[..i] + " " + s[i + 1..];
      assert r[..i] == s[..i] && r[i + 1..] == s[i + 1..];
      r
  }

  /** Replacing the first hyphen of `a-b`, where `a` holds none. */
  lemma StatusLabelSplit(a: string, b: string)
    requires '-' !in a
    ensures StatusLabel(a + "-" + b) == a + " " + b
  {
    var s := a + "-" + b;
    assert s[|a|] == '-' && s[..|a|] == a;
    assert FirstIndexOf(s, '-') == Some(|a|);
    assert s[|a| + 1..] == b;
  }

  /** The statuses of the enumeration as the card shows them. */
  lemma StatusLabels()
    ensures StatusLabel(StatusName(Todo)) == "todo"
    ensures StatusLabel(StatusName(InProgress)) == "in progress"
    ensures StatusLabel(StatusName(Completed)) == "completed"
  {
    assert '-' !in StatusName(Todo) by {}
    assert '-' !in StatusName(Completed) by {}
    assert '-' !in "in" by {}
    assert "in" + "-" + "progress" == StatusName(InProgress) by {}
    assert "in" + " " + "progress" == "in progress" by {}
    StatusLabelSplit("in", "progress");
  }

  /** `task.project?.title || "Unassigned"`. */
  function ProjectLabel(project: Ref): (r: string)
    ensures project.Populated? && Present(project.name) ==> r == project.name.value
    ensures !(project.Populated? && Present(project.name)) ==> r == "Unassigned"
    ensures r != ""
  {
    if project.Populated? && Present(project.name) then project.name.value else "Unassigned"
  }

  /** `task.assignee?.name?.charAt(0) || 'U'`: the initial shown when the assignee
      has no avatar. */
  function AvatarInitial(assignee: Ref): (r: string)
    ensures |r| == 1
    ensures assignee.Populated? && Present(assignee.name) ==> r[0] == assignee.name.value[0]
    ensures !(assignee.Populated? && Present(assignee.name)) ==> r == "U"
  {
    if assignee.Populated? && Present(assignee.name) then [assignee.name.value[0]] else "U"
  }

  /** `new Date(d).toISOString().split('T')[0]` for a due date received in that
      form: the text before the first `T`. */
  function DatePart(d: string): (r: string)
    ensures |r| <= |d| && d[..|r|] == r
    ensures 'T' !in r
    ensures |r| < |d| ==> d[|r|] == 'T'
  {
    SplitFirstField(d, 'T');
    Split(d, 'T')[0]
  }

  /** The state `handleEditClick` sets: the form filled from the task and the
      search box holding the assignee's name. */
  datatype EditState = EditState(form: Fields, search: string)

  function EditPrefill(t: TaskView): (r: EditState)
    ensures WellShaped(r.form) && r.form.Keys == FormFields
    ensures r.form["title"] == t.title && r.form["description"] == t.description
    ensures r.form["status"] == t.status && r.form["priority"] == t.priority
    ensures r.form["assignee"] == PopulatedIdOr(t.assignee) && r.form["project"] == PopulatedIdOr(t.project)
    ensures t.dueDate.Some? ==> r.form["dueDate"] == DatePart(t.dueDate.value)
    ensures t.dueDate.None? ==> r.form["dueDate"] == ""
    ensures t.assignee.Populated? && Present(t.assignee.name) ==> r.search == t.assignee.name.value
    ensures !(t.assignee.Populated? && Present(t.assignee.name)) ==> r.search == ""
  {
    var due := if t.dueDate.Some? then DatePart(t.dueDate.value) else "";
    var name := if t.assignee.Populated? && Present(t.assignee.name) then t.assignee.name.value else "";
    EditState(map[
      "title" := t.title, "description" := t.description, "status" := t.status,
      "priority" := t.priority, "assignee" := PopulatedIdOr(t.assignee),
      "project" := PopulatedIdOr(t.project), "dueDate" := due], name)
  }

  /** A task whose references arrive populated keeps its assignee and project in
      the edit form; a reference that arrives as a bare identifier is emptied,
      and the form then sends "" for it. */
  lemma PrefillKeepsPopulatedRefs(t: TaskView)
    ensures t.assignee.Populated? ==> EditPrefill(t).form["assignee"] == t.assignee.id
    ensures t.project.Populated? ==> EditPrefill(t).form["project"] == t.project.id
    ensures t.assignee.RawId? ==> EditPrefill(t).form["assignee"] == ""
    ensures t.project.RawId? ==> EditPrefill(t).form["project"] == ""
  {
  }

  /** The edit picker's list filter, `u.name.toLowerCase()`: without the fallback
      to "", a user with no name makes the filter throw (None). */
  function StrictSearch(users: seq<Doc<UserView>>, query: string): (r: Option<seq<Doc<UserView>>>)
    ensures r.None? <==> exists k :: 0 <= k < |users| && users[k].body.name.None?
    ensures r.Some? ==> r.value == SearchUsers(users, query)
  {
    if exists k :: 0 <= k < |users| && users[k].body.name.None? then None
    else Some(SearchUsers(users, query))
  }

  /** The edit picker lists the same users as the creation page's whenever every
      user has a name, as the user directory's profiles always do. */
  lemma StrictSearchAgrees(users: seq<Doc<UserView>>, query: string)
    requires forall k :: 0 <= k < |users| ==> users[k].body.name.Some?
    ensures StrictSearch(users, query) == Some(SearchUsers(users, query))
  {
  }
}

=== FILE: team_page.dfy ===
/** The team page: the connection list of the current user split into team
    members and incoming requests, and the connection removed when a member
    is taken off the team. */
module TeamPage {
  import opened Common
  import opened Store
  import opened Domain
  import opened Connections

  function IsAccepted(): Doc<Connection> -> bool
  {
    (c: Doc<Connection>) => c.body.status == Accepted
  }

  function IncomingPending(me: Id): Doc<Connection> -> bool
  {
    IncomingPendingFor(Some(me))
  }

  /** The page's `x === user._id` where `user._id` may be `undefined` (None):
      an identifier never equals `undefined`. */
  predicate IsSessionUser(x: Id, session: Option<Id>)
  {
    session == Some(x)
  }

  function IncomingPendingFor(session: Option<Id>): Doc<Connection> -> bool
  {
    (c: Doc<Connection>) => c.body.status == Pending && IsSessionUser(c.body.recipient, session)
  }

  /** The accepted connections, in their order. */
  function AcceptedOnes(all: seq<Doc<Connection>>): (r: seq<Doc<Connection>>)
    ensures forall c :: c in r <==> c in all && c.body.status == Accepted
  {
    Where(all, IsAccepted())
  }

  /** The pending requests addressed to `me`; requests `me` sent are not among them. */
  function PendingRequests(all: seq<Doc<Connection>>, me: Id): (r: seq<Doc<Connection>>)
    ensures forall c :: c in r <==> c in all && c.body.status == Pending && c.body.recipient == me
  {
    Where(all, IncomingPending(me))
  }

  /** The party of a connection that is not `me` (the recipient when `me` sent it). */
  function OtherParty(c: Connection, me: Id): (u: Id)
    ensures c.requester == me ==> u == c.recipient
    ensures c.requester != me ==> u == c.requester
  {
    if c.requester == me then c.recipient else c.requester
  }

  /** The team members: the other party of each accepted connection, in order. */
  function TeamMembers(all: seq<Doc<Connection>>, me: Id): (r: seq<Id>)
    ensures |r| == |AcceptedOnes(all)|
    ensures forall k :: 0 <= k < |r| ==> r[k] == OtherParty(AcceptedOnes(all)[k].body, me)
  {
    var accepted := AcceptedOnes(all);
    seq(|accepted|, k requires 0 <= k < |accepted| => OtherParty(accepted[k].body, me))
  }

  /** When every connection involves `me` and joins two different users (the
      server refuses requests to oneself), `me` is never listed as a member. */
  lemma MeNotAMember(all: seq<Doc<Connection>>, me: Id)
    requires forall c :: c in all ==> c.body.requester != c.body.recipient
    requires forall c :: c in all ==> c.body.requester == me || c.body.recipient == me
    ensures me !in TeamMembers(all, me)
  {
    var accepted := AcceptedOnes(all);
    var members := TeamMembers(all, me);
    forall k | 0 <= k < |members| ensures members[k] != me {
      assert accepted[k] in all;
    }
  }

  /** A request `me` sent is never listed as pending for `me`. */
  lemma SentRequestsExcluded(all: seq<Doc<Connection>>, me: Id, c: Doc<Connection>)
    requires c.body.requester == me && c.body.requester != c.body.recipient
    ensures c !in PendingRequests(all, me)
  {
  }

  /** `handleRemoveMember`: the identifier of the first connection between `me`
      and `userId` in either direction and of any status, or None, in which case
      nothing is deleted. `me` is a party of the connection found, so the
      rejection that follows passes the server's party check. */
  function RemoveTarget(all: seq<Doc<Connection>>, me: Id, userId: Id): (r: Option<Id>)
    ensures r.None? <==> forall k :: 0 <= k < |all| ==> !Between(all[k].body, userId, me)
    ensures r.Some? ==> exists k :: (0 <= k < |all| && all[k].id == r.value && Between(all[k].body, userId, me)
      && (all[k].body.requester == me || all[k].body.recipient == me)
      && forall j :: 0 <= j < k ==> !Between(all[j].body, userId, me))
  {
    match FindBetween(all, userId, me)
    case None => None
    case Some(k) => Some(all[k].id)
  }

  /** The page's lists and its removal lookup as written, reading the session
      user's `_id`, which may be missing. */
  function PendingAsWritten(all: seq<Doc<Connection>>, session: Option<Id>): (r: seq<Doc<Connection>>)
    ensures forall c :: c in r <==> c in all && c.body.status == Pending && IsSessionUser(c.body.recipient, session)
  {
    Where(all, IncomingPendingFor(session))
  }

  function MembersAsWritten(all: seq<Doc<Connection>>, session: Option<Id>): (r: seq<Id>)
    ensures |r| == |AcceptedOnes(all)|
    ensures forall k :: 0 <= k < |r| ==> var c := AcceptedOnes(all)[k].body;
      r[k] == if IsSessionUser(c.requester, session) then c.recipient else c.requester
  {
    var accepted := AcceptedOnes(all);
    seq(|accepted|, k requires 0 <= k < |accepted| =>
      if IsSessionUser(accepted[k].body.requester, session) then accepted[k].body.recipient else accepted[k].body.requester)
  }

  function RemoveTargetAsWritten(all: seq<Doc<Connection>>, session: Option<Id>, userId: Id): (r: Option<Id>)
    ensures session.Some? ==> r == RemoveTarget(all, session.value, userId)
    ensures session.None? ==> r == None
  {
    match session
    case None => None
    case Some(me) => RemoveTarget(all, me, userId)
  }

  /** With the caller's identifier at hand, the page as written computes the
      lists of `PendingRequests` and `TeamMembers`. */
  lemma AsWrittenWithIdentity(all: seq<Doc<Connection>>, me: Id)
    ensures PendingAsWritten(all, Some(me)) == PendingRequests(all, me)
    ensures MembersAsWritten(all, Some(me)) == TeamMembers(all, me)
  {
  }

  /** The session user is the login or registration reply, which carries `id`
      and no `_id`: with the identity missing, no request is ever pending, every
      accepted connection shows its requester, and no member can be removed. */
  lemma PageWithoutIdentity(all: seq<Doc<Connection>>, userId: Id)
    ensures PendingAsWritten(all, None) == []
    ensures forall k :: 0 <= k < |MembersAsWritten(all, None)| ==>
      MembersAsWritten(all, None)[k] == AcceptedOnes(all)[k].body.requester
    ensures RemoveTargetAsWritten(all, None, userId) == None
  {
    WhereNone(all, IncomingPendingFor(None));
  }

  /** Filtering by a test no element passes leaves nothing. */
  lemma {:induction false} WhereNone<T(!new)>(s: seq<T>, p: T -> bool)
    requires forall x :: x in s ==> !p(x)
    ensures Where(s, p) == []
  {
    if s != [] {
      assert s[0] in s;
      assert forall x :: x in s[1..] ==> x in s;
      WhereNone(s[1..], p);
    }
  }

  /** As written, a caller whose sent request was accepted sees themselves on
      their own team, against `MeNotAMember`. */
  lemma CallerListedAsWritten(all: seq<Doc<Connection>>, me: Id, i: nat)
    requires i < |all| && all[i].body.status == Accepted && all[i].body.requester == me
    ensures me in MembersAsWritten(all, None)
  {
    var accepted := AcceptedOnes(all);
    assert all[i] in accepted;
    var k :| 0 <= k < |accepted| && accepted[k] == all[i];
    assert MembersAsWritten(all, None)[k] == me;
  }
}

=== FILE: teams.dfy ===
/** The team store of `teamController`: teams owned by their creator, with a
    member list that only the creator may change. */
module Teams {
  import opened Common
  import opened Store
  import opened Domain
  import opened Ownership
  import opened Text

  /** The shortest team name the schema admits, after trimming. */
  const MinNameLength: nat := 3

  /** A team name is admitted when its trimmed form has at least three characters. */
  predicate ValidName(name: string)
  {
    |Trim(name)| >= MinNameLength
  }

  /** The teams created by `user`. */
  function CreatedBy(user: Id): Doc<Team> -> bool
  {
    (d: Doc<Team>) => d.body.createdBy == user
  }

  /** No identifier occurs twice. */
  predicate NoDuplicates(s: seq<Id>)
  {
    forall i, j :: 0 <= i < j < |s| ==> s[i] != s[j]
  }

  /** `members.filter(id => id.toString() !== memberId)`. */
  function RemoveAll(members: seq<Id>, x: Id): (r: seq<Id>)
    ensures x !in r
    ensures forall y :: y != x ==> (y in r <==> y in members)
    ensures |r| <= |members|
  {
    Where(members, (y: Id) => y != x)
  }

  /** Removing an absent member leaves the list as it was. */
  lemma RemoveAbsent(members: seq<Id>, x: Id)
    requires x !in members
    ensures RemoveAll(members, x) == members
  {
    WhereAll(members, (y: Id) => y != x);
  }

  /** Removal keeps the order of the remaining members: removing from two
      consecutive parts of the list removes from each part in place. */
  lemma RemoveKeepsOrder(a: seq<Id>, b: seq<Id>, x: Id)
    ensures RemoveAll(a + b, x) == RemoveAll(a, x) + RemoveAll(b, x)
  {
    WhereConcat(a, b, (y: Id) => y != x);
  }

  /** Adding a member that was not there and removing it again gives back the list. */
  lemma AddThenRemove(members: seq<Id>, x: Id)
    requires x !in members
    ensures RemoveAll(members + [x], x) == members
  {
    WhereConcat(members, [x], (y: Id) => y != x);
    RemoveAbsent(members, x);
    assert [x][1..] == [];
  }

  /** Appending an identifier not yet present keeps a list free of duplicates. */
  lemma AppendKeepsNoDuplicates(members: seq<Id>, x: Id)
    requires NoDuplicates(members) && x !in members
    ensures NoDuplicates(members + [x])
  {
  }

  /** The fields `updateTeam` may overwrite; an absent field keeps its value. */
  datatype TeamPatch = TeamPatch(
    name: Option<string>,
    description: Option<string>,
    members: Option<seq<Id>>,
    createdBy: Option<Id>)

  /** `findByIdAndUpdate(id, body)`: the given fields replace the stored ones, the name trimmed. */
  function ApplyPatch(t: Team, p: TeamPatch): (r: Team)
    ensures r.name == (if p.name.Some? then Trim(p.name.value) else t.name)
    ensures r.description == (if p.description.Some? then p.description.value else t.description)
    ensures r.members == (if p.members.Some? then p.members.value else t.members)
    ensures r.createdBy == (if p.createdBy.Some? then p.createdBy.value else t.createdBy)
  {
    Team(
      if p.name.Some? then Trim(p.name.value) else t.name,
      if p.description.Some? then p.description.value else t.description,
      if p.members.Some? then p.members.value else t.members,
      if p.createdBy.Some? then p.createdBy.value else t.createdBy)
  }

  /** An empty patch changes nothing. */
  lemma EmptyPatchKeeps(t: Team)
    ensures ApplyPatch(t, TeamPatch(None, None, None, None)) == t
  {
  }

  class TeamStore {
    /** The `Team` collection, in insertion order. */
    var docs: seq<Doc<Team>>

    ghost predicate Valid()
      reads this
    {
      UniqueIds(docs)
    }

    constructor ()
      ensures Valid() && docs == []
    {
      docs := [];
    }

    /** `getAllTeams`: the caller's teams, newest first. */
    function GetAllTeams(caller: Id): (r: seq<Doc<Team>>)
      reads this
      ensures forall d :: d in r <==> d in docs && d.body.createdBy == caller
      ensures forall i :: 0 <= i < |r| - 1 ==> r[i].createdAt >= r[i + 1].createdAt
    {
      NewestFirst(Where(docs, CreatedBy(caller)))
    }

    /** `createTeam`: the creator is the caller, the name is trimmed and must keep
        three characters (otherwise validation throws and the answer is 500),
        the description defaults to "" and the members to none. */
    method CreateTeam(caller: Id, name: Option<string>, description: Option<string>, members: Option<seq<Id>>,
                      newId: Id, now: int) returns (code: int)
      requires Valid() && Fresh(docs, newId)
      modifies this
      ensures Valid()
      ensures (name.None? || !ValidName(name.value)) ==> code == ServerError500 && docs == old(docs)
      ensures name.Some? && ValidName(name.value) ==> code == Created201 && docs == old(docs) + [Doc(newId, now, Team(
        Trim(name.value),
        if description.Some? then description.value else "",
        if members.Some? then members.value else [],
        caller))]
    {
      if name.None? || !ValidName(name.value) {
        return ServerError500;
      }
      var team := Team(
        Trim(name.value),
        if description.Some? then description.value else "",
        if members.Some? then members.value else [],
        caller);
      var d := Doc(newId, now, team);
      AppendKeepsUnique(docs, d);
      docs := docs + [d];
      code := Created201;
    }

    /** `updateTeam`: 404 for an unknown team, 403 for anyone but its creator, 500
        when the new name fails validation, else the patch is applied. */
    method UpdateTeam(caller: Id, id: Id, patch: TeamPatch) returns (code: int)
      requires Valid()
      modifies this
      ensures Valid()
      ensures match IndexOf(old(docs), id)
        case None => code == NotFound404 && docs == old(docs)
        case Some(i) =>
          if old(docs)[i].body.createdBy != caller then code == Forbidden403 && docs == old(docs)
          else if patch.name.Some? && !ValidName(patch.name.value) then code == ServerError500 && docs == old(docs)
          else code == Ok200 && docs == old(docs)[i := old(docs)[i].(body := ApplyPatch(old(docs)[i].body, patch))]
    {
      var found := IndexOf(docs, id);
      if found.None? {
        return NotFound404;
      }
      var i := found.value;
      OwnerCheckExactlyOwner(docs[i].body.createdBy, caller);
      if !OwnerCheck(docs[i].body.createdBy, RequestUserId(caller)) {
        return Forbidden403;
      }
      if patch.name.Some? && !ValidName(patch.name.value) {
        return ServerError500;
      }
      UpdatedKeepsUnique(docs, i, docs[i].(body := ApplyPatch(docs[i].body, patch)));
      docs := docs[i := docs[i].(body := ApplyPatch(docs[i].body, patch))];
      code := Ok200;
    }

    /** `addMember`: 404, then 403, then 400 when the id is already a member, else
        the id is appended at the end of the member list. */
    method AddMember(caller: Id, id: Id, memberId: Id) returns (code: int)
      requires Valid()
      modifies this
      ensures Valid()
      ensures match IndexOf(old(docs), id)
        case None => code == NotFound404 && docs == old(docs)
        case Some(i) =>
          if old(docs)[i].body.createdBy != caller then code == Forbidden403 && docs == old(docs)
          else if memberId in old(docs)[i].body.members then code == BadRequest400 && docs == old(docs)
          else (code == Ok200
            && docs == old(docs)[i := old(docs)[i].(body := old(docs)[i].body.(members := old(docs)[i].body.members + [memberId]))]
            && (NoDuplicates(old(docs)[i].body.members) ==> NoDuplicates(docs[i].body.members)))
    {
      var found := IndexOf(docs, id);
      if found.None? {
        return NotFound404;
      }
      var i := found.value;
      OwnerCheckExactlyOwner(docs[i].body.createdBy, caller);
      if !OwnerCheck(docs[i].body.createdBy, RequestUserId(caller)) {
        return Forbidden403;
      }
      if memberId in docs[i].body.members {
        return BadRequest400;
      }
      var members := docs[i].body.members;
      if NoDuplicates(members) {
        AppendKeepsNoDuplicates(members, memberId);
      }
      var d := docs[i].(body := docs[i].body.(members := members + [memberId]));
      UpdatedKeepsUnique(docs, i, d);
      docs := docs[i := d];
      code := Ok200;
    }

    /** `removeMember`: 404, then 403, else every occurrence of the id leaves the
        member list (an absent id is not an error). */
    method RemoveMember(caller: Id, id: Id, memberId: Id) returns (code: int)
      requires Valid()
      modifies this
      ensures Valid()
      ensures match IndexOf(old(docs), id)
        case None => code == NotFound404 && docs == old(docs)
        case Some(i) =>
          if old(docs)[i].body.createdBy != caller then code == Forbidden403 && docs == old(docs)
          else (code == Ok200
            && docs == old(docs)[i := old(docs)[i].(body := old(docs)[i].body.(members := RemoveAll(old(docs)[i].body.members, memberId)))])
    {
      var found := IndexOf(docs, id);
      if found.None? {
        return NotFound404;
      }
      var i := found.value;
      OwnerCheckExactlyOwner(docs[i].body.createdBy, caller);
      if !OwnerCheck(docs[i].body.createdBy, RequestUserId(caller)) {
        return Forbidden403;
      }
      var d := docs[i].(body := docs[i].body.(members := RemoveAll(docs[i].body.members, memberId)));
      UpdatedKeepsUnique(docs, i, d);
      docs := docs[i := d];
      code := Ok200;
    }

    /** `deleteTeam`: 404, then 403, else only that team is removed. */
    method DeleteTeam(caller: Id, id: Id) returns (code: int)
      requires Valid()
      modifies this
      ensures Valid()
      ensures match IndexOf(old(docs), id)
        case None => code == NotFound404 && docs == old(docs)
        case Some(i) =>
          if old(docs)[i].body.createdBy != caller then code == Forbidden403 && docs == old(docs)
          else code == Ok200 && docs == Without(old(docs), i)
    {
      var found := IndexOf(docs, id);
      if found.None? {
        return NotFound404;
      }
      var i := found.value;
      OwnerCheckExactlyOwner(docs[i].body.createdBy, caller);
      if !OwnerCheck(docs[i].body.createdBy, RequestUserId(caller)) {
        return Forbidden403;
      }
      docs := Without(docs, i);
      code := Ok200;
    }
  }
}

=== FILE: text.dfy ===
/** The handful of JavaScript string operations the application relies on:
    `trim`, ASCII case mapping, `includes`, `startsWith`, `split(' ')`,
    `substring` and the decimal rendering of a count. */
module Text {

  /** ECMAScript WhiteSpace and LineTerminator code points, the set `trim` strips. */
  predicate IsWhitespace(c: char)
  {
    c == ' ' || c == '\t' || c == '\n' || c == '\r'
    || c as int == 0x0B || c as int == 0x0C || c as int == 0xA0 || c as int == 0x1680
    || (0x2000 <= c as int <= 0x200A) || c as int == 0x2028 || c as int == 0x2029
    || c as int == 0x202F || c as int == 0x205F || c as int == 0x3000 || c as int == 0xFEFF
  }

  /** Every character of `s` is whitespace (the empty string included). */
  predicate IsBlank(s: string)
  {
    forall i :: 0 <= i < |s| ==> IsWhitespace(s[i])
  }

  function TrimStart(s: string): (r: string)
    ensures |r| <= |s| && r == s[|s| - |r|..]
    ensures r == [] || !IsWhitespace(r[0])
    ensures IsBlank(s[..|s| - |r|])
  {
    if |s| > 0 && IsWhitespace(s[0]) then TrimStart(s[1..]) else s
  }

  function TrimEnd(s: string): (r: string)
    ensures |r| <= |s| && r == s[..|r|]
    ensures r == [] || !IsWhitespace(r[|r| - 1])
    ensures IsBlank(s[|r|..])
  {
    if |s| > 0 && IsWhitespace(s[|s| - 1]) then TrimEnd(s[..|s| - 1]) else s
  }

  /** `String.prototype.trim`: the longest infix with no leading or trailing whitespace. */
  function Trim(s: string): (r: string)
    ensures |r| <= |s|
    ensures r == [] || (!IsWhitespace(r[0]) && !IsWhitespace(r[|r| - 1]))
    ensures exists i :: InfixBetweenBlanks(s, i, r)
  {
    TrimInfix(s, TrimStart(s));
    TrimEnd(TrimStart(s))
  }

  /** `r` is the part of `s` from position `i`, with only blanks before and after it. */
  predicate InfixBetweenBlanks(s: string, i: int, r: string)
  {
    0 <= i <= |s| - |r| && r == s[i..i + |r|] && IsBlank(s[..i]) && IsBlank(s[i + |r|..])
  }

  /** Trimming the end of the text left by trimming the start takes an infix of
      the whole text between two blank runs. */
  lemma TrimInfix(s: string, a: string)
    requires a == TrimStart(s)
    ensures InfixBetweenBlanks(s, |s| - |a|, TrimEnd(a))
  {
    BlanksAround(s, |s| - |a|, a, TrimEnd(a));
  }

  /** A prefix of a suffix of `s`, with blanks before the suffix and after the
      prefix, lies between blanks in `s`. */
  lemma BlanksAround(s: string, i: nat, a: string, r: string)
    requires i <= |s| && a == s[i..] && |r| <= |a| && r == a[..|r|]
    requires IsBlank(s[..i]) && IsBlank(a[|r|..])
    ensures InfixBetweenBlanks(s, i, r)
  {
    assert s[i..i + |r|] == a[..|r|];
    assert s[i + |r|..] == a[|r|..];
  }

  /** Trimming leaves nothing exactly when the string is blank. */
  lemma TrimEmptyIffBlank(s: string)
    ensures Trim(s) == [] <==> IsBlank(s)
  {
    var a := TrimStart(s);
    if Trim(s) == [] {
      assert a[|TrimEnd(a)|..] == a;
      assert a == [];
      assert s[..|s|] == s;
    }
  }

  function LowerChar(c: char): (r: char)
    ensures 'A' <= c <= 'Z' ==> r as int == c as int + 32
    ensures !('A' <= c <= 'Z') ==> r == c
  {
    if 'A' <= c <= 'Z' then (c as int + 32) as char else c
  }

  function UpperChar(c: char): (r: char)
    ensures 'a' <= c <= 'z' ==> r as int == c as int - 32
    ensures !('a' <= c <= 'z') ==> r == c
  {
    if 'a' <= c <= 'z' then (c as int - 32) as char else c
  }

  /** `toLowerCase`, restricted to the ASCII letters. */
  function ToLower(s: string): (r: string)
    ensures |r| == |s|
    ensures forall i :: 0 <= i < |s| ==> r[i] == LowerChar(s[i])
  {
    if s == [] then [] else [LowerChar(s[0])] + ToLower(s[1..])
  }

  /** `toUpperCase`, restricted to the ASCII letters. */
  function ToUpper(s: string): (r: string)
    ensures |r| == |s|
    ensures forall i :: 0 <= i < |s| ==> r[i] == UpperChar(s[i])
  {
    if s == [] then [] else [UpperChar(s[0])] + ToUpper(s[1..])
  }

  /** `s.startsWith(p)`. */
  predicate StartsWith(s: string, p: string)
  {
    |p| <= |s| && s[..|p|] == p
  }

  /** `hay.includes(needle)`: `needle` occurs at some offset of `hay`. */
  predicate Contains(hay: string, needle: string)
  {
    exists i | 0 <= i <= |hay| - |needle| :: OccursAt(hay, needle, i)
  }

  /** `needle` is the slice of `hay` that starts at offset `i`. */
  predicate OccursAt(hay: string, needle: string, i: int)
  {
    0 <= i && i + |needle| <= |hay| && hay[i..i + |needle|] == needle
  }

  /** `s.substring(0, n)`: the first `n` characters, or all of `s` when it is shorter. */
  function Prefix(s: string, n: nat): (r: string)
    ensures |r| == if |s| < n then |s| else n
    ensures r == s[..|r|]
  {
    if |s| <= n then s else s[..n]
  }

  /** `s.split(sep)` for a one-character separator. */
  function Split(s: string, sep: char): (r: seq<string>)
    ensures |r| >= 1
    ensures forall k :: 0 <= k < |r| ==> sep !in r[k]
  {
    if s == [] then [""]
    else if s[0] == sep then [""] + Split(s[1..], sep)
    else
      var rest := Split(s[1..], sep);
      [[s[0]] + rest[0]] + rest[1..]
  }

  /** `parts.join(sep)`. */
  function Join(parts: seq<string>, sep: char): string
    requires |parts| >= 1
  {
    if |parts| == 1 then parts[0] else parts[0] + [sep] + Join(parts[1..], sep)
  }

  /** Splitting loses nothing: joining the fields with the separator gives the string back. */
  lemma {:induction false} SplitJoin(s: string, sep: char)
    ensures Join(Split(s, sep), sep) == s
  {
    if s == [] {
    } else if s[0] == sep {
      SplitJoin(s[1..], sep);
      assert [s[0]] + s[1..] == s;
    } else {
      SplitJoin(s[1..], sep);
      var rest := Split(s[1..], sep);
      if |rest| == 1 {
        assert [s[0]] + rest[0] == s;
      } else {
        assert rest == [rest[0]] + rest[1..];
        assert Join(rest, sep) == rest[0] + [sep] + Join(rest[1..], sep);
        assert ([s[0]] + rest[0]) + [sep] + Join(rest[1..], sep) == [s[0]] + Join(rest, sep);
      }
    }
  }

  /** Splitting text that holds no separator gives that text as the only field. */
  lemma {:induction false} SplitNoSeparator(s: string, sep: char)
    requires sep !in s
    ensures Split(s, sep) == [s]
  {
    if s != [] {
      assert sep !in s[1..];
      SplitNoSeparator(s[1..], sep);
      assert [s[0]] + s[1..] == s;
    }
  }

  /** Splitting `a + [sep] + b`, where `a` holds no separator, gives `a` first and then the fields of `b`. */
  lemma {:induction false} SplitAtFirst(a: string, b: string, sep: char)
    requires sep !in a
    ensures Split(a + [sep] + b, sep) == [a] + Split(b, sep)
  {
    if a == [] {
      assert a + [sep] + b == [sep] + b;
      assert ([sep] + b)[1..] == b;
    } else {
      assert (a + [sep] + b)[1..] == a[1..] + [sep] + b;
      assert sep !in a[1..];
      SplitAtFirst(a[1..], b, sep);
      assert [a[0]] + a[1..] == a;
    }
  }

  /** The first field of a split is the text up to the first separator: all of
      the text when it holds none, and otherwise followed by that separator. */
  lemma {:induction false} SplitFirstField(s: string, sep: char)
    ensures |Split(s, sep)[0]| <= |s| && s[..|Split(s, sep)[0]|] == Split(s, sep)[0]
    ensures |Split(s, sep)[0]| < |s| ==> s[|Split(s, sep)[0]|] == sep
    ensures sep !in s ==> Split(s, sep)[0] == s
  {
    if s != [] && s[0] != sep {
      SplitFirstField(s[1..], sep);
      var f := Split(s[1..], sep)[0];
      assert Split(s, sep)[0] == [s[0]] + f;
      assert s[..|f| + 1] == [s[0]] + s[1..][..|f|];
      if sep !in s {
        assert sep !in s[1..];
        assert s == [s[0]] + s[1..];
      }
    }
  }

  function DigitChar(d: nat): (c: char)
    requires d < 10
    ensures '0' <= c <= '9'
    ensures DigitValue(c) == d
  {
    ('0' as int + d) as char
  }

  /** The value of one decimal digit. */
  function DigitValue(c: char): int
  {
    c as int - '0' as int
  }

  /** The number a string of decimal digits denotes, most significant first. */
  function DigitsValue(s: string): int
  {
    if s == [] then 0 else 10 * DigitsValue(s[..|s| - 1]) + DigitValue(s[|s| - 1])
  }

  /** The decimal text of a count, as a template literal renders it: digits
      denoting `n`, with no leading zero. */
  function Decimal(n: nat): (r: string)
    ensures |r| >= 1
    ensures forall i :: 0 <= i < |r| ==> '0' <= r[i] <= '9'
    ensures n < 10 <==> |r| == 1
    ensures DigitsValue(r) == n
    ensures r[0] == '0' <==> n == 0
  {
    if n < 10 then
      var r := [DigitChar(n)];
      assert r[..0] == [];
      r
    else
      var front := Decimal(n / 10);
      var r := front + [DigitChar(n % 10)];
      assert r[..|r| - 1] == front;
      r
  }

  /** The decimal text of any integer, with a leading minus sign when negative. */
  function IntText(n: int): (r: string)
    ensures |r| >= 1
    ensures (r[0] == '-') <==> n < 0
    ensures n < 0 ==> DigitsValue(r[1..]) == -n
    ensures n >= 0 ==> DigitsValue(r) == n
    ensures var digits := if n < 0 then r[1..] else r;
      |digits| >= 1 && (forall i :: 0 <= i < |digits| ==> '0' <= digits[i] <= '9') && (digits[0] == '0' <==> n == 0)
  {
    if n < 0 then
      var r := "-" + Decimal(-n);
      assert r[1..] == Decimal(-n);
      r
    else Decimal(n)
  }

  /** The ascending string order of a sort on a text field: character by
      character, a prefix before every longer string. */
  predicate LexLeq(a: string, b: string)
  {
    a == [] || (b != [] && (a[0] < b[0] || (a[0] == b[0] && LexLeq(a[1..], b[1..]))))
  }

  /** Any two strings are ordered one way or the other. */
  lemma {:induction false} LexTotal(a: string, b: string)
    ensures LexLeq(a, b) || LexLeq(b, a)
  {
    if a != [] && b != [] && a[0] == b[0] {
      LexTotal(a[1..], b[1..]);
    }
  }
}

=== FILE: users.dfy ===
/** The user store of `userController` (and of `authController`, which adds to
    it): accounts keyed by identifier, with email addresses held by one account
    each, and soft deletion through the `isActive` flag. */
module Users {
  import opened Common
  import opened Store
  import opened Domain
  import opened Text

  /** What the user directory shows of an account: `select('name email avatar role -password')`. */
  datatype Profile = Profile(id: Id, name: string, email: string, avatar: string, role: string)

  function ProfileOf(d: Doc<User>): (p: Profile)
    ensures p.id == d.id && p.name == d.body.name && p.email == d.body.email
    ensures p.avatar == d.body.avatar && p.role == d.body.role
  {
    Profile(d.id, d.body.name, d.body.email, d.body.avatar, d.body.role)
  }

  function IsActive(): Doc<User> -> bool
  {
    (d: Doc<User>) => d.body.isActive
  }

  /** `sort({ name: 1 })`. */
  function ByName(): (Doc<User>, Doc<User>) -> bool
  {
    (a: Doc<User>, b: Doc<User>) => LexLeq(a.body.name, b.body.name)
  }

  lemma ByNameTotal()
    ensures Total(ByName())
  {
    forall a: Doc<User>, b: Doc<User> ensures ByName()(a, b) || ByName()(b, a) {
      LexTotal(a.body.name, b.body.name);
    }
  }

  /** The position of the first account with this email (`findOne({ email })`). */
  function IndexOfEmail(docs: seq<Doc<User>>, email: string): (r: Option<nat>)
    ensures r.Some? ==> r.value < |docs| && docs[r.value].body.email == email
    ensures r.None? <==> forall k :: 0 <= k < |docs| ==> docs[k].body.email != email
  {
    if docs == [] then None
    else if docs[0].body.email == email then Some(0)
    else match IndexOfEmail(docs[1..], email)
      case None => None
      case Some(k) => Some(k + 1)
  }

  /** No two accounts share an email address. */
  ghost predicate UniqueEmails(docs: seq<Doc<User>>)
  {
    forall i, j :: 0 <= i < j < |docs| ==> docs[i].body.email != docs[j].body.email
  }

  /** The profile fields `updateProfile` writes: a truthy name or avatar replaces
      the old one, a truthy email other than the current one replaces it, and a
      truthy role replaces it unless it is `user`. */
  function ApplyProfile(u: User, name: Option<string>, email: Option<string>, avatar: Option<string>,
                        role: Option<string>): (r: User)
    ensures r.name == (if Present(name) then name.value else u.name)
    ensures r.email == (if Present(email) then email.value else u.email)
    ensures r.avatar == (if Present(avatar) then avatar.value else u.avatar)
    ensures r.role == (if Present(role) && role.value != "user" then role.value else u.role)
    ensures r.password == u.password && r.isActive == u.isActive
  {
    u.(name := if Present(name) then name.value else u.name,
       email := if Present(email) then email.value else u.email,
       avatar := if Present(avatar) then avatar.value else u.avatar,
       role := if Present(role) && role.value != "user" then role.value else u.role)
  }

  /** A profile update never gives an account the role `user` it did not have already. */
  lemma RoleNeverResetToUser(u: User, name: Option<string>, email: Option<string>, avatar: Option<string>,
                             role: Option<string>)
    requires u.role != "user"
    ensures ApplyProfile(u, name, email, avatar, role).role != "user"
  {
  }

  /** The active accounts, sorted by name. */
  function ActiveByName(docs: seq<Doc<User>>): (r: seq<Doc<User>>)
    ensures |r| == |Where(docs, IsActive())|
    ensures forall i :: 0 <= i < |r| - 1 ==> LexLeq(r[i].body.name, r[i + 1].body.name)
    ensures forall d :: d in r <==> d in docs && d.body.isActive
  {
    ByNameTotal();
    var active := Where(docs, IsActive());
    var sorted := SortBy(active, ByName());
    assert |multiset(sorted)| == |multiset(active)|;
    assert forall d :: d in sorted <==> d in multiset(sorted);
    assert forall d :: d in active <==> d in multiset(active);
    sorted
  }

  /** The directory entry of each account, in order. */
  function Profiles(s: seq<Doc<User>>): (r: seq<Profile>)
    ensures |r| == |s| && forall i :: 0 <= i < |s| ==> r[i] == ProfileOf(s[i])
  {
    seq(|s|, i requires 0 <= i < |s| => ProfileOf(s[i]))
  }

  /** The directory keeps the order of the accounts it is built from. */
  lemma ProfilesSorted(s: seq<Doc<User>>)
    requires forall i :: 0 <= i < |s| - 1 ==> LexLeq(s[i].body.name, s[i + 1].body.name)
    ensures forall i :: 0 <= i < |s| - 1 ==> LexLeq(Profiles(s)[i].name, Profiles(s)[i + 1].name)
  {
  }

  /** The directory holds an entry for each account, and only those. */
  lemma ProfilesMembers(s: seq<Doc<User>>)
    ensures forall d :: d in s ==> ProfileOf(d) in Profiles(s)
    ensures forall p :: p in Profiles(s) ==> exists d :: d in s && ProfileOf(d) == p
  {
    var r := Profiles(s);
    forall d | d in s ensures ProfileOf(d) in r {
      var i :| 0 <= i < |s| && s[i] == d;
      assert r[i] == ProfileOf(d);
    }
    forall p | p in r ensures exists d :: d in s && ProfileOf(d) == p {
      var i :| 0 <= i < |r| && r[i] == p;
      assert s[i] in s;
    }
  }

  class UserStore {
    /** The `User` collection, in insertion order. */
    var docs: seq<Doc<User>>

    ghost predicate Valid()
      reads this
    {
      UniqueIds(docs) && UniqueEmails(docs)
    }

    constructor ()
      ensures Valid() && docs == []
    {
      docs := [];
    }

    /** `getAllUsers`: the profiles of the active accounts, sorted by name. */
    function GetAllUsers(): (r: seq<Profile>)
      reads this
      ensures |r| == |Where(docs, IsActive())|
      ensures forall i :: 0 <= i < |r| - 1 ==> LexLeq(r[i].name, r[i + 1].name)
      ensures forall d :: d in docs && d.body.isActive ==> ProfileOf(d) in r
      ensures forall p :: p in r ==> exists d :: d in docs && d.body.isActive && ProfileOf(d) == p
    {
      var sorted := ActiveByName(docs);
      ProfilesSorted(sorted);
      ProfilesMembers(sorted);
      Profiles(sorted)
    }

    /** `updateProfile` of the caller's own account: 404 when it is missing, 400
        when the new email belongs to another account, else the fields are written. */
    method UpdateProfile(caller: Id, name: Option<string>, email: Option<string>, avatar: Option<string>,
                         role: Option<string>) returns (code: int)
      requires Valid()
      modifies this
      ensures Valid()
      ensures match IndexOf(old(docs), caller)
        case None => code == NotFound404 && docs == old(docs)
        case Some(i) =>
          if Present(email) && email.value != old(docs)[i].body.email && IndexOfEmail(old(docs), email.value).Some?
          then code == BadRequest400 && docs == old(docs)
          else code == Ok200 && docs == old(docs)[i := old(docs)[i].(body := ApplyProfile(old(docs)[i].body, name, email, avatar, role))]
    {
      var found := IndexOf(docs, caller);
      if found.None? {
        return NotFound404;
      }
      var i := found.value;
      if Present(email) && email.value != docs[i].body.email && IndexOfEmail(docs, email.value).Some? {
        return BadRequest400;
      }
      var d := docs[i].(body := ApplyProfile(docs[i].body, name, email, avatar, role));
      UpdatedKeepsUnique(docs, i, d);
      docs := docs[i := d];
      code := Ok200;
    }

    /** `deleteUser`: 404 for an unknown account, else the account is deactivated
        and kept. */
    method DeleteUser(id: Id) returns (code: int)
      requires Valid()
      modifies this
      ensures Valid()
      ensures match IndexOf(old(docs), id)
        case None => code == NotFound404 && docs == old(docs)
        case Some(i) => code == Ok200 && docs == old(docs)[i := old(docs)[i].(body := old(docs)[i].body.(isActive := false))]
      ensures |docs| == |old(docs)|
      ensures forall d :: d in docs ==> d.id != id || !d.body.isActive
      ensures forall p :: p in GetAllUsers() ==> p.id != id
    {
      var found := IndexOf(docs, id);
      if found.None? {
        return NotFound404;
      }
      var i := found.value;
      var d := docs[i].(body := docs[i].body.(isActive := false));
      UpdatedKeepsUnique(docs, i, d);
      docs := docs[i := d];
      code := Ok200;
    }
  }
}
